=== FILE: README.md ===
# PSO2LogReader core, modelled in Dafny

PSO2LogReader follows the chat and action logs that Phantasy Star Online 2 writes into its log
folders. It reads each file from where it last stopped, turns each record into an entry, and
puts the entries back into sequence order before the handlers see them. Around that core sit
small pieces of bookkeeping and text handling, which the handlers use:

- a chatter detector;
- the casino tally;
- the item tally with its report;
- the delayed item report;
- a reload-if-newer cache for user files;
- the special-item sound table;
- the lobby action table;
- the chat-command stripper;
- the pure parts of the lobby-action scraper.

This project models that core and proves what it promises.

| file | module | models |
|---|---|---|
| `entry.dfy` | `LogEntry` | `Entry`: row normalisation, time-stamp slicing, comparison by sequence number, `Name(n)` attribute lookup |
| `segment.dfy` | `Segment` | `LogFile`: category from the file name, and the all-or-nothing reader `_tail` over the file's content |
| `folder.dfy` | `Folder` | `LogFolder`: categories, the newest file per category, `newlog` and `remove` |
| `reorder.dfy` | `Reorder` | `seqregurator`: the reorder buffer, with `flush` and one turn of `main` |
| `talkatives.dfy` | `Talkatives` | `TalkativesDetector` |
| `casino.dfy` | `Casino` | `CasinoCounter` |
| `items.dfy` | `Items` | `ItemCounter` (`add`, `sorted_items`), and both versions of `pair2name` |
| `ladict.dfy` | `LaDict` | both versions of `LaDict.load`, and `LaDict.__call__` |
| `spitem.dfy` | `SpItem` | `SpItem.load` |
| `reporter.dfy` | `Reporter` | `DelayedReporter` of app/misc.py |
| `usersfile.dfy` | `Users` | `UsersFile` of app/misc.py |
| `chatcmd.dfy` | `ChatCommand` | `chatcmd.strip`, with recognisers for `cmd_rex` and `color_rex` |
| `scraping.dfy` | `Scraping` | the translation tables, `name_regulator`, and `records()` of `la_scraping.py` |
| `text.dfy`, `wrappers.dfy` | `Text`, `Wrappers` | the Python string operations used throughout, `Option` and `Result` |

How the source's forms are carried over:

- **Mutable state becomes classes.** Objects whose methods update fields are classes with those
  fields: `LogFile`, `LogFolder`, the reorder buffer, the detector, the tallies, the reporter and
  the cache. Each method is proved against a function of the old state.
- **Loops become methods with invariants.** This covers `_tail`, `flush`, the loaders, `strip`
  and `records()`. Each method is proved equal to a recursive specification function, and the
  properties are proved about that function.
- **Heaps become sorted sequences.** Python's heaps are modelled as sequences sorted by the heap
  key, popped from the front.
- **Clock readings are parameters.** They are real numbers passed to the method that reads them.
- **Loader results are parameters too.** So are the file's modification time and the file's
  content.
- **Errors become `Result` values.** Where the source raises (`IndexError`, `ValueError`,
  `IncompleteLineError`, a failed `re.match`), the model returns `Err` or `None`.

## Model

| member | source | states |
|---|---|---|
| LogEntry.SplitTabs | logpump.py:24 | `split("\t")` gives at least one piece, none holding a tab |
| LogEntry.JoinSplitTabs | logpump.py:23-25 | joining the pieces of the split with tabs gives back the third column |
| LogEntry.SplitJoinTabs | logpump.py:23-25 | splitting tab-free pieces joined by tabs gives back the pieces |
| LogEntry.Normalize | logpump.py:21-26 | the category is the last column; a row that does not have exactly 3 columns is kept as is before it; a 3-column row keeps its first two columns, and its third is replaced by tab-free parts that join back to it |
| LogEntry.ParseStamp | logpump.py:41-48 | a stamp is read only when the six fixed-width slices each parse as an integer and form a date `datetime` accepts; each field is the value of its slice |
| LogEntry.ParseFormatStamp | logpump.py:41-48 | a stamp in the game's `YYYY-MM-DDTHH:MM:SS` form is read back as the date and time it was written from |
| LogEntry.Create | logpump.py:21-28 | an entry is built exactly when the stamp parses and a second column exists and parses as an integer. Its columns are the normalised row, its category is the one given, its sequence is `int(self[1])` and its time stamp is the epoch of the parsed stamp. Otherwise the error is the one Python raises first |
| LogEntry.ComparisonIgnoresColumns | logpump.py:30-34 | (holds by definition) `==` and `<` look at the sequence number only: changing the columns or the time stamp changes neither |
| LogEntry.DigitRunEnd | logpump.py:58 | the `\d+` run from a position ends at the first non-digit |
| LogEntry.SearchAttr | logpump.py:58-62 | `re.search` gives `None` exactly when the pattern matches at no position |
| LogEntry.SearchFirst | logpump.py:58-62 | when several positions match, `re.search` gives the value of the leftmost match |
| LogEntry.Attribute | logpump.py:57-63 | the lookup gives `None` exactly when no column holds a `Name(-?\d+)` match |
| LogEntry.AttributeFirst | logpump.py:57-63 | the value found is that of the first column holding a match, whatever later columns hold |
| LogEntry.AttributeOfRendered | logpump.py:57-63 | a column written `Name(n)`, with no match in an earlier column, is read back as `n` |
| Segment.BaseName | logpump.py:84 | the file name is a suffix of the path and holds no separator |
| Segment.BaseNameWhole | logpump.py:84 | the file name is the whole last component: it is the path itself, or a separator stands just before it |
| Segment.LastDot | logpump.py:84 | the last `.` of a name, or `None` when it has none |
| Segment.Stem | logpump.py:84 | the stem is a prefix of the file name |
| Segment.StemSuffix | logpump.py:84 | the stem is shorter than the name exactly when the last `.` is neither the first nor the last character, and it then ends just before that `.` |
| Segment.LastMarker | logpump.py:89 | the greatest position from 1 that is followed by `Log` or `_log` |
| Segment.Cate | logpump.py:88-89 | the category is the longest non-empty prefix of the stem that is followed by `Log` or `_log`; `None` (the failed match) exactly when there is none |
| Segment.LineEnd | logpump.py:108 | a line ends just past its first newline, or at the end of the content |
| Segment.ReadLine | logpump.py:108 | `readline` returns the content from the position up to and including the next newline, or the rest when there is none; empty only at the end |
| Segment.LogFile.constructor | logpump.py:81-84 | a new file is read from just past its byte-order mark, an existing one from its end; the category is the one its name gives |
| Segment.LogFile.Tail | logpump.py:103-120 | all or nothing. It succeeds exactly when the unread text is empty, or ends with a newline with its `"` balanced. Then the lines concatenate to exactly the unread text, each ends with its only newline, and the position moves to the end. On error the position does not move |
| Segment.NextRecord | logpump.py:107-120 | one turn of the outer loop: the end of the content, a record of complete lines with an even number of `"` covering the text it consumed, or an error when what follows is unterminated or its quotes never close |
| Segment.CloseQuotes | logpump.py:115-120 | while the record's `"` count is odd the next line is appended; the record ends on a newline with an even count, or the content cannot close it |
| Segment.AppendRecord | logpump.py:114-120 | appending a record keeps the reader's invariant: its lines cover the text read so far and their quotes balance |
| Segment.Delivered | logpump.py:109-111 | at the end of the content the lines read are exactly the unread text, and that text is deliverable |
| Segment.Undeliverable | logpump.py:112-118 | an error after a balanced prefix means that the whole unread text is undeliverable |
| Segment.QuoteCountAppend | logpump.py:115 | the number of `"` in a concatenation is the sum of the numbers in its parts |
| Folder.Categories | logpump.py:174-175 | the categories are exactly those of the listed files; it fails, naming the file, exactly when some listed file has none |
| Folder.NewestOf | logpump.py:177-179 | `max` over the files whose stem starts with the category: a candidate that no candidate exceeds, or `None` exactly when there is no candidate |
| Folder.NewestExists | logpump.py:177-182 | each category found has a newest file |
| Folder.Tracked | logpump.py:181-183 | the tracked paths are exactly the newest files of the categories: each is a listed file and the newest of some category, and the newest file of every category is among them |
| Folder.OpenAll | logpump.py:181-183 | one fresh reader per path, stored under that path, with that path's category and positioned at the file's end |
| Folder.LogFolder.constructor | logpump.py:181-183 | once every listed file has a category, the table tracks exactly the newest file of each category, each read from its end |
| Folder.LogFolder.Open | logpump.py:169-183 | `__init__`: it fails, naming the file `LogFile.cate` fails on, exactly when a listed file has no category; otherwise a fresh folder tracks exactly the newest file of each category, each read from its end |
| Folder.LogFolder.NewLog | logpump.py:191-192 | a new file is added under its path and read from just past its byte-order mark, replacing any reader there; other paths are unchanged; a name with no category raises and changes nothing |
| Folder.LogFolder.Remove | logpump.py:194-199 | the path is no longer tracked, and nothing else changes; an unknown path is ignored |
| Folder.CateIsGreedy | logpump.py:89 | (example) `ChatLogLog` has category `ChatLog`: the longest prefix wins |
| Folder.CateNeedsPrefix | logpump.py:89 | (example) the stem `Log` has no category, since `.+` needs a character |
| Reorder.Range | logpump.py:131 | `range(a, b)`: `b - a` consecutive numbers from `a`, or none |
| Reorder.InsertAddsEntry | logpump.py:150 | `heappush` adds exactly the entry |
| Reorder.InsertSorted | logpump.py:150 | pushing keeps the heap ordered by sequence number |
| Reorder.InsertAscending | logpump.py:150 | pushing a number not held keeps the held numbers distinct |
| Reorder.FlushEmitsAll | logpump.py:126-136 | `flush` hands on the whole heap in pop order and returns one past the last number, or the cursor unchanged when the heap is empty |
| Reorder.FlushDrops | logpump.py:126-136 | the numbers reported dropped are exactly those from the cursor up to the last number that no held entry carries |
| Reorder.FlushDropsAscending | logpump.py:131-135 | the dropped numbers are reported in ascending order, none below the cursor |
| Reorder.ReleaseConsecutive | logpump.py:151-154 | the releasing loop hands on a prefix of the heap numbered consecutively from the cursor, advances the cursor once per entry, and stops at the first gap |
| Reorder.ReleaseRest | logpump.py:151-154 | what the releasing loop leaves is the tail of the heap |
| Reorder.MaxStampIsMax | logpump.py:159-160 | `max(ts)` is a time stamp of a held entry, and no held entry has a greater one |
| Reorder.MinStampIsMin | logpump.py:159-160 | `min(ts)` is a time stamp of a held entry, and no held entry has a smaller one |
| Reorder.PrepareConserves | logpump.py:144-148 | the restart check loses nothing: what it hands on plus what it keeps is what was held |
| Reorder.SettleConserves | logpump.py:150-161 | pushing, releasing and giving up lose nothing and duplicate nothing |
| Reorder.IngestConserves | logpump.py:142-161 | one turn: what is handed on plus what is held equals what was held plus the new entry, as multisets |
| Reorder.FeedConserves | logpump.py:138-161 | over any run of entries, nothing is lost or handed on twice |
| Reorder.SettleSorted | logpump.py:150-161 | the rest of a turn keeps the heap ordered |
| Reorder.IngestSorted | logpump.py:142-161 | a turn keeps the heap ordered |
| Reorder.RestartFlushesFirst | logpump.py:144-154 | the first entry, or one numbered below the cursor, restarts the buffer: everything held is handed on first, in heap order, with the drops `flush` reports and its returned cursor discarded; the new entry comes next; the buffer is left empty expecting the entry's number plus one, without giving up; only a real restart is flagged |
| Reorder.ReleaseAbove | logpump.py:151-154 | on distinct numbers at or above the cursor, what the loop leaves is above the new cursor |
| Reorder.PreparePending | logpump.py:144-150 | in the steady state, with a number not held, the heap after the push holds distinct numbers at or above the cursor |
| Reorder.IngestPending | logpump.py:142-161 | without a repeated number, a turn keeps the steady state: nothing held at or below the cursor, no number held twice |
| Reorder.FeedPending | logpump.py:138-161 | a run of distinct numbers, none held already, keeps the steady state |
| Reorder.SettleInOrder | logpump.py:150-154 | a turn that does not give up hands on entries numbered consecutively from the cursor and drops nothing |
| Reorder.IngestInOrder | logpump.py:150-154 | an ordinary turn (no restart, no giving up) hands on entries numbered consecutively from the cursor, and the cursor advances by their count; an entry equal to the cursor goes at once |
| Reorder.IngestGivesUp | logpump.py:156-161 | giving up hands on everything held, in ascending order. It reports as dropped exactly the numbers between the cursor and the last one that were never seen, and sets the cursor one past the last |
| Reorder.IngestGivesUpExactly | logpump.py:156-161 | a turn gives up exactly when the entries held after the releasing loop span more than 3 seconds, so after every turn any two held time stamps differ by at most 3 |
| Reorder.StillAbsent | logpump.py:150-161 | numbers neither held nor pushed are not held after the turn |
| Reorder.HasSeqAppend | logpump.py:150 | a number is held in a concatenation exactly when it is held in one of its parts |
| Reorder.SeqRegulator.constructor | logpump.py:138-140 | nothing held, and no number expected |
| Reorder.SeqRegulator.FlushHeap | logpump.py:126-136 | the heap is popped empty, and the result is that of `Flush` on the old heap |
| Reorder.SeqRegulator.ReleaseHeap | logpump.py:151-154 | the releasing loop pops exactly what `Release` hands on, leaves its rest as the heap, and returns the number expected next |
| Reorder.SeqRegulator.Push | logpump.py:138-165 | `coro.send(entry)`: the new heap, cursor, handed-on entries and dropped numbers are those of `Ingest` on the old state |
| Talkatives.Live | misc.py:129-132 | the entries still live at a time are exactly those expiring at or after it |
| Talkatives.Mentions | misc.py:125 | `any(x[1] == text ...)` holds exactly when some entry remembers the text |
| Talkatives.Push | misc.py:126 | `heappush` adds exactly the new entry |
| Talkatives.PushOrdered | misc.py:126 | pushing keeps the heap in expiry order |
| Talkatives.LiveSuffix | misc.py:129-132 | in heap order, popping the expired entries leaves exactly the live ones |
| Talkatives.TalkativesDetector.constructor | misc.py:118-119 | nothing remembered |
| Talkatives.TalkativesDetector.Forget | misc.py:129-132 | pops only the entries expiring before `t`; the rest stay in heap order, each expiring at or after `t` |
| Talkatives.TalkativesDetector.Check | misc.py:121-127 | true exactly when the text was remembered with an expiry at or after now; the text is always remembered until `now + period` (the source's `period` defaults to 60 seconds; the callers in main.py:96-102 pass their own guard time, 60 for speech and 1 for sounds by default), after the expired entries are forgotten |
| Talkatives.RepeatWithinPeriod | misc.py:121-127 | the same text again, no later than `period` after, is reported |
| Casino.Hits | misc.py:159 | the hits never exceed the rounds |
| Casino.TrailingLosses | misc.py:154-158 | `defeats` is the length of the run of losses that ends the history: all of them are losses, and the round before is a win |
| Casino.LongestLosses | misc.py:156 | `defeats_max` is at least `defeats` and at most the number of rounds |
| Casino.LongestLossesIsLongest | misc.py:154-156 | `defeats_max` is the longest run of losses: no run is longer, and one run is that long |
| Casino.TrailingBound | misc.py:154-158 | a run of losses that reaches the end is no longer than `defeats` |
| Casino.RecentWindow | misc.py:137-153 | the deque holds the outcomes `min(1, ret)` of the last 30 rounds, oldest first |
| Casino.RecentAppended | misc.py:137-153 | one more round drops the oldest outcome when 30 are held, and appends the new one |
| Casino.Appended | misc.py:149-159 | one more round adds its bet, its return, a hit for a win, a loss to the run for a loss (a win ends the run), and may raise the longest run |
| Casino.OutcomeSum | misc.py:168-172 | outcomes of 0 or 1 sum to at most their number |
| Casino.RecentOutcomes | misc.py:153 | with no negative return, each outcome in the deque is 0 or 1 |
| Casino.MeanOutcome | misc.py:168-172 | with no negative return, the mean of the deque is between 0 and 1 |
| Casino.CasinoCounter.constructor | misc.py:136-138 | every counter starts at zero |
| Casino.CasinoCounter.Reset | misc.py:140-147 | every counter back to zero, and the deque emptied |
| Casino.CasinoCounter.Update | misc.py:149-159 | `count`, `bet` and `ret` accumulate. A loss lengthens `defeats`; a win resets it and counts a hit. Every counter stays what the rounds since the reset make it, the deque included (so, by `RecentWindow`, it holds the outcomes of the last 30 rounds), with `defeats <= defeats_max` and `hit <= count` |
| Casino.CasinoCounter.Income | misc.py:174-176 | the returns less the bets of all rounds since the reset |
| Casino.CasinoCounter.HitRate | misc.py:167-172 | with no negative return, the hit rate is between 0 and 1 |
| Items.PrecedesTransitive | misc.py:187 | the sort key `(-count, name)` is transitive |
| Items.PrecedesTotal | misc.py:187 | pairs with different names are ordered one way or the other |
| Items.InsertRanked | misc.py:187 | inserting a pair adds exactly that pair |
| Items.InsertRankedKeepsRank | misc.py:187 | inserting keeps the list in report order |
| Items.ItemCounter.constructor | misc.py:179 | the tally starts empty |
| Items.ItemCounter.Add | misc.py:180-183 | a missing item starts at 0 and gets `num` added; every other item is unchanged |
| Items.ItemCounter.SortedItems | misc.py:185-188 | exactly the items with a positive count, each once, with its count, ordered by count descending, then name ascending |
| Items.Unit | misc.py:190-193 | the unit is one of `枚`, `Kg` and `個` |
| Items.UnitRules | misc.py:203-207 | the first rule that applies wins: `枚` exactly when the name holds `券`, `メダル`, `バッヂ` or `パス`; otherwise `Kg` exactly when it holds `肉`; otherwise `個` |
| Items.UnitExamples | misc.py:190-207 | `肉券` is counted in `枚`, since the ticket rule comes first; `霜降り肉` in `Kg` |
| Items.PairToName | misc.py:196-208 | text for every pair, empty only for an empty name; `メセタ` itself is an amount that reads back (PairToNameVersions with MesetaReadsBack), and every other name is counted (CountedReadsBackMisc) |
| Items.PairToNameApp | app/misc.py:197-209 | text for every pair, empty only for an empty name |
| Items.PairToNameVersions | misc.py:199-208 | the two versions agree except on names that end in `メセタ` without being `メセタ`, which app/misc.py shows as an amount; misc.py counts every name other than `メセタ` itself |
| Items.MesetaReadsBack | app/misc.py:200-201 | a meseta amount ends in `メセタ`, and its number, without group commas, reads back as the amount |
| Items.CountedShape | misc.py:201-208 | a counted item: a count of 1 shows the bare name; any other count shows `item(num unit)`, whose number reads back as `num` |
| Items.CountedReadsBack | app/misc.py:202-209 | in app/misc.py, a name not ending in `メセタ`: a count of 1 shows the bare name; any other count shows `item(num unit)`, whose number reads back as `num` |
| Items.CountedReadsBackMisc | misc.py:199-208 | in misc.py, any name other than `メセタ` (including `ゴールドメセタ`): a count of 1 shows the bare name; any other count shows `item(num unit)`, whose number reads back as `num` |
| LaDict.FirstShort | misc.py:82-93 | the first taken row that is too short for a column the loader reads, or `None` exactly when none is |
| LaDict.FirstShortAt | misc.py:82-93 | a short taken row with no short row before it is the first one |
| LaDict.TableNames | misc.py:82-87 | the table names exactly the commands of the taken rows (four or more fields and a command), each by the name in its last row |
| LaDict.TableFlags | misc.py:88-93 | the loop, reaction and notrade sets hold exactly the commands of taken rows with that flag `"1"` |
| LaDict.ReactionExcluded | misc.py:90 | `reaction` itself is never in the reaction set |
| LaDict.TableStep | misc.py:82-93 | one more row, as the table sees it |
| LaDict.Load | misc.py:74-97 | fails with `IndexError` at column 4 of the first taken row of exactly four fields; otherwise it is the table of all rows |
| LaDict.LabelsFlags | app/misc.py:85-93 | each label is present exactly when its column holds "1" |
| LaDict.LabelsKnown | app/misc.py:85-93 | there are at most four labels and each is one of Loop, Reaction, NoTrade, Finger |
| LaDict.SpaceAt | app/misc.py:94 | the first space of a note, or its end |
| LaDict.WordsOfJoin | app/misc.py:94 | cutting a space-joined list of non-empty, space-free words at its spaces gives back the words |
| LaDict.NoteReadsBack | app/misc.py:85-94 | the note reads back as exactly the labels of the flags set |
| LaDict.ActionsOfRows | app/misc.py:80-94 | the table holds an action for exactly the commands of the taken rows, from the last row of each, with name, command and note |
| LaDict.ActionsStep | app/misc.py:80-94 | one more row, as the table sees it |
| LaDict.RowAction | app/misc.py:84-94 | a taken row of six or more fields gives `LobbyAction(name, cmd, note)`; a shorter one fails at its first missing column |
| LaDict.LoadActions | app/misc.py:74-95 | fails with `IndexError` at the first missing column of the first taken row of four or five fields; otherwise it is the table of all rows |
| LaDict.Lookup | app/misc.py:97-100 | the stored action for a known command, `None` exactly for an unknown one |
| SpItem.ClassifyMeaning | misc.py:49-60 | an item is the whole stripped line; a section header is its sound in brackets; a pattern is the text between its slashes |
| SpItem.Kinds | misc.py:48-49 | one kind per line, that of the stripped line |
| SpItem.SoundAfterMeaning | misc.py:46-53 | no sound before the first section header; after it, the sound of the last header read |
| SpItem.TableStep | misc.py:48-60 | one more line, as each part of the table and the sound in force see it |
| SpItem.Load | misc.py:43-62 | the table is the one the classified lines make |
| SpItem.Fill | misc.py:46-60 | the loop builds the table of all lines, in order |
| SpItem.SoundsAreSections | misc.py:52-54 | the sounds are exactly the section names |
| SpItem.PatternsWithSounds | misc.py:56-58 | the patterns are exactly the `/.../` lines, each with the sound in force where it appears |
| SpItem.ItemsWithSounds | misc.py:60 | the items are exactly the item lines; an item listed twice keeps the sound of its last line |
| Reporter.Resume | app/misc.py:230-243 | one step fires exactly when something was put since the last report and the clock has reached the expiry of the latest put. It keeps waiting exactly when something was put and the expiry is ahead. It never does both |
| Reporter.DelayedReporter.constructor | app/misc.py:215-220 | an empty tally, no expiry, nothing added |
| Reporter.DelayedReporter.Put | app/misc.py:225-228 | the item is added to the tally and nothing else changes; the expiry is `now + 30`, and `added` is set |
| Reporter.DelayedReporter.Update | app/misc.py:222-243 | the step `Resume` describes; when it fires it reports the tally as it was and starts an empty one; otherwise the tally stays |
| Reporter.QuietUntilExpiry | app/misc.py:235-238 | after a put, steps before its expiry never fire and keep waiting |
| Reporter.AtMostOnce | app/misc.py:230-243 | with no put in between, steps fire at most once, and never when nothing was put |
| Users.Refresh | app/misc.py:24-33 | a newer file is loaded and its time kept. An older or equal one changes nothing. A missing file uses `loader2` only when nothing is loaded yet. The time never decreases, and loaded data is never lost |
| Users.SecondCallKeeps | app/misc.py:27-29 | a second call seeing the same modification time loads nothing |
| Users.UsersFile.constructor | app/misc.py:16-19 | no data, time 0 |
| Users.UsersFile.Call | app/misc.py:24-33 | the new state is `Refresh` of the old, and the current data is returned |
| ChatCommand.Lit | chatcmd.py:4-12 | a literal matches exactly where it occurs, and ends after it |
| ChatCommand.RunEnd | chatcmd.py:6-12 | a greedy run ends at the first character outside the class |
| ChatCommand.FirstWord | chatcmd.py:4-10 | the first word alternative that occurs, and after which the rest matches; it ends after the start |
| ChatCommand.Alt8 | chatcmd.py:12 | `ce\d...` matches only at `ce` followed by a digit |
| ChatCommand.FirstAlt | chatcmd.py:14 | alternation: no match exactly when no alternative matches; a match consumes at least one character |
| ChatCommand.MatchIn | chatcmd.py:14 | `^/(...) ?` matches only text that starts with `/`, and consumes at least two characters |
| ChatCommand.MatchCommandAsWritten | chatcmd.py:3-15 | `cmd_rex.match` with the alternatives in their written order |
| ChatCommand.MatchCommand | chatcmd.py:3-15 | `cmd_rex.match` with the cut-in alternatives in the intended order |
| ChatCommand.NoWordAt | chatcmd.py:4-10 | no word alternative matches where no word's first character is |
| ChatCommand.CutInShadowed | chatcmd.py:7-14 | as written, any text that `ce\d(...)` matches is taken by `ce(all)?` instead, which stops after `/ce` |
| ChatCommand.CutInTaken | chatcmd.py:12-14 | in the intended order, `ce\d(...)` takes the whole cut-in with its number and speed |
| ChatCommand.CutInExampleSpeed | chatcmd.py:12 | in `/ce1 s0.5 hi` the cut-in with its speed ends before `hi` |
| ChatCommand.CutInExample | chatcmd.py:7-14 | `/ce1 s0.5 hi`: as written the match is `/ce`; in the intended order it is `/ce1 s0.5 ` |
| ChatCommand.RemoveColours | chatcmd.py:16-20 | removing tags never lengthens the text |
| ChatCommand.NoTagUnchanged | chatcmd.py:16-20 | text with no tag is left as it is |
| ChatCommand.TagDropped | chatcmd.py:16-20 | a tag is dropped, and the text before it (tag-free) and after it is kept |
| ChatCommand.SinglePass | chatcmd.py:16-20 | one pass only: `{re{red}d}` becomes `{red}` |
| ChatCommand.Commands | chatcmd.py:23-25 | with the alternatives tried in a given order, removing commands from the start leaves a suffix that starts with no command and, unless the text did, with no whitespace |
| ChatCommand.StrippedMeaning | chatcmd.py:20-27 | in either order of the alternatives, the result is a suffix of the colour-free text and never starts with whitespace. Text that starts with whitespace loses only that whitespace. Otherwise the result starts with no command |
| ChatCommand.LStripNoSpace | chatcmd.py:24-25 | left-stripping text that starts with no whitespace changes nothing |
| ChatCommand.CommandsStep | chatcmd.py:23-25 | in either order of the alternatives, removing one command strictly shortens the text, and leaves the result unchanged |
| ChatCommand.Strip | chatcmd.py:19-27 | `strip(text)` with `cmd_rex` as written: the colour-free text with its leading commands removed; a suffix of it that never starts with whitespace |
| ChatCommand.StripExample | chatcmd.py:3-27 | `strip` of `/ce1 s0.5 hi` leaves `1 s0.5 hi` as written, and `hi` with the alternatives in the intended order |
| ChatCommand.StripRest | chatcmd.py:23-25 | after a command at the front, text that starts with neither whitespace nor `/` is what is left |
| Scraping.Han2ZenChar | la_scraping.py:13-15 | `!` to `}` go 0xFEE0 up, a space goes to U+3000, anything else is kept |
| Scraping.Zen2HanChar | la_scraping.py:12-14 | U+FF01 to U+FF5D go 0xFEE0 down, U+3000 goes to a space, anything else is kept |
| Scraping.Han2Zen | la_scraping.py:17-29 | translation keeps the length and maps each character |
| Scraping.Zen2Han | la_scraping.py:16 | translation keeps the length and maps each character |
| Scraping.ZenHanRoundTrip | la_scraping.py:12-17 | text with no full-width form and no U+3000 survives a round trip through both tables |
| Scraping.Han2ZenIdempotent | la_scraping.py:13-17 | translating twice is translating once |
| Scraping.DigitEnd | la_scraping.py:11 | the `\d+` run ends at the first non-digit |
| Scraping.NewlineFrom | la_scraping.py:11 | `.` stops at the first newline |
| Scraping.LastClose | la_scraping.py:11 | the last `」` in a range, where greedy `.+` backtracks to |
| Scraping.BracketMatch | la_scraping.py:11 | `(\d+)「(.+)」` at the start: the digit run, then `「`, then a non-empty, newline-free text up to the last `」` that can close it |
| Scraping.NameRegulator | la_scraping.py:20-29 | a name that does not match is translated whole |
| Scraping.NumberedName | la_scraping.py:21-26 | a numbered name keeps its digits and `「`; the text up to the last closing `」` is made full-width; that `」` ends the result, and whatever followed it is dropped |
| Scraping.RegulatedNameMatches | la_scraping.py:20-26 | a numbered name keeps its number and `「`, and matches again after regulation; a name that does not match still does not |
| Scraping.DigitEndOfDigits | la_scraping.py:11 | the digit run of text that starts with `d` digits and then a non-digit is `d` long |
| Scraping.NewlineFromNone | la_scraping.py:11 | in text with no newline, `.` runs to the end |
| Scraping.NameRegulatorIdempotent | la_scraping.py:20-29 | regulating a regulated name changes nothing |
| Scraping.NameRegulatorNoComma | la_scraping.py:20-29 | a regulated name holds no ASCII comma, so it is one CSV field |
| Scraping.CommandEnd | la_scraping.py:10 | the command run holds only `[\da-zA-Z_+\-']` |
| Scraping.LaCommand | la_scraping.py:57-60 | `la_rex.match(s).group(1)`, or `None` when there is no match |
| Scraping.RemoveWords | la_scraping.py:65 | the source field holds no ASCII comma, and is no longer than before |
| Scraping.WordsRemoved | la_scraping.py:65 | `,`, `ｼｮｯﾌﾟ` and `備考` at the front are each removed whole |
| Scraping.OtherKept | la_scraping.py:65 | a character that starts none of the three words is kept |
| Scraping.NoWordsUnchanged | la_scraping.py:65 | text in which none of the three words can start is left as it is |
| Scraping.ParseRow | la_scraping.py:44-69 | a row fails with `IndexError` exactly when it is kept (ten cells or fewer, with `/la`) and has fewer than six cells. A record has seven fields: the regulated name, the command `la_rex` finds, and flags that are `"0"` or `"1"`. No field holds a comma, and its number exists exactly when the name matches `brackets_rex` |
| Scraping.RowRecord | la_scraping.py:61-69 | a record is the regulated name, the command, four flags that are each `"0"` or `"1"` and the cleaned source; none of the seven fields holds a comma |
| Scraping.Gap | la_scraping.py:71-74 | the placeholders for the numbers strictly between two numbers, in ascending order |
| Scraping.GapExtend | la_scraping.py:72-74 | one more turn of the placeholder loop extends the gap by the next number |
| Scraping.Step | la_scraping.py:44-81 | one row: nothing changes after a failure or for a skipped row. A kept row with fewer than six cells fails with `IndexError`. A record after a truthy `lastnum` follows its gap; a record with no number after a truthy `lastnum` fails with `TypeError`. Repeats go to `dups`, and every command goes to `dup` |
| Scraping.ScannedWellFormed | la_scraping.py:38-69 | the header comes first, and every record has seven comma-free fields, its flags `"0"` or `"1"` |
| Scraping.ScannedAfterFailure | la_scraping.py:37-81 | once `records()` has raised, the remaining rows change nothing |
| Scraping.ScannedGrows | la_scraping.py:37-81 | the lines, the repeated records and the seen commands only grow |
| Scraping.Records | la_scraping.py:37-81 | the lines, the repeated records and the exception are those of the row-by-row specification, and the lines are well formed |
| Text.LStrip | misc.py:49 | `lstrip` drops exactly the leading whitespace |
| Text.RStrip | misc.py:49 | `rstrip` drops exactly the trailing whitespace |
| Text.Strip | misc.py:49 | `strip` leaves the part of the text that only whitespace precedes and follows, and that neither starts nor ends with whitespace |
| Text.ParseIntRoundTrip | logpump.py:28 | `int(str(n)) == n` |
| Text.GroupedRoundTrip | misc.py:200 | `f'{n:,}'` without its commas is `str(n)`, so it reads back as `n` |
| Text.LexLessTransitive | logpump.py:179 | string order, used by `max`, is transitive |
| Text.LexLessTotal | logpump.py:179 | distinct strings are ordered one way or the other |
| Text.Inner | misc.py:53 | `s[1:-1]` drops the first and the last character |
| Text.Slice | logpump.py:42-47 | `s[i:j]` is clamped to the text: `s[i..j]` within bounds, the rest from `i` when only `j` is past the end, and empty when `j <= i` or `i` is past the end |

## Left out

- **Threading and the watcher.** The `LogPump` thread, the `watchdog` observer and its handler,
  and the sleep loop (logpump.py:202-264) are concurrency and operating-system events.
  - The effect of the handler on a folder is `LogFolder.newlog` and `remove`, which are modelled.
- **The retry loop of `tail`.** `tail` sleeps and retries until `_tail` succeeds
  (logpump.py:95-101). It is timing only; `_tail`, which it retries, is modelled.
- **`LogFolder.scan`.** It is a loop over the readers, with `csv.reader` quoting in between
  (logpump.py:185-189). `csv.reader` is not part of this model, so rows are taken as given.
- **`MyDocuments`.** It is a foreign call into the Windows shell (logpump.py:66-73).
- **File encoding and positions.**
  - UTF-16 decoding and `UnicodeError` are not modelled; content is a sequence of code units.
  - The byte-oriented `seek`/`tell` becomes an index, and the 2-byte byte-order mark is one
    code unit.
  - `stat` is not modelled.
- **Line ends.** With `newline=''`, Python's `readline` also ends a line at a lone `\r`. The
  model ends lines only at `\n`.
- **`str2ts`.**
  - The conversion to a local-time epoch is a function parameter of `LogEntry.Create`. It
    depends on the time zone.
  - `lru_cache` does not change results.
- **Floating-point statistics.**
  - `CasinoCounter.rate` (misc.py:161-165) is not modelled.
  - `Casino.CasinoCounter.HitRate` is modelled with exact rationals, not `statistics.mean` on
    floats.
- **The threaded versions of misc.py.** The `DelayedReporter` (misc.py:214-254) uses an event,
  a lock and sleeps. The generator version of app/misc.py is modelled instead.
- **`UsersFile` of misc.py.** It is the same as that of app/misc.py, except that it calls
  `loader2` without checking it (misc.py:17-35).
- **Downloads and scraping.**
  - `load_la_dict_online` is a network fetch.
  - The urllib/BeautifulSoup scraping, the span removal and the CSV file writes of
    la_scraping.py are also left out. Rows reach `records()` as the stripped cell texts and the
    row text.
- **User patterns.** `SpItem` patterns are kept as text: `re.compile` of user patterns is not
  modelled, nor is its `re.error` on a bad pattern.
- **Reading files.** Reading the files, and skipping the header line of `lobbyactions.csv`, are
  not modelled. The loaders receive the lines or rows.
- **`glob`.** The folder listing that `glob("*Log*.txt")` returns is a parameter of
  `LogFolder.Open`; matching file names against the pattern is not modelled.
- **`\d`.** `\d` is modelled as an ASCII digit, where Python's `\d` also accepts other
  Unicode digits.
- Text.ParseInt: reads only an optional sign and ASCII digits, with surrounding whitespace. Python's
  `int()` also accepts underscores between digits (`1_0`) and other Unicode decimal
  digits (`１２`); the model gives `None` for those.
- Folder.NewestOf: compares paths by code point, case-sensitively. `max` over Windows paths compares
  their case-folded parts, so two names that differ only in case can be ordered differently.
- LogEntry.Attribute: the model applies the `Name(n)` lookup to any name. Python calls `__getattr__`
  only for names that are not real attributes of the entry (`sequence`, `timestamp`,
  `category` and the list methods); the callers look up only `Num` and `Meseta`.
- **The clock in `DelayedReporter`.** The source reads the clock at each turn of its wait loop.
  The model reads it once per `update`, which is where the generator resumes.
- Reporter.DelayedReporter.Update: the callback is not called. The tally it would receive is
  returned instead.
- **The GUI, audio and console.** The tkinter GUI, the MCI audio, the console front ends
  (main.py, logreader.py) and app/__main__.py are user-interface and entry-point code.
- **`heapq` tie order.** `heapq` breaks ties between equal sequence numbers in an unspecified
  heap order; the model keeps them in arrival order. The multiset and ordering properties do
  not depend on it.
- **Repeated sequence numbers.** In the steady-state lemmas of the reorder buffer, a number
  that is already held is excluded by a requirement. A repeated number stays in the heap behind
  its twin until the buffer gives up.

## Findings

| source | as written | input that shows it | evidently intended | confidence | as-written member | corrected member |
|---|---|---|---|---|---|---|
| chatcmd.py:7, 12 | `ce(all)?` in the third alternative comes before `ce\d( +s(\d+(\.\d+)?))?` in the eighth, and alternation takes the first that matches, so the eighth never matches | `/ce1 s0.5 hi`: `cmd_rex` removes only `/ce` and leaves `1 s0.5 hi` | the cut-in with number and speed is removed as a whole, leaving `hi` | medium, not executed | ChatCommand.MatchCommandAsWritten, ChatCommand.CutInShadowed, ChatCommand.Strip, ChatCommand.StripExample | ChatCommand.MatchCommand, ChatCommand.CutInTaken, ChatCommand.StrippedMeaning |

=== FILE: casino.dfy ===
/**
 * The casino tally (`CasinoCounter`, identical in misc.py and app/misc.py): rounds played,
 * total bet and total return, wins, the current and the longest run of losses, and the
 * outcomes of the last 30 rounds for the hit rate.
 *
 * Each counter is specified as a function of the rounds played since the last reset, kept in a
 * ghost field; the methods keep the counters equal to those functions.
 */
module Casino {
  /** One round: the stake and what it paid back (0 is a loss). */
  datatype Round = Round(bet: int, ret: int)

  /** `collections.deque(maxlen=30)`. */
  const Window: nat := 30

  function TotalBet(rs: seq<Round>): int {
    if rs == [] then 0 else TotalBet(rs[..|rs| - 1]) + rs[|rs| - 1].bet
  }

  function TotalReturn(rs: seq<Round>): int {
    if rs == [] then 0 else TotalReturn(rs[..|rs| - 1]) + rs[|rs| - 1].ret
  }

  /** The number of rounds that paid something back. */
  function Hits(rs: seq<Round>): (n: nat)
    ensures n <= |rs|
  {
    if rs == [] then 0 else Hits(rs[..|rs| - 1]) + (if rs[|rs| - 1].ret == 0 then 0 else 1)
  }

  /** The rounds `i` to `j` (exclusive) were all losses. */
  predicate LossRun(rs: seq<Round>, i: nat, j: nat)
    requires i <= j <= |rs|
  {
    forall k :: i <= k < j ==> rs[k].ret == 0
  }

  /** The length of the run of losses that ends the history. */
  function TrailingLosses(rs: seq<Round>): (n: nat)
    ensures n <= |rs|
    ensures LossRun(rs, |rs| - n, |rs|)
    ensures n < |rs| ==> rs[|rs| - n - 1].ret != 0
  {
    if rs == [] || rs[|rs| - 1].ret != 0 then 0
    else
      var p := rs[..|rs| - 1];
      var n := TrailingLosses(p);
      assert forall k :: 0 <= k < |p| ==> rs[k] == p[k];
      n + 1
  }

  /** The length of the longest run of losses in the history. */
  function LongestLosses(rs: seq<Round>): (n: nat)
    ensures TrailingLosses(rs) <= n <= |rs|
  {
    if rs == [] then 0
    else
      var m := LongestLosses(rs[..|rs| - 1]);
      if m < TrailingLosses(rs) then TrailingLosses(rs) else m
  }

  /** What the deque receives for a round: `min(1, ret)`. */
  function Outcome(r: Round): int {
    if r.ret < 1 then r.ret else 1
  }

  /** The outcomes of the last `Window` rounds, oldest first. */
  function Recent(rs: seq<Round>): seq<int> {
    var start := if |rs| < Window then 0 else |rs| - Window;
    seq(|rs| - start, k requires 0 <= k < |rs| - start => Outcome(rs[start + k]))
  }

  /** The deque holds the outcomes of the last `Window` rounds, oldest first. */
  lemma RecentWindow(rs: seq<Round>)
    ensures |Recent(rs)| == if |rs| < Window then |rs| else Window
    ensures forall k :: 0 <= k < |Recent(rs)| ==> Recent(rs)[k] == Outcome(rs[|rs| - |Recent(rs)| + k])
  {
  }

  function Sum(d: seq<int>): int {
    if d == [] then 0 else Sum(d[..|d| - 1]) + d[|d| - 1]
  }

  /** A run of losses that ends within the history ends either before the last round or at it. */
  lemma {:induction false} TrailingBound(rs: seq<Round>, i: nat)
    requires i <= |rs| && LossRun(rs, i, |rs|)
    ensures |rs| - i <= TrailingLosses(rs)
    decreases |rs|
  {
    if i < |rs| {
      var p := rs[..|rs| - 1];
      assert LossRun(p, i, |p|) by {
        forall k | i <= k < |p|
          ensures p[k].ret == 0
        {
          assert p[k] == rs[k];
        }
      }
      TrailingBound(p, i);
    }
  }

  /** `defeats_max` is the longest run of losses: no run is longer, and one run is that long. */
  lemma {:induction false} LongestLossesIsLongest(rs: seq<Round>)
    ensures forall i, j :: 0 <= i <= j <= |rs| && LossRun(rs, i, j) ==> j - i <= LongestLosses(rs)
    ensures exists i, j :: 0 <= i <= j <= |rs| && j - i == LongestLosses(rs) && LossRun(rs, i, j)
    decreases |rs|
  {
    var n := LongestLosses(rs);
    if rs == [] {
      assert LossRun(rs, 0, 0);
    } else {
      var p := rs[..|rs| - 1];
      LongestLossesIsLongest(p);
      forall i, j | 0 <= i <= j <= |rs| && LossRun(rs, i, j)
        ensures j - i <= n
      {
        if j == |rs| {
          TrailingBound(rs, i);
        } else {
          assert LossRun(p, i, j) by {
            forall k | i <= k < j
              ensures p[k].ret == 0
            {
              assert p[k] == rs[k];
            }
          }
        }
      }
      if n == TrailingLosses(rs) {
        assert LossRun(rs, |rs| - n, |rs|);
      } else {
        var i, j :| 0 <= i <= j <= |p| && j - i == n && LossRun(p, i, j);
        assert LossRun(rs, i, j) by {
          forall k | i <= k < j
            ensures rs[k].ret == 0
          {
            assert p[k] == rs[k];
          }
        }
      }
    }
  }

  /** With returns never negative, each outcome is 0 or 1, so the hit rate is a fraction. */
  lemma {:induction false} OutcomeSum(d: seq<int>)
    ensures (forall k :: 0 <= k < |d| ==> 0 <= d[k] <= 1) ==> 0 <= Sum(d) <= |d|
  {
    if d != [] {
      OutcomeSum(d[..|d| - 1]);
    }
  }

  /** One more round, as each counter sees it. */
  lemma Appended(rs: seq<Round>, x: Round)
    ensures TotalBet(rs + [x]) == TotalBet(rs) + x.bet
    ensures TotalReturn(rs + [x]) == TotalReturn(rs) + x.ret
    ensures Hits(rs + [x]) == Hits(rs) + (if x.ret == 0 then 0 else 1)
    ensures TrailingLosses(rs + [x]) == if x.ret == 0 then TrailingLosses(rs) + 1 else 0
    ensures LongestLosses(rs + [x]) == if LongestLosses(rs) < TrailingLosses(rs + [x]) then TrailingLosses(rs + [x]) else LongestLosses(rs)
  {
    assert (rs + [x])[..|rs|] == rs;
  }

  /** The deque drops its oldest outcome when full and takes the new one at the end. */
  lemma RecentAppended(rs: seq<Round>, x: Round)
    ensures Recent(rs + [x]) == (if |Recent(rs)| == Window then Recent(rs)[1..] else Recent(rs)) + [Outcome(x)]
  {
    RecentWindow(rs);
    RecentWindow(rs + [x]);
    var a, b := Recent(rs + [x]), (if |Recent(rs)| == Window then Recent(rs)[1..] else Recent(rs)) + [Outcome(x)];
    assert |a| == |b|;
    forall k | 0 <= k < |a|
      ensures a[k] == b[k]
    {
      if k < |a| - 1 {
        assert (rs + [x])[|rs| + 1 - |a| + k] == rs[|rs| + 1 - |a| + k];
      }
    }
  }

  /** With no negative return the outcomes are all 0 or 1. */
  lemma RecentOutcomes(rs: seq<Round>)
    requires forall k :: 0 <= k < |rs| ==> rs[k].ret >= 0
    ensures forall k :: 0 <= k < |Recent(rs)| ==> 0 <= Recent(rs)[k] <= 1
  {
    RecentWindow(rs);
  }

  lemma Fraction(a: int, b: int)
    requires 0 <= a <= b && b > 0
    ensures 0.0 <= a as real / b as real <= 1.0
  {
  }

  /** The mean of the recent outcomes is a fraction when no return is negative. */
  lemma MeanOutcome(rs: seq<Round>)
    requires rs != []
    ensures (forall k :: 0 <= k < |rs| ==> rs[k].ret >= 0) ==>
      0.0 <= Sum(Recent(rs)) as real / |Recent(rs)| as real <= 1.0
  {
    if forall k :: 0 <= k < |rs| ==> rs[k].ret >= 0 {
      RecentOutcomes(rs);
      OutcomeSum(Recent(rs));
      Fraction(Sum(Recent(rs)), |Recent(rs)|);
    }
  }

  class CasinoCounter {
    var count: int
    var bet: int
    var ret: int
    var hit: int
    var defeats: int
    var defeatsMax: int
    var deq: seq<int>
    /** The rounds played since the last reset. */
    ghost var rounds: seq<Round>

    /** Every counter is what the rounds since the last reset make it. */
    ghost predicate Valid()
      reads this
    {
      && count == |rounds|
      && bet == TotalBet(rounds)
      && ret == TotalReturn(rounds)
      && hit == Hits(rounds)
      && defeats == TrailingLosses(rounds)
      && defeatsMax == LongestLosses(rounds)
      && deq == Recent(rounds)
    }

    constructor()
      ensures Valid() && rounds == []
    {
      count, bet, ret, hit, defeats, defeatsMax := 0, 0, 0, 0, 0, 0;
      deq := [];
      rounds := [];
    }

    /** `reset()`: every counter back to zero and the deque emptied. */
    method Reset()
      modifies this
      ensures Valid() && rounds == []
      ensures count == 0 && bet == 0 && ret == 0 && hit == 0 && defeats == 0 && defeatsMax == 0
      ensures deq == []
    {
      count, bet, ret, hit, defeats, defeatsMax := 0, 0, 0, 0, 0, 0;
      deq := [];
      rounds := [];
    }

    /** `update(bet, ret)`: one more round. A loss lengthens the current run of losses and may
        raise the longest one; a win ends the run and counts as a hit. The current run never
        exceeds the longest and the hits never exceed the rounds. The deque stays `Recent` of the
        rounds, so it holds the outcomes of the last 30 of them (`RecentWindow`). */
    method Update(b: int, r: int)
      requires Valid()
      modifies this
      ensures Valid() && rounds == old(rounds) + [Round(b, r)]
      ensures count == old(count) + 1 && bet == old(bet) + b && ret == old(ret) + r
      ensures r == 0 ==> defeats == old(defeats) + 1 && hit == old(hit)
      ensures r != 0 ==> defeats == 0 && hit == old(hit) + 1
      ensures 0 <= defeats <= defeatsMax && 0 <= hit <= count
    {
      ghost var rs := rounds + [Round(b, r)];
      Appended(rounds, Round(b, r));
      RecentAppended(rounds, Round(b, r));
      RecentWindow(rounds);
      count := count + 1;
      bet := bet + b;
      ret := ret + r;
      var x := if r < 1 then r else 1;
      if |deq| == Window {
        deq := deq[1..] + [x];
      } else {
        deq := deq + [x];
      }
      if r == 0 {
        defeats := defeats + 1;
        defeatsMax := if defeatsMax < defeats then defeats else defeatsMax;
      } else {
        defeats := 0;
        hit := hit + 1;
      }
      rounds := rs;
    }

    /** `income`: what all rounds since the reset paid back less what they cost. */
    function Income(): (n: int)
      requires Valid()
      reads this
      ensures n == TotalReturn(rounds) - TotalBet(rounds)
    {
      ret - bet
    }

    /** `hitrate`: the mean outcome of the last 30 rounds, 0 before any round; between 0 and 1
        when no round returned a negative amount. */
    function HitRate(): (q: real)
      requires Valid()
      reads this
      ensures (forall k :: 0 <= k < |rounds| ==> rounds[k].ret >= 0) ==> 0.0 <= q <= 1.0
    {
      if count == 0 then 0.0
      else
        MeanOutcome(rounds);
        Sum(deq) as real / |deq| as real
    }
  }
}

=== FILE: chatcmd.dfy ===
/**
 * Chat text cleaning (`chatcmd.strip`): colour tags are removed, then chat commands at the start
 * of the text (`/p`, `/mn12`, `/la dance`, `/ci3 2 t4`, ...) are removed one after another until
 * none is left.
 *
 * The two regular expressions are modelled as explicit recognisers. Each recogniser returns the
 * position just past what the expression matches (`None` when it does not match), following
 * Python's rules: alternatives are tried left to right and the first that matches wins;
 * repetitions and optional parts are greedy and give back only when what follows fails.
 */
module ChatCommand {
  import opened Wrappers
  import opened Text

  // ---------------------------------------------------------------------------------------------
  // Building blocks

  /** `w` occurs at `i`: the position after it. */
  function Lit(s: string, i: nat, w: string): (r: Option<nat>)
    ensures r.Some? <==> OccursAt(s, w, i)
    ensures r.Some? ==> r.value == i + |w|
  {
    if OccursAt(s, w, i) then Some(i + |w|) else None
  }

  /** The character classes the expressions use: ` `, `\d` and `[^ ]`. */
  datatype Class = Blank | Digit | NonBlank

  predicate InClass(c: char, k: Class) {
    match k
    case Blank => c == ' '
    case Digit => IsDigit(c)
    case NonBlank => c != ' '
  }

  /** The end of the longest run of class `k` from `i`. */
  function RunEnd(s: string, i: nat, k: Class): (r: nat)
    requires i <= |s|
    ensures i <= r <= |s|
    ensures forall j :: i <= j < r ==> InClass(s[j], k)
    ensures r == |s| || !InClass(s[r], k)
    decreases |s| - i
  {
    if i < |s| && InClass(s[i], k) then RunEnd(s, i + 1, k) else i
  }

  /** A greedy `x+`: the longest non-empty run. */
  function Run1(s: string, i: nat, k: Class): (r: Option<nat>)
    requires i <= |s|
    ensures r.Some? ==> i < r.value <= |s|
    ensures r.Some? <==> i < |s| && InClass(s[i], k)
  {
    var e := RunEnd(s, i, k);
    if e > i then Some(e) else None
  }

  /** One character of class `k`. */
  function One(s: string, i: nat, k: Class): (r: Option<nat>)
    ensures r.Some? <==> i < |s| && InClass(s[i], k)
    ensures r.Some? ==> r.value == i + 1
  {
    if i < |s| && InClass(s[i], k) then Some(i + 1) else None
  }

  /** The first word of `ws` that occurs at `i` and after which `tail` matches. */
  function FirstWord(s: string, i: nat, ws: seq<string>, tail: Tail): (r: Option<nat>)
    requires i <= |s|
    ensures r.Some? ==> i < r.value <= |s|
    ensures r.Some? ==> exists w :: w in ws && OccursAt(s, w, i)
  {
    if ws == [] then None
    else
      match Lit(s, i, ws[0])
      case Some(j) =>
        var t := MatchTail(s, j, tail);
        if t.Some? then t else FirstWord(s, i, ws[1..], tail)
      case None => FirstWord(s, i, ws[1..], tail)
  }

  /** What follows the word alternatives of the command list: `\d+`, or ` +[^ ]+`. */
  datatype Tail = Number | Argument

  function MatchTail(s: string, j: nat, tail: Tail): (r: Option<nat>)
    requires j <= |s|
    ensures r.Some? ==> j < r.value <= |s|
  {
    match tail
    case Number => Run1(s, j, Digit)
    case Argument => SpacedArgument(s, j)
  }

  /** ` +[^ ]+`. */
  function SpacedArgument(s: string, j: nat): (r: Option<nat>)
    requires j <= |s|
    ensures r.Some? ==> j < r.value <= |s|
  {
    match Run1(s, j, Blank)
    case Some(k) => Run1(s, k, NonBlank)
    case None => None
  }

  /** `( +\d+)?`. */
  function OptSpacedNumber(s: string, j: nat): (r: nat)
    requires j <= |s|
    ensures j <= r <= |s|
  {
    match Run1(s, j, Blank)
    case Some(k) => (match Run1(s, k, Digit) case Some(m) => m case None => j)
    case None => j
  }

  /** `( +(on|off))?`. */
  function OptOnOff(s: string, j: nat): (r: nat)
    requires j <= |s|
    ensures j <= r <= |s|
  {
    match Run1(s, j, Blank)
    case Some(k) =>
      if Lit(s, k, "on").Some? then k + 2
      else if Lit(s, k, "off").Some? then k + 3
      else j
    case None => j
  }

  /** `( +t[1-5])?`. */
  function OptTier(s: string, j: nat): (r: nat)
    requires j <= |s|
    ensures j <= r <= |s|
  {
    match Run1(s, j, Blank)
    case Some(k) => if k + 1 < |s| && s[k] == 't' && '1' <= s[k + 1] <= '5' then k + 2 else j
    case None => j
  }

  /** `\d+(\.\d+)?`, a speed or a decimal number. */
  function Decimal(s: string, j: nat): (r: Option<nat>)
    requires j <= |s|
    ensures r.Some? ==> j < r.value <= |s|
  {
    match Run1(s, j, Digit)
    case Some(m) =>
      if m < |s| && s[m] == '.' then
        (match Run1(s, m + 1, Digit) case Some(e) => Some(e) case None => Some(m))
      else Some(m)
    case None => None
  }

  /** `( +ss?(\d+(\.\d+)?))?` when `twice`, `( +s(\d+(\.\d+)?))?` otherwise. */
  function OptSpeed(s: string, j: nat, twice: bool): (r: nat)
    requires j <= |s|
    ensures j <= r <= |s|
  {
    match Run1(s, j, Blank)
    case Some(k) =>
      if k < |s| && s[k] == 's' then
        var d := if twice && k + 1 < |s| && s[k + 1] == 's' && One(s, k + 2, Digit).Some? then k + 2 else k + 1;
        (match Decimal(s, d) case Some(e) => e case None => j)
      else j
    case None => j
  }

  // ---------------------------------------------------------------------------------------------
  // The eight alternatives of `cmd_rex`, in the order written

  /** `toge|moya|[apt]`. */
  function Alt1(s: string, i: nat): (r: Option<nat>)
    requires i <= |s|
    ensures r.Some? ==> i < r.value <= |s|
  {
    if Lit(s, i, "toge").Some? then Lit(s, i, "toge")
    else if Lit(s, i, "moya").Some? then Lit(s, i, "moya")
    else if i < |s| && s[i] in "apt" then Some(i + 1)
    else None
  }

  const PaletteWords: seq<string> :=
    ["mn", "vo", "symbol", "spage", "swp", "mainpalette", "mpal", "subpalette", "spal", "myset", "ms", "myfashion", "mf"]

  /** `(mn|vo|symbol|spage|swp|mainpalette|mpal|subpalette|spal|myset|ms|myfashion|mf)\d+`. */
  function Alt2(s: string, i: nat): (r: Option<nat>)
    requires i <= |s|
    ensures r.Some? ==> i < r.value <= |s|
  {
    FirstWord(s, i, PaletteWords, Number)
  }

  /** `ce(all)?`. */
  function CutInToggle(s: string, i: nat): (r: Option<nat>)
    requires i <= |s|
    ensures r.Some? ==> i < r.value <= |s|
  {
    match Lit(s, i, "ce")
    case Some(j) => if Lit(s, j, "all").Some? then Some(j + 3) else Some(j)
    case None => None
  }

  /** `(face\d|fc\d|ce(all)?)( +(on|off))?`. */
  function Alt3(s: string, i: nat): (r: Option<nat>)
    requires i <= |s|
    ensures r.Some? ==> i < r.value <= |s|
  {
    var head :=
      if Lit(s, i, "face").Some? && One(s, i + 4, Digit).Some? then Some(i + 5)
      else if Lit(s, i, "fc").Some? && One(s, i + 2, Digit).Some? then Some(i + 3)
      else CutInToggle(s, i);
    match head
    case Some(j) => Some(OptOnOff(s, j))
    case None => None
  }

  /** `uioff( +\d+)?`. */
  function Alt4(s: string, i: nat): (r: Option<nat>)
    requires i <= |s|
    ensures r.Some? ==> i < r.value <= |s|
  {
    match Lit(s, i, "uioff")
    case Some(j) => Some(OptSpacedNumber(s, j))
    case None => None
  }

  /** `ci\d+( +\d+)?( +t[1-5])?( +\d+)?`. */
  function Alt5(s: string, i: nat): (r: Option<nat>)
    requires i <= |s|
    ensures r.Some? ==> i < r.value <= |s|
  {
    match Lit(s, i, "ci")
    case Some(j) =>
      (match Run1(s, j, Digit)
       case Some(k) => Some(OptSpacedNumber(s, OptTier(s, OptSpacedNumber(s, k))))
       case None => None)
    case None => None
  }

  const OutfitWords: seq<string> := ["skillring", "sr", "costume", "cs", "camouflage", "cmf"]

  /** `(skillring|sr|costume|cs|camouflage|cmf) +[^ ]+`. */
  function Alt6(s: string, i: nat): (r: Option<nat>)
    requires i <= |s|
    ensures r.Some? ==> i < r.value <= |s|
  {
    FirstWord(s, i, OutfitWords, Argument)
  }

  /** `[cfm]?la +[^ ]+( +ss?(\d+(\.\d+)?))?`. */
  function Alt7(s: string, i: nat): (r: Option<nat>)
    requires i <= |s|
    ensures r.Some? ==> i < r.value <= |s|
  {
    var start := if i < |s| && s[i] in "cfm" then i + 1 else i;
    match Lit(s, start, "la")
    case Some(j) =>
      (match SpacedArgument(s, j) case Some(k) => Some(OptSpeed(s, k, true)) case None => None)
    case None => None
  }

  /** `ce\d( +s(\d+(\.\d+)?))?`. */
  function Alt8(s: string, i: nat): (r: Option<nat>)
    requires i <= |s|
    ensures r.Some? ==> i < r.value <= |s|
    ensures r.Some? ==> OccursAt(s, "ce", i) && i + 2 < |s| && IsDigit(s[i + 2])
  {
    if Lit(s, i, "ce").Some? && One(s, i + 2, Digit).Some? then Some(OptSpeed(s, i + 3, false))
    else None
  }

  function Alt(n: nat, s: string, i: nat): (r: Option<nat>)
    requires i <= |s|
    ensures r.Some? ==> i < r.value <= |s|
  {
    if n == 1 then Alt1(s, i)
    else if n == 2 then Alt2(s, i)
    else if n == 3 then Alt3(s, i)
    else if n == 4 then Alt4(s, i)
    else if n == 5 then Alt5(s, i)
    else if n == 6 then Alt6(s, i)
    else if n == 7 then Alt7(s, i)
    else if n == 8 then Alt8(s, i)
    else None
  }

  /** The first alternative of `order` that matches. */
  function FirstAlt(order: seq<nat>, s: string, i: nat): (r: Option<nat>)
    requires i <= |s|
    ensures r.Some? ==> i < r.value <= |s|
    ensures r.None? <==> forall k :: 0 <= k < |order| ==> Alt(order[k], s, i).None?
  {
    if order == [] then None
    else if Alt(order[0], s, i).Some? then Alt(order[0], s, i)
    else
      var r := FirstAlt(order[1..], s, i);
      assert forall k :: 1 <= k < |order| ==> order[k] == order[1..][k - 1];
      r
  }

  /** `^/( ... ) ?` with the alternatives tried in `order`: how much of `s` a command at its
      start takes, the slash and one trailing space included. */
  function MatchIn(order: seq<nat>, s: string): (r: Option<nat>)
    ensures r.Some? ==> 2 <= r.value <= |s| && s[0] == '/'
  {
    if |s| > 0 && s[0] == '/' then
      match FirstAlt(order, s, 1)
      case Some(j) => Some(if j < |s| && s[j] == ' ' then j + 1 else j)
      case None => None
    else None
  }

  /** The order of the alternatives in `cmd_rex`. */
  const WrittenOrder: seq<nat> := [1, 2, 3, 4, 5, 6, 7, 8]

  /** The order that lets the cut-in with speed (`ce\d( +s...)?`) match before the cut-in
      toggle (`ce(all)?`), which otherwise always takes its `ce` first. */
  const IntendedOrder: seq<nat> := [1, 2, 8, 3, 4, 5, 6, 7]

  /** `cmd_rex.match` as written. */
  function MatchCommandAsWritten(s: string): (r: Option<nat>)
    ensures r.Some? ==> 2 <= r.value <= |s| && s[0] == '/'
  {
    MatchIn(WrittenOrder, s)
  }

  /** `cmd_rex.match` with the cut-in alternatives in the intended order. */
  function MatchCommand(s: string): (r: Option<nat>)
    ensures r.Some? ==> 2 <= r.value <= |s| && s[0] == '/'
  {
    MatchIn(IntendedOrder, s)
  }

  /** No word of `ws` starts with the character at `i`: then no word occurs there. */
  lemma {:induction false} NoWordAt(s: string, i: nat, ws: seq<string>, tail: Tail)
    requires i < |s|
    requires forall k :: 0 <= k < |ws| ==> ws[k] != [] && ws[k][0] != s[i]
    ensures FirstWord(s, i, ws, tail).None?
  {
    if ws != [] {
      assert !OccursAt(s, ws[0], i) by {
        if i + |ws[0]| <= |s| {
          assert s[i..i + |ws[0]|][0] == s[i];
        }
      }
      NoWordAt(s, i, ws[1..], tail);
    }
  }

  /** An alternative that fails passes the turn to the next one. */
  lemma FirstAltSkip(order: seq<nat>, s: string, i: nat)
    requires i <= |s| && order != [] && Alt(order[0], s, i).None?
    ensures FirstAlt(order, s, i) == FirstAlt(order[1..], s, i)
  {
  }

  /** The first alternative that matches decides. */
  lemma FirstAltHit(order: seq<nat>, s: string, i: nat)
    requires i <= |s| && order != [] && Alt(order[0], s, i).Some?
    ensures FirstAlt(order, s, i) == Alt(order[0], s, i)
  {
  }

  /** Alternative 8 is the cut-in with a number. */
  lemma AltEight(s: string, i: nat)
    requires i <= |s|
    ensures Alt(8, s, i) == Alt8(s, i)
  {
  }

  /** At a cut-in with a number neither `toge|moya|[apt]` nor a palette command matches. */
  lemma CutInHead(s: string)
    requires |s| > 0 && s[0] == '/' && Alt8(s, 1).Some?
    ensures s[1..3] == "ce" && IsDigit(s[3])
    ensures Alt(1, s, 1).None? && Alt(2, s, 1).None?
  {
    assert s[1..3] == "ce";
    assert Alt1(s, 1).None? by {
      assert !OccursAt(s, "toge", 1) && !OccursAt(s, "moya", 1) by {
        assert s[1] == 'c';
      }
    }
    assert Alt2(s, 1).None? by {
      NoWordAt(s, 1, PaletteWords, Number);
    }
  }

  /** As written, a cut-in with a number (`/ce1 s0.5`) is taken by `ce(all)?`: only `/ce` goes,
      and the number and speed are left in the text. */
  lemma CutInShadowed(s: string)
    requires |s| > 0 && s[0] == '/' && Alt8(s, 1).Some?
    ensures MatchCommandAsWritten(s) == Some(3)
  {
    CutInHead(s);
    assert !OccursAt(s, "face", 1) && !OccursAt(s, "fc", 1) by {
      assert s[1..3][1] == 'e';
    }
    assert !OccursAt(s, "all", 3) by {
      assert IsDigit(s[3]);
    }
    assert Alt(3, s, 1) == Some(3);
    var o := WrittenOrder;
    FirstAltSkip(o, s, 1);
    FirstAltSkip(o[1..], s, 1);
    assert o[1..][1..] == [3, 4, 5, 6, 7, 8];
    FirstAltHit(o[1..][1..], s, 1);
    assert FirstAlt(o, s, 1) == Some(3);
  }

  /** In the intended order the whole cut-in, number and speed included, is taken. */
  lemma CutInTaken(s: string)
    requires |s| > 0 && s[0] == '/' && Alt8(s, 1).Some?
    ensures FirstAlt(IntendedOrder, s, 1) == Alt8(s, 1)
    ensures MatchCommand(s).Some? && MatchCommand(s).value >= Alt8(s, 1).value
  {
    CutInHead(s);
    AltEight(s, 1);
    var o := IntendedOrder;
    FirstAltSkip(o, s, 1);
    FirstAltSkip(o[1..], s, 1);
    assert o[1..][1..] == [8, 3, 4, 5, 6, 7];
    FirstAltHit(o[1..][1..], s, 1);
    assert FirstAlt(o, s, 1) == Alt8(s, 1);
  }

  // ---------------------------------------------------------------------------------------------
  // Colour tags

  const Colours: seq<string> := ["red", "bei", "gre", "vio", "blk", "ora", "yel", "blu", "pur", "gra", "whi", "def"]

  /** A colour tag `{red}` ... `{def}` starts at `i`. */
  predicate TagAt(s: string, i: nat) {
    i + 5 <= |s| && s[i] == '{' && s[i + 4] == '}' && s[i + 1..i + 4] in Colours
  }

  /** `color_rex.sub('', s)`: one pass from left to right that drops each tag it meets. */
  function RemoveColours(s: string): (r: string)
    ensures |r| <= |s|
    decreases |s|
  {
    if s == [] then []
    else if TagAt(s, 0) then RemoveColours(s[5..])
    else [s[0]] + RemoveColours(s[1..])
  }

  /** Text with no tag is left as it is. */
  lemma {:induction false} NoTagUnchanged(s: string)
    requires forall i :: 0 <= i < |s| ==> !TagAt(s, i)
    ensures RemoveColours(s) == s
    decreases |s|
  {
    if s != [] {
      assert !TagAt(s, 0);
      forall i | 0 <= i < |s[1..]|
        ensures !TagAt(s[1..], i)
      {
        assert !TagAt(s, i + 1);
        if i + 5 <= |s[1..]| {
          assert s[1..][i + 1..i + 4] == s[i + 2..i + 5];
        }
      }
      NoTagUnchanged(s[1..]);
    }
  }

  /** Text before and after a tag is kept and the tag dropped, when the text before it has no
      `{` that could start a tag overlapping it. */
  lemma {:induction false} TagDropped(u: string, c: string, v: string)
    requires c in Colours
    requires forall i :: 0 <= i < |u| ==> u[i] != '{'
    ensures RemoveColours(u + ("{" + c + "}" + v)) == u + RemoveColours(v)
    decreases |u|
  {
    var w := "{" + c + "}" + v;
    if u == [] {
      assert u + w == w;
      TagFront(c, v);
    } else {
      var a, t := u[0], u[1..];
      assert u == [a] + t;
      AppendAssoc([a], t, w);
      KeepFront(a, t + w);
      TagDropped(t, c, v);
      AppendAssoc([a], t, RemoveColours(v));
    }
  }

  /** A tag at the front is dropped. */
  lemma TagFront(c: string, v: string)
    requires c in Colours
    ensures RemoveColours("{" + c + "}" + v) == RemoveColours(v)
  {
    assert |c| == 3;
    var s := "{" + c + "}" + v;
    assert s[1..4] == c;
    assert s[5..] == v;
    assert TagAt(s, 0);
  }

  /** A character other than `{` cannot start a tag, so it is kept. */
  lemma KeepFront(a: char, t: string)
    requires a != '{'
    ensures RemoveColours([a] + t) == [a] + RemoveColours(t)
  {
    assert ([a] + t)[1..] == t;
  }

  /** One pass only: a tag that the removal of another tag brings together survives. */
  lemma SinglePass()
    ensures RemoveColours("{re{red}d}") == "{red}"
  {
    var s := "{re{red}d}";
    assert RemoveColours(s[3..]) == "d}" by {
      assert TagAt(s[3..], 0) by {
        assert s[3..][1..4] == "red";
      }
      assert s[3..][5..] == "d}";
      assert RemoveColours("d}") == "d}" by {
        assert !TagAt("d}", 0) && !TagAt("}", 0);
      }
    }
    assert RemoveColours(s[2..]) == "ed}" by {
      assert !TagAt(s[2..], 0) && s[2..][1..] == s[3..];
    }
    assert RemoveColours(s[1..]) == "red}" by {
      assert !TagAt(s[1..], 0) && s[1..][1..] == s[2..];
    }
    assert !TagAt(s, 0);
  }

  // ---------------------------------------------------------------------------------------------
  // Stripping

  /** The commands removed one after another from the start of `t`, the rest left-stripped each
      time, until none is found; `order` is the order in which the alternatives are tried. */
  function Commands(order: seq<nat>, t: string): (r: string)
    ensures IsSuffix(r, t)
    ensures MatchIn(order, r).None?
    ensures (t == [] || !IsSpace(t[0])) ==> r == [] || !IsSpace(r[0])
    decreases |t|
  {
    match MatchIn(order, t)
    case None => t
    case Some(n) =>
      var rest := LStrip(t[n..]);
      var r := Commands(order, rest);
      assert IsSuffix(r, t) by {
        DropSuffix(t, n);
        SuffixTrans(r, rest, t[n..]);
        SuffixTrans(r, t[n..], t);
      }
      r
  }

  /** What `strip` leaves of colour-free text `t`: text that starts with whitespace loses only
      that whitespace; otherwise the commands at its start are removed. `strip` itself is
      `Stripped(WrittenOrder, _)`; `Stripped(IntendedOrder, _)` is the corrected one. */
  function Stripped(order: seq<nat>, t: string): (r: string) {
    if t != [] && IsSpace(t[0]) then LStrip(t) else Commands(order, t)
  }

  /** The result is a suffix of the text, never starts with whitespace, and, unless the text
      started with whitespace, no command is left at its start. */
  lemma StrippedMeaning(order: seq<nat>, t: string)
    ensures IsSuffix(Stripped(order, t), t)
    ensures Stripped(order, t) == [] || !IsSpace(Stripped(order, t)[0])
    ensures t != [] && IsSpace(t[0]) ==> Stripped(order, t) == LStrip(t)
    ensures (t == [] || !IsSpace(t[0])) ==> MatchIn(order, Stripped(order, t)).None?
  {
  }

  /** Left-stripping text that does not start with whitespace changes nothing. */
  lemma LStripNoSpace(t: string)
    requires t == [] || !IsSpace(t[0])
    ensures LStrip(t) == t
  {
  }

  /** One command removed: what is left of the rest is what is left of the whole. */
  lemma CommandsStep(order: seq<nat>, t: string, n: nat)
    requires MatchIn(order, t) == Some(n)
    ensures Commands(order, t) == Commands(order, LStrip(t[n..]))
    ensures !IsSpace(t[0]) && |LStrip(t[n..])| < |t|
  {
    assert t[0] == '/' && 2 <= n <= |t|;
    assert !IsSpace('/');
    assert |LStrip(t[n..])| <= |t| - n;
  }

  /** `strip(text)`, with `cmd_rex` as written. Each turn of the loop takes the command at the
      start, if any, and the whitespace after it; it stops once a turn changes nothing but
      leading whitespace. */
  method Strip(text: string) returns (r: string)
    ensures r == Stripped(WrittenOrder, RemoveColours(text))
    ensures IsSuffix(r, RemoveColours(text))
    ensures r == [] || !IsSpace(r[0])
  {
    ghost var t0 := RemoveColours(text);
    var t := RemoveColours(text);
    var prev: Option<string> := None;
    while t != [] && prev != Some(t)
      invariant prev.None? ==> t == t0
      invariant prev == Some(t) ==> t == Stripped(WrittenOrder, t0)
      invariant prev.Some? && prev != Some(t) ==> Commands(WrittenOrder, t) == Stripped(WrittenOrder, t0) && (t == [] || !IsSpace(t[0]))
      decreases |t| + (if prev == Some(t) then 0 else 1)
    {
      prev := Some(LStrip(t));
      match MatchCommandAsWritten(t) {
        case Some(n) =>
          CommandsStep(WrittenOrder, t, n);
          LStripNoSpace(t);
          t := LStrip(t[n..]);
        case None =>
          if !IsSpace(t[0]) {
            LStripNoSpace(t);
            assert Commands(WrittenOrder, t) == t;
          }
          t := LStrip(t);
      }
    }
    StrippedMeaning(WrittenOrder, t0);
    return t;
  }

  /** The cut-in with speed in `/ce1 s0.5 hi` ends before the last space. */
  lemma CutInExampleSpeed()
    ensures Alt8("/ce1 s0.5 hi", 1) == Some(9)
  {
    var s := "/ce1 s0.5 hi";
    assert Lit(s, 1, "ce") == Some(3) by {
      assert s[1..3] == "ce";
    }
    assert One(s, 3, Digit) == Some(4);
    assert RunEnd(s, 4, Blank) == 5;
    assert RunEnd(s, 6, Digit) == 7;
    assert RunEnd(s, 8, Digit) == 9;
    assert Decimal(s, 6) == Some(9);
  }

  /** As written, `/ce1 s0.5 hi` keeps `1 s0.5 hi`; in the intended order only `hi` is left. */
  lemma CutInExample()
    ensures MatchCommandAsWritten("/ce1 s0.5 hi") == Some(3)
    ensures MatchCommand("/ce1 s0.5 hi") == Some(10)
  {
    var s := "/ce1 s0.5 hi";
    CutInExampleSpeed();
    CutInShadowed(s);
    CutInTaken(s);
    assert s[9] == ' ';
  }

  /** `strip("/ce1 s0.5 hi")` as written leaves `1 s0.5 hi`; with the intended order it leaves
      `hi`. */
  lemma StripExample()
    ensures Stripped(WrittenOrder, "/ce1 s0.5 hi") == "1 s0.5 hi"
    ensures Stripped(IntendedOrder, "/ce1 s0.5 hi") == "hi"
  {
    CutInExample();
    StripWritten("/ce1 s0.5 hi");
    StripIntended("/ce1 s0.5 hi");
  }

  /** The example as written: `/ce` goes, and the rest stays. */
  lemma StripWritten(s: string)
    requires s == "/ce1 s0.5 hi" && MatchCommandAsWritten(s) == Some(3)
    ensures Stripped(WrittenOrder, s) == "1 s0.5 hi"
  {
    assert s[3] == '1' && s[3..] == "1 s0.5 hi";
    StripRest(WrittenOrder, s, 3);
  }

  /** The example in the intended order: the whole cut-in goes. */
  lemma StripIntended(s: string)
    requires s == "/ce1 s0.5 hi" && MatchCommand(s) == Some(10)
    ensures Stripped(IntendedOrder, s) == "hi"
  {
    assert s[10] == 'h' && s[10..] == "hi";
    StripRest(IntendedOrder, s, 10);
  }

  /** A command taken from the front of text that starts with no whitespace, followed by text
      that starts with neither whitespace nor `/`: what follows the command is what is left. */
  lemma StripRest(order: seq<nat>, s: string, n: nat)
    requires MatchIn(order, s) == Some(n) && n < |s| && !IsSpace(s[n]) && s[n] != '/'
    ensures Stripped(order, s) == s[n..]
  {
    CommandsStep(order, s, n);
    LStripNoSpace(s[n..]);
  }
}

=== FILE: entry.dfy ===
/**
 * The log entry (`Entry` in logpump.py): one record of a log file, normalised into its
 * columns with the category appended last, its time stamp and its sequence number, plus the
 * `Name(value)` attribute lookup handlers use to read numbers out of the columns.
 */
module LogEntry {
  import opened Wrappers
  import opened Text

  /** A parsed record. `fields` are the columns with the category as the last element. */
  datatype Entry = Entry(fields: seq<string>, timestamp: int, sequence: int)

  /** Why a record could not become an entry (the exception Python would raise). */
  datatype EntryError =
    | BadTimestamp   // ValueError from `str2ts`
    | MissingField   // IndexError at `self[1]`
    | BadSequence    // ValueError from `int(self[1])`

  // ---------------------------------------------------------------------------------------
  // Splitting a column on tabs (`str.split("\t")`) and its inverse

  function SplitTabs(s: string): (r: seq<string>)
    ensures |r| >= 1
    ensures forall i :: 0 <= i < |r| ==> '\t' !in r[i]
  {
    if s == [] then [""]
    else
      var rest := SplitTabs(s[1..]);
      if s[0] == '\t' then [""] + rest else [[s[0]] + rest[0]] + rest[1..]
  }

  /** `"\t".join(parts)`. */
  function JoinTabs(parts: seq<string>): string
    requires |parts| >= 1
  {
    if |parts| == 1 then parts[0] else parts[0] + "\t" + JoinTabs(parts[1..])
  }

  /** Joining the pieces of a split gives back the column. */
  lemma {:induction false} JoinSplitTabs(s: string)
    ensures JoinTabs(SplitTabs(s)) == s
  {
    if s != [] {
      var rest := SplitTabs(s[1..]);
      JoinSplitTabs(s[1..]);
      if s[0] == '\t' {
        assert s == [s[0]] + s[1..];
      } else if |rest| == 1 {
        assert s == [s[0]] + s[1..];
      } else {
        assert SplitTabs(s)[1..] == rest[1..];
        assert JoinTabs(rest) == rest[0] + "\t" + JoinTabs(rest[1..]);
        assert s == [s[0]] + s[1..];
      }
    }
  }

  lemma {:induction false} SplitTabsPrefix(a: string, b: string)
    requires '\t' !in a
    ensures SplitTabs(a + "\t" + b) == [a] + SplitTabs(b)
    ensures SplitTabs(a) == [a]
  {
    if a == [] {
      assert a + "\t" + b == "\t" + b;
      assert ("\t" + b)[1..] == b;
    } else {
      SplitTabsPrefix(a[1..], b);
      assert (a + "\t" + b)[1..] == a[1..] + "\t" + b;
      assert [a[0]] + a[1..] == a;
    }
  }

  /** Splitting tab-free pieces joined by tabs gives back the pieces. */
  lemma {:induction false} SplitJoinTabs(parts: seq<string>)
    requires |parts| >= 1
    requires forall i :: 0 <= i < |parts| ==> '\t' !in parts[i]
    ensures SplitTabs(JoinTabs(parts)) == parts
  {
    SplitTabsPrefix(parts[0], "");
    if |parts| > 1 {
      SplitJoinTabs(parts[1..]);
      SplitTabsPrefix(parts[0], JoinTabs(parts[1..]));
      assert [parts[0]] + parts[1..] == parts;
    }
  }

  // ---------------------------------------------------------------------------------------
  // Row normalisation (`Entry.__init__`, logpump.py lines 21-26)

  /** The columns of an entry: a row of exactly three columns has its third column split on
      tabs and spliced in; the category is appended last. */
  function Normalize(row: seq<string>, category: string): (r: seq<string>)
    ensures |r| >= 1 && r[|r| - 1] == category
    ensures |row| != 3 ==> r[..|r| - 1] == row
    ensures |row| == 3 ==> |r| >= 4 && r[..2] == row[..2] && JoinTabs(r[2..|r| - 1]) == row[2]
    ensures |row| == 3 ==> forall i :: 2 <= i < |r| - 1 ==> '\t' !in r[i]
  {
    if |row| == 3 then
      var parts := SplitTabs(row[2]);
      var r := row[..2] + parts + [category];
      assert |r| == |parts| + 3;
      assert r[..2] == row[..2];
      assert r[2..|r| - 1] == parts;
      JoinSplitTabs(row[2]);
      TabFreeMiddle(row[..2], parts, category);
      r
    else
      row + [category]
  }

  /** Tab-free parts stay tab-free between the first two columns and the category. */
  lemma TabFreeMiddle(a: seq<string>, parts: seq<string>, c: string)
    requires |a| == 2 && forall i :: 0 <= i < |parts| ==> '\t' !in parts[i]
    ensures forall i :: 2 <= i < |a + parts + [c]| - 1 ==> '\t' !in (a + parts + [c])[i]
  {
    forall i | 2 <= i < |a + parts + [c]| - 1
      ensures '\t' !in (a + parts + [c])[i]
    {
      assert (a + parts + [c])[i] == parts[i - 2];
    }
  }

  /** The category of an entry: its last column (`Entry.category`). */
  function Category(e: Entry): string
    requires |e.fields| >= 1
  {
    e.fields[|e.fields| - 1]
  }

  // ---------------------------------------------------------------------------------------
  // Time stamps (`Entry.str2ts`, logpump.py lines 41-50)

  datatype DateTime = DateTime(year: int, month: int, day: int, hour: int, minute: int, second: int)

  predicate IsLeap(year: int) {
    year % 4 == 0 && (year % 100 != 0 || year % 400 == 0)
  }

  function DaysInMonth(year: int, month: int): int
    requires 1 <= month <= 12
  {
    if month == 2 then (if IsLeap(year) then 29 else 28)
    else if month == 4 || month == 6 || month == 9 || month == 11 then 30
    else 31
  }

  /** The ranges Python's `datetime(...)` accepts without `ValueError`. */
  predicate ValidDateTime(d: DateTime) {
    && 1 <= d.year <= 9999
    && 1 <= d.month <= 12
    && 1 <= d.day <= DaysInMonth(d.year, d.month)
    && 0 <= d.hour <= 23
    && 0 <= d.minute <= 59
    && 0 <= d.second <= 59
  }

  /** The fixed-width slicing of `str2ts`: characters 0-3, 5-6, 8-9, 11-12, 14-15 and 17-18
      are read as integers; the separators between them are not looked at. */
  function ParseStamp(s: string): (r: Option<DateTime>)
    ensures r.Some? ==> ValidDateTime(r.value)
    ensures r.Some? ==> (
      && ParseInt(Slice(s, 0, 4)) == Some(r.value.year)
      && ParseInt(Slice(s, 5, 7)) == Some(r.value.month)
      && ParseInt(Slice(s, 8, 10)) == Some(r.value.day)
      && ParseInt(Slice(s, 11, 13)) == Some(r.value.hour)
      && ParseInt(Slice(s, 14, 16)) == Some(r.value.minute)
      && ParseInt(Slice(s, 17, 19)) == Some(r.value.second))
  {
    var y, mo, d := ParseInt(Slice(s, 0, 4)), ParseInt(Slice(s, 5, 7)), ParseInt(Slice(s, 8, 10));
    var h, mi, se := ParseInt(Slice(s, 11, 13)), ParseInt(Slice(s, 14, 16)), ParseInt(Slice(s, 17, 19));
    if y.None? || mo.None? || d.None? || h.None? || mi.None? || se.None? then None
    else
      var dt := DateTime(y.value, mo.value, d.value, h.value, mi.value, se.value);
      if ValidDateTime(dt) then Some(dt) else None
  }

  function Pad2(n: nat): (r: string)
    requires n < 100
    ensures |r| == 2 && AllDigits(r) && DigitsValue(r) == n
  {
    assert DigitsValue([DigitChar(n / 10)]) == n / 10;
    [DigitChar(n / 10), DigitChar(n % 10)]
  }

  function Pad4(n: nat): (r: string)
    requires n < 10000
    ensures |r| == 4 && AllDigits(r) && DigitsValue(r) == n
  {
    var r := [DigitChar(n / 1000), DigitChar(n / 100 % 10), DigitChar(n / 10 % 10), DigitChar(n % 10)];
    assert DigitsValue(r[..1]) == n / 1000;
    assert DigitsValue(r[..2]) == n / 100 by {
      assert r[..2][..1] == r[..1];
    }
    assert DigitsValue(r[..3]) == n / 10 by {
      assert r[..3][..2] == r[..2];
    }
    assert r[..4] == r;
    r
  }

  /** The `YYYY-MM-DDTHH:MM:SS` form the game writes in the first column. */
  function FormatStamp(d: DateTime): (r: string)
    requires ValidDateTime(d)
    ensures |r| == 19
  {
    var y, mo, dd := Pad4(d.year), Pad2(d.month), Pad2(d.day);
    var h, mi, se := Pad2(d.hour), Pad2(d.minute), Pad2(d.second);
    [y[0], y[1], y[2], y[3], '-', mo[0], mo[1], '-', dd[0], dd[1], 'T',
     h[0], h[1], ':', mi[0], mi[1], ':', se[0], se[1]]
  }

  lemma ParsePadded(s: string, v: nat)
    requires AllDigits(s) && DigitsValue(s) == v && s != []
    ensures ParseInt(s) == Some(v)
  {
    assert IsDigit(s[0]) && IsDigit(s[|s| - 1]);
    StripUnspaced(s);
    ParseIntPlain(s);
  }

  /** Reading back a formatted time stamp gives the date and time that were written. */
  lemma ParseFormatStamp(d: DateTime)
    requires ValidDateTime(d)
    ensures ParseStamp(FormatStamp(d)) == Some(d)
  {
    var y, mo, dd := Pad4(d.year), Pad2(d.month), Pad2(d.day);
    var h, mi, se := Pad2(d.hour), Pad2(d.minute), Pad2(d.second);
    FormatStampFields(d);
    ParsePadded(y, d.year);
    ParsePadded(mo, d.month);
    ParsePadded(dd, d.day);
    ParsePadded(h, d.hour);
    ParsePadded(mi, d.minute);
    ParsePadded(se, d.second);
  }

  /** Each field of a formatted time stamp stands at the place `str2ts` slices it from. */
  lemma FormatStampFields(d: DateTime)
    requires ValidDateTime(d)
    ensures Slice(FormatStamp(d), 0, 4) == Pad4(d.year)
    ensures Slice(FormatStamp(d), 5, 7) == Pad2(d.month)
    ensures Slice(FormatStamp(d), 8, 10) == Pad2(d.day)
    ensures Slice(FormatStamp(d), 11, 13) == Pad2(d.hour)
    ensures Slice(FormatStamp(d), 14, 16) == Pad2(d.minute)
    ensures Slice(FormatStamp(d), 17, 19) == Pad2(d.second)
  {
    var s := FormatStamp(d);
    var y, mo, dd := Pad4(d.year), Pad2(d.month), Pad2(d.day);
    var h, mi, se := Pad2(d.hour), Pad2(d.minute), Pad2(d.second);
    assert s == [y[0], y[1], y[2], y[3], '-', mo[0], mo[1], '-', dd[0], dd[1], 'T',
                 h[0], h[1], ':', mi[0], mi[1], ':', se[0], se[1]];
    SliceAt(s, 0, y);
    SliceAt(s, 5, mo);
    SliceAt(s, 8, dd);
    SliceAt(s, 11, h);
    SliceAt(s, 14, mi);
    SliceAt(s, 17, se);
  }

  /** The characters of `p` stand in `s` from index `i` on. */
  lemma SliceAt(s: string, i: nat, p: string)
    requires i + |p| <= |s| && forall k :: 0 <= k < |p| ==> s[i + k] == p[k]
    ensures Slice(s, i, i + |p|) == p
  {
    assert s[i..i + |p|] == p;
  }

  // ---------------------------------------------------------------------------------------
  // Construction (`Entry.__init__`, logpump.py lines 21-28)

  /** Builds an entry from a row of a log file and the category of that file. `epoch` is the
      local-time conversion `int(datetime(...).timestamp())`, which the model does not
      interpret. The columns are rearranged in place as the source does (pop the third
      column, extend with its tab-separated parts, append the category). */
  method Create(row: seq<string>, category: string, epoch: DateTime -> int)
    returns (r: Result<Entry, EntryError>)
    ensures r.Ok? ==> r.value.fields == Normalize(row, category)
    ensures r.Ok? ==> Category(r.value) == category
    ensures r.Err? && r.error == BadTimestamp <==> ParseStamp(Normalize(row, category)[0]).None?
    ensures r.Err? && r.error == MissingField <==>
      (var f := Normalize(row, category); ParseStamp(f[0]).Some? && |f| < 2)
    ensures r.Err? && r.error == BadSequence <==>
      (var f := Normalize(row, category); ParseStamp(f[0]).Some? && |f| >= 2 && ParseInt(f[1]).None?)
    ensures r.Ok? ==> Some(r.value.timestamp) ==
                      (var d := ParseStamp(r.value.fields[0]); if d.Some? then Some(epoch(d.value)) else None)
    ensures r.Ok? ==> |r.value.fields| >= 2 && ParseInt(r.value.fields[1]) == Some(r.value.sequence)
    ensures r.Ok? <==> (var f := Normalize(row, category);
                        ParseStamp(f[0]).Some? && |f| >= 2 && ParseInt(f[1]).Some?)
  {
    var cols := row;
    if |cols| == 3 {
      var last := cols[2];
      cols := cols[..2];
      cols := cols + SplitTabs(last);
    }
    cols := cols + [category];
    assert cols == Normalize(row, category);
    var stamp := ParseStamp(cols[0]);
    if stamp.None? {
      return Err(BadTimestamp);
    }
    if |cols| < 2 {
      return Err(MissingField);
    }
    var sequence := ParseInt(cols[1]);
    if sequence.None? {
      return Err(BadSequence);
    }
    r := Ok(Entry(cols, epoch(stamp.value), sequence.value));
  }

  // ---------------------------------------------------------------------------------------
  // Ordering (`Entry.__eq__` and `Entry.__lt__`, logpump.py lines 30-34)

  /** `a == b`: entries are equal when their sequence numbers are. */
  predicate SameSequence(a: Entry, b: Entry) {
    a.sequence == b.sequence
  }

  /** `a < b`: entries are ordered by sequence number only. */
  predicate Before(a: Entry, b: Entry) {
    a.sequence < b.sequence
  }

  /** Neither comparison looks at the columns or the time stamp. */
  lemma ComparisonIgnoresColumns(a: Entry, b: Entry, fields: seq<string>, timestamp: int)
    ensures SameSequence(a, b) == SameSequence(a.(fields := fields, timestamp := timestamp), b)
    ensures Before(a, b) == Before(a.(fields := fields, timestamp := timestamp), b)
    ensures Before(b, a) == Before(b, a.(fields := fields, timestamp := timestamp))
  {
  }

  // ---------------------------------------------------------------------------------------
  // Attribute lookup (`Entry.__getattr__`, logpump.py lines 57-63)

  /** The end of the run of ASCII digits that starts at `i`. */
  function DigitRunEnd(s: string, i: nat): (e: nat)
    requires i <= |s|
    ensures i <= e <= |s|
    ensures forall k :: i <= k < e ==> IsDigit(s[k])
    ensures e == |s| || !IsDigit(s[e])
    decreases |s| - i
  {
    if i < |s| && IsDigit(s[i]) then DigitRunEnd(s, i + 1) else i
  }

  /** The pattern `name\((-?\d+)\)` matched at exactly position `p` of `s`: the value of
      the captured integer, or `None` when the pattern does not match there. */
  function MatchAttrAt(s: string, name: string, p: nat): Option<int>
  {
    if !OccursAt(s, name + "(", p) then None
    else
      var j := p + |name| + 1;
      var neg := j < |s| && s[j] == '-';
      var k := if neg then j + 1 else j;
      var e := DigitRunEnd(s, k);
      if e == k || e == |s| || s[e] != ')' then None
      else
        var v: int := DigitsValue(s[k..e]);
        Some(if neg then -v else v)
  }

  /** `re.search` of the pattern from position `p`: the leftmost match wins. */
  function SearchAttr(s: string, name: string, p: nat): (r: Option<int>)
    ensures r.None? <==> forall q :: p <= q <= |s| ==> MatchAttrAt(s, name, q).None?
    decreases |s| + 1 - p
  {
    if p > |s| then None
    else if MatchAttrAt(s, name, p).Some? then MatchAttrAt(s, name, p)
    else SearchAttr(s, name, p + 1)
  }

  /** The leftmost match wins. */
  lemma {:induction false} SearchFirst(s: string, name: string, p: nat, q: nat)
    requires p <= q <= |s| && MatchAttrAt(s, name, q).Some?
    requires forall q' :: p <= q' < q ==> MatchAttrAt(s, name, q').None?
    ensures SearchAttr(s, name, p) == MatchAttrAt(s, name, q)
    decreases q - p
  {
    if p < q {
      assert MatchAttrAt(s, name, p).None?;
      assert SearchAttr(s, name, p) == SearchAttr(s, name, p + 1);
      SearchFirst(s, name, p + 1, q);
    }
  }

  /** `entry.Name`: the integer of the first column that holds `Name(<integer>)`, or `None`. */
  function Attribute(fields: seq<string>, name: string): (r: Option<int>)
    ensures r.None? <==> forall k :: 0 <= k < |fields| ==> SearchAttr(fields[k], name, 0).None?
  {
    if fields == [] then None
    else if SearchAttr(fields[0], name, 0).Some? then SearchAttr(fields[0], name, 0)
    else
      var r := Attribute(fields[1..], name);
      assert forall k :: 1 <= k < |fields| ==> fields[k] == fields[1..][k - 1];
      r
  }

  /** The value is that of the first column holding a match. */
  lemma AttributeFirst(fields: seq<string>, name: string, k: nat)
    requires k < |fields| && SearchAttr(fields[k], name, 0).Some?
    requires forall j :: 0 <= j < k ==> SearchAttr(fields[j], name, 0).None?
    ensures Attribute(fields, name) == SearchAttr(fields[k], name, 0)
  {
    AttributeFrom(fields, name, 0, k);
    assert fields[0..] == fields;
  }

  /** From column `i` on, the first column holding a match is `k`. */
  lemma {:induction false} AttributeFrom(fields: seq<string>, name: string, i: nat, k: nat)
    requires i <= k < |fields| && SearchAttr(fields[k], name, 0).Some?
    requires forall j :: i <= j < k ==> SearchAttr(fields[j], name, 0).None?
    ensures Attribute(fields[i..], name) == SearchAttr(fields[k], name, 0)
    decreases k - i
  {
    var t := fields[i..];
    assert t[0] == fields[i];
    if i < k {
      assert SearchAttr(fields[i], name, 0).None?;
      assert t[1..] == fields[i + 1..];
      AttributeFrom(fields, name, i + 1, k);
    }
  }

  /** A column written as `Name(n)` is read back as `n` by the lookup, provided no earlier
      column holds the pattern. */
  lemma AttributeOfRendered(before: seq<string>, name: string, n: int, after: seq<string>)
    requires forall k :: 0 <= k < |before| ==> SearchAttr(before[k], name, 0).None?
    ensures Attribute(before + [name + "(" + IntToString(n) + ")"] + after, name) == Some(n)
  {
    var col := name + "(" + IntToString(n) + ")";
    RenderedMatches(name, n);
    assert SearchAttr(col, name, 0) == Some(n);
    var fields := before + [col] + after;
    assert fields[|before|] == col;
    forall q | 0 <= q < |before|
      ensures SearchAttr(fields[q], name, 0).None?
    {
      assert fields[q] == before[q];
    }
    AttributeFirst(fields, name, |before|);
  }

  /** `Name(n)` matches the pattern at its start, capturing `n`. */
  lemma RenderedMatches(name: string, n: int)
    ensures MatchAttrAt(name + "(" + IntToString(n) + ")", name, 0) == Some(n)
  {
    var col := name + "(" + IntToString(n) + ")";
    var m: nat := if n < 0 then -n else n;
    var sign := if n < 0 then "-" else "";
    NatToStringValue(m);
    assert col == name + "(" + sign + NatToString(m) + ")";
    MatchOfParts(col, name, sign, NatToString(m), m);
  }

  /** `Name(` and a sign and digits and `)` matches, capturing the signed value of the digits. */
  lemma MatchOfParts(col: string, name: string, sign: string, digits: string, v: nat)
    requires sign == "" || sign == "-"
    requires digits != [] && AllDigits(digits) && DigitsValue(digits) == v
    requires col == name + "(" + sign + digits + ")"
    ensures MatchAttrAt(col, name, 0) == Some(if sign == "-" then -(v as int) else v as int)
  {
    var j := |name| + 1;
    var k := j + |sign|;
    assert col[..j] == name + "(";
    assert col[k..|col| - 1] == digits;
    assert j < |col| && (col[j] == '-' <==> sign == "-") by {
      if sign == "" {
        assert col[j] == digits[0];
      }
    }
    DigitRunEndOf(col, k, |col| - 1);
  }

  lemma {:induction false} DigitRunEndOf(s: string, i: nat, e: nat)
    requires i <= e < |s|
    requires forall k :: i <= k < e ==> IsDigit(s[k])
    requires !IsDigit(s[e])
    ensures DigitRunEnd(s, i) == e
    decreases e - i
  {
    if i < e {
      DigitRunEndOf(s, i + 1, e);
    }
  }
}

=== FILE: folder.dfy ===
/**
 * One log folder (`LogFolder` in logpump.py): the log files found in it, their categories,
 * and the table that tracks, per category, the newest file, as files appear and disappear.
 *
 * A file is named by its path; the folder listing is the sequence of paths `glob` returns, and
 * the size of each file is given alongside it.
 */
module Folder {
  import opened Wrappers
  import opened Text
  import opened Segment

  datatype FolderError = NoCategory(path: string)

  /** `set([LogFile.cate(x.stem) for x in logs])`; the source fails on the first file whose stem
      has no category. */
  function Categories(logs: seq<string>): (r: Result<set<string>, FolderError>)
    ensures r.Ok? <==> forall x :: x in logs ==> CategoryOf(x).Some?
    ensures r.Ok? ==> forall c :: c in r.value <==> exists x :: x in logs && CategoryOf(x) == Some(c)
    ensures r.Err? ==> r.error.path in logs && CategoryOf(r.error.path).None?
  {
    if logs == [] then Ok({})
    else
      match CategoryOf(logs[0])
      case None => Err(NoCategory(logs[0]))
      case Some(c) =>
        var rest := Categories(logs[1..]);
        assert forall x :: x in logs <==> x == logs[0] || x in logs[1..];
        if rest.Err? then rest else Ok({c} + rest.value)
  }

  /** `x.stem.startswith(cate)`. */
  predicate Candidate(x: string, cate: string) {
    IsPrefix(cate, StemOf(x))
  }

  /** `newestof(cate)`: the greatest path among the files whose stem starts with `cate` (the
      first of them when several are equal); `None` where `max` fails on no candidate. */
  function NewestOf(logs: seq<string>, cate: string): (r: Option<string>)
    ensures r.Some? ==> r.value in logs && Candidate(r.value, cate)
    ensures r.Some? ==> forall x :: x in logs && Candidate(x, cate) ==> !LexLess(r.value, x)
    ensures r.None? <==> forall x :: x in logs ==> !Candidate(x, cate)
  {
    if logs == [] then None
    else
      var rest := NewestOf(logs[1..], cate);
      assert forall x :: x in logs <==> x == logs[0] || x in logs[1..];
      if !Candidate(logs[0], cate) then rest
      else if rest.None? then
        LexLessIrreflexive(logs[0]);
        Some(logs[0])
      else if LexLess(logs[0], rest.value) then
        forall x | x in logs && Candidate(x, cate)
          ensures !LexLess(rest.value, x)
        {
          if x == logs[0] && LexLess(rest.value, x) {
            LexLessTransitive(x, rest.value, x);
            LexLessIrreflexive(x);
          }
        }
        rest
      else
        forall x | x in logs && Candidate(x, cate)
          ensures !LexLess(logs[0], x)
        {
          if x != logs[0] && LexLess(logs[0], x) {
            assert !LexLess(rest.value, x);
            if x != rest.value {
              LexLessTotal(x, rest.value);
              LexLessTransitive(logs[0], x, rest.value);
            }
          } else if x == logs[0] {
            LexLessIrreflexive(x);
          }
        }
        Some(logs[0])
  }

  /** Every category found in the folder has a newest file: at least the file it came from. */
  lemma NewestExists(logs: seq<string>, c: string)
    requires Categories(logs).Ok? && c in Categories(logs).value
    ensures NewestOf(logs, c).Some?
  {
    var x :| x in logs && CategoryOf(x) == Some(c);
    assert Candidate(x, c);
  }

  /** The paths the table starts with: the newest file of each category. */
  function Tracked(logs: seq<string>): (r: set<string>)
    requires Categories(logs).Ok?
    ensures forall p :: p in r ==> p in logs
    ensures forall c :: c in Categories(logs).value ==> NewestOf(logs, c).Some? && NewestOf(logs, c).value in r
    ensures forall p :: p in r ==> exists c :: c in Categories(logs).value && NewestOf(logs, c) == Some(p)
  {
    var cats := Categories(logs).value;
    forall c | c in cats
      ensures NewestOf(logs, c).Some?
    {
      NewestExists(logs, c);
    }
    var r := set c | c in cats :: NewestOf(logs, c).value;
    forall p | p in r
      ensures exists c :: c in cats && NewestOf(logs, c) == Some(p)
    {
      var c :| c in cats && NewestOf(logs, c).value == p;
      assert NewestOf(logs, c) == Some(p);
    }
    r
  }

  /** Every reader is stored under its own path, and reads as the category of that path. */
  predicate Named(table: map<string, LogFile>) {
    forall p :: p in table ==> table[p].path == p && CategoryOf(p).Some? && table[p].category == CategoryOf(p).value
  }

  lemma NamedUpdate(table: map<string, LogFile>, p: string, f: LogFile)
    requires Named(table) && f.path == p && CategoryOf(p).Some? && f.category == CategoryOf(p).value
    ensures Named(table[p := f])
  {
  }

  /** A fresh reader for each path, read from the file's current end. */
  method OpenAll(paths: set<string>, size: map<string, nat>) returns (table: map<string, LogFile>)
    requires forall p :: p in paths ==> p in size && CategoryOf(p).Some?
    ensures table.Keys == paths
    ensures Named(table)
    ensures forall p :: p in table ==> fresh(table[p]) && table[p].pos == size[p]
  {
    var todo := paths;
    table := map[];
    while todo != {}
      invariant todo <= paths && table.Keys == paths - todo
      invariant Named(table)
      invariant forall p :: p in table ==> fresh(table[p]) && table[p].pos == size[p]
      decreases todo
    {
      var p :| p in todo;
      var f := new LogFile(p, false, size[p]);
      NamedUpdate(table, p, f);
      table := table[p := f];
      todo := todo - {p};
    }
  }

  class LogFolder {
    /** `self.logfiles`: the files read on each scan, by path. */
    var logfiles: map<string, LogFile>

    /** Every file is stored under its own path, and reads as the category of that path. */
    predicate Valid()
      reads this
    {
      Named(logfiles)
    }

    /** The table of `LogFolder.__init__` once every listed file has a category: every
        category present in the listing is tracked through its newest file, which is read from
        its current end. `Open` is the whole of `__init__`, failure included. */
    constructor(logs: seq<string>, size: map<string, nat>)
      requires forall x :: x in logs ==> x in size
      requires Categories(logs).Ok?
      ensures Valid()
      ensures logfiles.Keys == Tracked(logs)
      ensures forall p :: p in logfiles ==> fresh(logfiles[p]) && logfiles[p].pos == size[p]
    {
      var paths := Tracked(logs);
      var table := OpenAll(paths, size);
      logfiles := table;
    }

    /** `LogFolder.__init__`: fails, naming the file, when a listed file has no category (where
        `LogFile.cate` raises); otherwise a folder that tracks the newest file of each
        category, each read from its current end. */
    static method Open(logs: seq<string>, size: map<string, nat>) returns (r: Result<LogFolder, FolderError>)
      requires forall x :: x in logs ==> x in size
      ensures r.Err? <==> Categories(logs).Err?
      ensures r.Err? ==> r.error == Categories(logs).error
      ensures r.Ok? ==> fresh(r.value) && r.value.Valid() && r.value.logfiles.Keys == Tracked(logs)
      ensures r.Ok? ==> forall p :: p in r.value.logfiles ==> fresh(r.value.logfiles[p]) && r.value.logfiles[p].pos == size[p]
    {
      var cats := Categories(logs);
      if cats.Err? {
        return Err(cats.error);
      }
      var f := new LogFolder(logs, size);
      return Ok(f);
    }

    /** `LogFolder.newlog`: a file created in the folder replaces any entry under its path and
        is read from just after its byte-order mark. A name without a category makes the source
        raise; then nothing changes. */
    method NewLog(path: string) returns (r: Result<(), FolderError>)
      requires Valid()
      modifies this
      ensures Valid()
      ensures r.Err? <==> CategoryOf(path).None?
      ensures r.Err? ==> logfiles == old(logfiles)
      ensures r.Ok? ==> logfiles.Keys == old(logfiles.Keys) + {path}
      ensures r.Ok? ==> fresh(logfiles[path]) && logfiles[path].pos == BomLength
      ensures forall p :: p in old(logfiles) && p != path ==> logfiles[p] == old(logfiles[p])
    {
      if CategoryOf(path).None? {
        return Err(NoCategory(path));
      }
      var f := new LogFile(path, true, 0);
      logfiles := logfiles[path := f];
      return Ok(());
    }

    /** `LogFolder.remove`: a file deleted or moved away stops being read; an unknown path is
        ignored. */
    method Remove(path: string)
      requires Valid()
      modifies this
      ensures Valid()
      ensures logfiles == old(logfiles) - {path}
    {
      if path in logfiles {
        logfiles := logfiles - {path};
      }
    }
  }

  /** The greedy match: `LogFile.cate` keeps the longest prefix followed by a marker, so a stem
      with the marker twice keeps the first one in its category. */
  lemma CateIsGreedy()
    ensures Cate("ChatLogLog") == Some("ChatLog")
  {
    var s := "ChatLogLog";
    assert s[7..] == "Log";
    assert MarkerAt(s, 7);
    assert !MarkerAt(s, 8) && !MarkerAt(s, 9) && !MarkerAt(s, 10);
    var r := Cate(s);
    assert r.Some? && |r.value| == 7;
    assert s[..7] == "ChatLog";
  }

  /** A stem that starts with the marker has no category (`.+` needs a character first). */
  lemma CateNeedsPrefix()
    ensures Cate("Log") == None
  {
    var s := "Log";
    assert !MarkerAt(s, 1) && !MarkerAt(s, 2) && !MarkerAt(s, 3);
  }
}

=== FILE: items.dfy ===
/**
 * The item tally (`ItemCounter` in misc.py, a `dict`, and in app/misc.py, a `Counter`; both add
 * to a missing item as if it were 0), its report ordered by count, and the text each pair is
 * shown as (`pair2name`, which differs between the two files in how it recognises meseta).
 */
module Items {
  import opened Wrappers
  import opened Text

  /** `(name, count)`, as `items()` yields it. */
  type Pair = (string, int)

  /** The report order, the sort key `(-count, name)`: larger counts first, then names in code
      point order. */
  predicate Precedes(a: Pair, b: Pair) {
    a.1 > b.1 || (a.1 == b.1 && LexLess(a.0, b.0))
  }

  predicate Ranked(ls: seq<Pair>) {
    forall i, j :: 0 <= i < j < |ls| ==> Precedes(ls[i], ls[j])
  }

  lemma PrecedesTransitive(a: Pair, b: Pair, c: Pair)
    requires Precedes(a, b) && Precedes(b, c)
    ensures Precedes(a, c)
  {
    if a.1 == b.1 && b.1 == c.1 {
      LexLessTransitive(a.0, b.0, c.0);
    }
  }

  /** Two pairs with different names are ordered one way or the other. */
  lemma PrecedesTotal(a: Pair, b: Pair)
    requires a.0 != b.0
    ensures Precedes(a, b) || Precedes(b, a)
  {
    LexLessTotal(a.0, b.0);
  }

  /** Puts `p` into a ranked list in its place. */
  function InsertRanked(ls: seq<Pair>, p: Pair): (r: seq<Pair>)
    ensures multiset(r) == multiset(ls) + multiset{p}
  {
    if ls == [] then [p]
    else if Precedes(p, ls[0]) then [p] + ls
    else
      assert ls == [ls[0]] + ls[1..];
      [ls[0]] + InsertRanked(ls[1..], p)
  }

  lemma {:induction false} InsertRankedKeepsRank(ls: seq<Pair>, p: Pair)
    requires Ranked(ls) && forall k :: 0 <= k < |ls| ==> ls[k].0 != p.0
    ensures Ranked(InsertRanked(ls, p))
  {
    if ls == [] {
    } else if Precedes(p, ls[0]) {
      forall j | 0 <= j < |ls|
        ensures Precedes(p, ls[j])
      {
        if j > 0 {
          PrecedesTransitive(p, ls[0], ls[j]);
        }
      }
      var r := InsertRanked(ls, p);
      assert r == [p] + ls;
      forall i, j | 0 <= i < j < |r|
        ensures Precedes(r[i], r[j])
      {
        assert r[j] == ls[j - 1];
        if i > 0 {
          assert r[i] == ls[i - 1];
        }
      }
    } else {
      PrecedesTotal(p, ls[0]);
      InsertRankedKeepsRank(ls[1..], p);
      var t := InsertRanked(ls[1..], p);
      forall y | y in t
        ensures Precedes(ls[0], y)
      {
        assert y in multiset(t);
        if y != p {
          assert y in multiset(ls[1..]);
          var m :| 0 <= m < |ls[1..]| && ls[1..][m] == y;
          assert ls[m + 1] == y;
        }
      }
    }
  }

  class ItemCounter {
    /** The tally, by item name. */
    var counts: map<string, int>

    constructor()
      ensures counts == map[]
    {
      counts := map[];
    }

    /** `add(item, num)`: a missing item starts at 0; no other item changes. */
    method Add(item: string, num: int)
      modifies this
      ensures item in counts
      ensures counts[item] == (if item in old(counts) then old(counts)[item] else 0) + num
      ensures forall k :: k != item ==> (k in counts <==> k in old(counts))
      ensures forall k :: k in old(counts) && k != item ==> counts[k] == old(counts)[k]
    {
      var before := if item in counts then counts[item] else 0;
      counts := counts[item := before + num];
    }

    /** `sorted_items()`: the items with a positive count, each once, ranked by count (largest
        first) and then by name. */
    method SortedItems() returns (ls: seq<Pair>)
      ensures Ranked(ls)
      ensures forall p :: p in ls <==> p.0 in counts && counts[p.0] == p.1 && p.1 > 0
      ensures forall i, j :: 0 <= i < j < |ls| ==> ls[i].0 != ls[j].0
    {
      ls := [];
      var todo := counts.Keys;
      while todo != {}
        invariant todo <= counts.Keys
        invariant Ranked(ls)
        invariant forall p :: p in ls <==> p.0 in counts && p.0 !in todo && counts[p.0] == p.1 && p.1 > 0
        decreases todo
      {
        var k :| k in todo;
        if counts[k] > 0 {
          InsertRankedKeepsRank(ls, (k, counts[k]));
          var next := InsertRanked(ls, (k, counts[k]));
          assert forall p :: p in next <==> p in multiset(next);
          assert forall p :: p in ls <==> p in multiset(ls);
          ls := next;
        }
        todo := todo - {k};
      }
      forall i, j | 0 <= i < j < |ls|
        ensures ls[i].0 != ls[j].0
      {
        if ls[i].0 == ls[j].0 {
          assert ls[i] in ls && ls[j] in ls;
          assert ls[i] == ls[j];
          LexLessIrreflexive(ls[i].0);
        }
      }
    }
  }

  const Meseta: string := "メセタ"

  /** The unit of a count: the first rule that applies wins, `枚` for tickets, medals, badges and
      passes, then `Kg` for meat, and `個` otherwise. */
  function Unit(item: string): (u: string)
    ensures u in {"枚", "Kg", "個"}
  {
    if Contains(item, "券") || Contains(item, "メダル") || Contains(item, "バッヂ") || Contains(item, "パス") then "枚"
    else if Contains(item, "肉") then "Kg"
    else "個"
  }

  /** Which unit a name gets: `枚` exactly when it names a ticket, medal, badge or pass; `Kg`
      exactly when it does not but names meat; `個` for everything else. */
  lemma UnitRules(item: string)
    ensures Unit(item) == "枚" <==>
      Contains(item, "券") || Contains(item, "メダル") || Contains(item, "バッヂ") || Contains(item, "パス")
    ensures Unit(item) == "Kg" <==> Unit(item) != "枚" && Contains(item, "肉")
    ensures Unit(item) == "個" <==> Unit(item) != "枚" && Unit(item) != "Kg"
  {
  }

  /** The first rule wins: a meat ticket is counted in sheets, plain meat by weight. */
  lemma UnitExamples()
    ensures Unit("肉券") == "枚"
    ensures Unit("霜降り肉") == "Kg"
  {
    UnitRules("肉券");
    UnitRules("霜降り肉");
    assert OccursAt("肉券", "券", 1);
    var m := "霜降り肉";
    assert OccursAt(m, "肉", 3);
    forall w, i | w in ["券", "メダル", "バッヂ", "パス"] && 0 <= i <= |m| - |w|
      ensures !OccursAt(m, w, i)
    {
      assert m[i..i + |w|][0] == m[i];
    }
  }

  /** The text of a counted item that is not meseta. */
  function Counted(item: string, num: int): string {
    if num == 1 then item else item + "(" + IntToString(num) + Unit(item) + ")"
  }

  /** `pair2name` of misc.py: only the item named exactly `メセタ` is shown as an amount. */
  function PairToName(item: string, num: int): (r: string)
    ensures r != [] || item == []
  {
    if item == Meseta then Grouped(num) + Meseta else Counted(item, num)
  }

  /** `pair2name` of app/misc.py: every item whose name ends with `メセタ` is shown as an amount. */
  function PairToNameApp(item: string, num: int): (r: string)
    ensures r != [] || item == []
  {
    if IsSuffix(Meseta, item) then Grouped(num) + Meseta else Counted(item, num)
  }

  /** The two versions agree except on names that end with `メセタ` without being `メセタ`: there
      misc.py shows the item counted, and app/misc.py shows an amount. */
  lemma PairToNameVersions(item: string, num: int)
    ensures item == Meseta || !IsSuffix(Meseta, item) ==> PairToName(item, num) == PairToNameApp(item, num)
    ensures item != Meseta && IsSuffix(Meseta, item) ==> PairToNameApp(item, num) == Grouped(num) + Meseta
    ensures item != Meseta ==> PairToName(item, num) == Counted(item, num)
  {
  }

  /** A meseta amount reads back as the amount once its group commas are removed. */
  lemma MesetaReadsBack(item: string, num: int)
    requires IsSuffix(Meseta, item)
    ensures IsSuffix(Meseta, PairToNameApp(item, num))
    ensures ParseInt(DropCommas(PairToNameApp(item, num)[..|PairToNameApp(item, num)| - |Meseta|])) == Some(num)
  {
    var r := PairToNameApp(item, num);
    assert r[..|r| - |Meseta|] == Grouped(num);
    GroupedRoundTrip(num);
  }

  /** A counted item reads back as itself: bare for a count of one, otherwise followed by the
      count and its unit in parentheses. */
  lemma CountedShape(item: string, num: int, text: string)
    requires text == Counted(item, num)
    ensures num == 1 ==> text == item
    ensures num != 1 ==> IsPrefix(item + "(", text)
    ensures num != 1 ==> IsSuffix(Unit(item) + ")", text)
    ensures num != 1 ==> ParseInt(text[|item| + 1..|text| - |Unit(item)| - 1]) == Some(num)
  {
    if num != 1 {
      var d := IntToString(num);
      var u := Unit(item);
      assert text == (item + "(") + d + (u + ")");
      assert text[|item| + 1..|text| - |u| - 1] == d;
      ParseIntRoundTrip(num);
    }
  }

  /** In app/misc.py any item not ending with `メセタ` is counted, and reads back as itself. */
  lemma CountedReadsBack(item: string, num: int)
    requires !IsSuffix(Meseta, item)
    ensures num == 1 ==> PairToNameApp(item, num) == item
    ensures num != 1 ==> IsPrefix(item + "(", PairToNameApp(item, num))
    ensures num != 1 ==> IsSuffix(Unit(item) + ")", PairToNameApp(item, num))
    ensures num != 1 ==>
      ParseInt(PairToNameApp(item, num)[|item| + 1..|PairToNameApp(item, num)| - |Unit(item)| - 1]) == Some(num)
  {
    CountedShape(item, num, PairToNameApp(item, num));
  }

  /** In misc.py any item other than `メセタ` itself is counted, and reads back as itself. */
  lemma CountedReadsBackMisc(item: string, num: int)
    requires item != Meseta
    ensures num == 1 ==> PairToName(item, num) == item
    ensures num != 1 ==> IsPrefix(item + "(", PairToName(item, num))
    ensures num != 1 ==> IsSuffix(Unit(item) + ")", PairToName(item, num))
    ensures num != 1 ==>
      ParseInt(PairToName(item, num)[|item| + 1..|PairToName(item, num)| - |Unit(item)| - 1]) == Some(num)
  {
    CountedShape(item, num, PairToName(item, num));
  }
}

=== FILE: ladict.dfy ===
/**
 * The lobby action table (`LaDict`), loaded from the rows of `lobbyactions.csv` that follow
 * its header: misc.py keeps the name of each command and the sets of commands that loop, react
 * and cannot be traded; app/misc.py keeps a `LobbyAction(name, cmd, note)` per command, the
 * note naming its flags.
 *
 * The rows are given as `csv.reader` yields them; reading the file and the header is not part
 * of this model. A row that is too short for a column the loader reads raises `IndexError`,
 * which ends the load; that is the `Err` result.
 */
module LaDict {
  import opened Wrappers

  /** `IndexError` at `row[column]` in the row numbered `row` (0 for the first after the header). */
  datatype LoadError = IndexError(row: nat, column: nat)

  /** A row the loaders use: at least four fields and a command (`row[1]`). */
  predicate Taken(row: seq<string>) {
    |row| >= 4 && row[1] != ""
  }

  /** No row after row `i` is taken with the same command, so row `i` is the one the dictionary
      keeps for its command. */
  predicate LastFor(rows: seq<seq<string>>, i: nat, n: nat)
    requires i < n <= |rows| && Taken(rows[i])
  {
    forall j :: i < j < n && Taken(rows[j]) ==> rows[j][1] != rows[i][1]
  }

  /** The table of misc.py: command to name, and the commands flagged as looping, as reacting
      (never the command `reaction` itself) and as not tradeable. */
  datatype LaTable = LaTable(names: map<string, string>, loop: set<string>, reaction: set<string>, notrade: set<string>)

  /** The first taken row shorter than `width` fields, if any. */
  function FirstShort(rows: seq<seq<string>>, width: nat): (r: Option<nat>)
    ensures r.None? <==> forall i :: 0 <= i < |rows| && Taken(rows[i]) ==> |rows[i]| >= width
    ensures r.Some? ==> r.value < |rows| && Taken(rows[r.value]) && |rows[r.value]| < width
    ensures r.Some? ==> forall i :: 0 <= i < r.value && Taken(rows[i]) ==> |rows[i]| >= width
  {
    if rows == [] then None
    else if Taken(rows[0]) && |rows[0]| < width then Some(0)
    else
      var rest := FirstShort(rows[1..], width);
      assert forall i :: 1 <= i < |rows| ==> rows[i] == rows[1..][i - 1];
      if rest.None? then None else Some(rest.value + 1)
  }

  /** What one row adds to the table of misc.py. */
  function AddRow(t: LaTable, row: seq<string>): LaTable {
    if !Taken(row) then t
    else
      var cmd := row[1];
      LaTable(t.names[cmd := row[0]],
              t.loop + (if row[2] == "1" then {cmd} else {}),
              t.reaction + (if row[3] == "1" && cmd != "reaction" then {cmd} else {}),
              t.notrade + (if |row| >= 5 && row[4] == "1" then {cmd} else {}))
  }

  /** The table of misc.py after the given rows. */
  function TableOf(rows: seq<seq<string>>): LaTable {
    if rows == [] then LaTable(map[], {}, {}, {})
    else AddRow(TableOf(rows[..|rows| - 1]), rows[|rows| - 1])
  }

  /** The table names exactly the commands of the taken rows, each by the name in its last row. */
  lemma {:induction false} TableNames(rows: seq<seq<string>>)
    ensures forall c :: c in TableOf(rows).names <==> exists i :: 0 <= i < |rows| && Taken(rows[i]) && rows[i][1] == c
    ensures forall i :: 0 <= i < |rows| && Taken(rows[i]) && LastFor(rows, i, |rows|) ==>
      rows[i][1] in TableOf(rows).names && TableOf(rows).names[rows[i][1]] == rows[i][0]
  {
    if rows != [] {
      var p := rows[..|rows| - 1];
      TableNames(p);
      assert forall i :: 0 <= i < |p| ==> p[i] == rows[i];
      forall i | 0 <= i < |rows| && Taken(rows[i]) && LastFor(rows, i, |rows|)
        ensures rows[i][1] in TableOf(rows).names && TableOf(rows).names[rows[i][1]] == rows[i][0]
      {
        if i < |p| {
          assert LastFor(p, i, |p|);
        }
      }
    }
  }

  /** The flag sets hold the commands of the taken rows with the flag set, in any of their rows. */
  lemma {:induction false} TableFlags(rows: seq<seq<string>>)
    ensures forall c :: c in TableOf(rows).loop <==>
      exists i :: 0 <= i < |rows| && Taken(rows[i]) && rows[i][1] == c && rows[i][2] == "1"
    ensures forall c :: c in TableOf(rows).reaction <==>
      c != "reaction" && exists i :: 0 <= i < |rows| && Taken(rows[i]) && rows[i][1] == c && rows[i][3] == "1"
    ensures forall c :: c in TableOf(rows).notrade <==>
      exists i :: 0 <= i < |rows| && Taken(rows[i]) && |rows[i]| >= 5 && rows[i][1] == c && rows[i][4] == "1"
  {
    if rows != [] {
      var p := rows[..|rows| - 1];
      TableFlags(p);
      assert forall i :: 0 <= i < |p| ==> p[i] == rows[i];
    }
  }

  /** `LaDict.load` of misc.py. */
  method Load(rows: seq<seq<string>>) returns (r: Result<LaTable, LoadError>)
    ensures r.Err? <==> FirstShort(rows, 5).Some?
    ensures r.Err? ==> r.error == IndexError(FirstShort(rows, 5).value, 4) && |rows[r.error.row]| == 4
    ensures r.Ok? ==> r.value == TableOf(rows)
  {
    var names: map<string, string> := map[];
    var loop, reaction, notrade: set<string> := {}, {}, {};
    var i := 0;
    while i < |rows|
      invariant 0 <= i <= |rows|
      invariant forall j :: 0 <= j < i && Taken(rows[j]) ==> |rows[j]| >= 5
      invariant LaTable(names, loop, reaction, notrade) == TableOf(rows[..i])
    {
      var row := rows[i];
      TableStep(rows, i);
      if |row| >= 4 && row[1] != "" {
        var name, cmd := row[0], row[1];
        names := names[cmd := name];
        if row[2] == "1" {
          loop := loop + {cmd};
        }
        if row[3] == "1" && cmd != "reaction" {
          reaction := reaction + {cmd};
        }
        if |row| < 5 {
          FirstShortAt(rows, 5, i);
          return Err(IndexError(i, 4));
        }
        if row[4] == "1" {
          notrade := notrade + {cmd};
        }
      }
      i := i + 1;
    }
    assert rows[..i] == rows;
    return Ok(LaTable(names, loop, reaction, notrade));
  }

  /** A short taken row after none is the first one. */
  lemma {:induction false} FirstShortAt(rows: seq<seq<string>>, width: nat, i: nat)
    requires i < |rows| && Taken(rows[i]) && |rows[i]| < width
    requires forall j :: 0 <= j < i && Taken(rows[j]) ==> |rows[j]| >= width
    ensures FirstShort(rows, width) == Some(i)
    decreases i
  {
    if i > 0 {
      FirstShortAt(rows[1..], width, i - 1);
    }
  }

  lemma TableStep(rows: seq<seq<string>>, i: nat)
    requires i < |rows|
    ensures TableOf(rows[..i + 1]) == AddRow(TableOf(rows[..i]), rows[i])
  {
    assert rows[..i + 1][..i] == rows[..i];
  }

  /** `reaction` itself is never in the reaction set. */
  lemma ReactionExcluded(rows: seq<seq<string>>)
    ensures "reaction" !in TableOf(rows).reaction
  {
    TableFlags(rows);
  }

  /** `LobbyAction(name, cmd, note)` of app/misc.py. */
  datatype LobbyAction = LobbyAction(name: string, cmd: string, note: string)

  /** The labels of the flags set in columns 2 to 5, in that fixed order. */
  function Labels(row: seq<string>): seq<string>
    requires |row| >= 6
  {
    Flag(row, 2, "Loop") + Flag(row, 3, "Reaction") + Flag(row, 4, "NoTrade") + Flag(row, 5, "Finger")
  }

  /** A label is present exactly when its column holds `"1"`. */
  lemma LabelsFlags(row: seq<string>)
    requires |row| >= 6
    ensures "Loop" in Labels(row) <==> row[2] == "1"
    ensures "Reaction" in Labels(row) <==> row[3] == "1"
    ensures "NoTrade" in Labels(row) <==> row[4] == "1"
    ensures "Finger" in Labels(row) <==> row[5] == "1"
  {
    var a, b, c, d := Flag(row, 2, "Loop"), Flag(row, 3, "Reaction"), Flag(row, 4, "NoTrade"), Flag(row, 5, "Finger");
    assert |"Loop"| == 4 && |"Reaction"| == 8 && |"NoTrade"| == 7 && |"Finger"| == 6;
    forall x
      ensures x in Labels(row) <==> x in a || x in b || x in c || x in d
    {
      assert Labels(row) == a + b + c + d;
    }
  }

  /** There are at most four labels, each one of the four known. */
  lemma LabelsKnown(row: seq<string>)
    requires |row| >= 6
    ensures |Labels(row)| <= 4
    ensures forall k :: 0 <= k < |Labels(row)| ==> Labels(row)[k] in ["Loop", "Reaction", "NoTrade", "Finger"]
  {
  }

  /** The label of column `k` when its flag is `"1"`. */
  function Flag(row: seq<string>, k: nat, tag: string): seq<string>
    requires k < |row|
  {
    if row[k] == "1" then [tag] else []
  }

  /** `" ".join(words)`. */
  function Join(words: seq<string>): string {
    if words == [] then ""
    else if |words| == 1 then words[0]
    else words[0] + " " + Join(words[1..])
  }

  /** The note of a row: its flag labels separated by single spaces. */
  function Note(row: seq<string>): string
    requires |row| >= 6
  {
    Join(Labels(row))
  }

  /** The index of the first space in `s`, or `|s|`. */
  function SpaceAt(s: string): (i: nat)
    ensures i <= |s| && (i < |s| ==> s[i] == ' ')
    ensures forall k :: 0 <= k < i ==> s[k] != ' '
  {
    if s == [] || s[0] == ' ' then 0 else SpaceAt(s[1..]) + 1
  }

  /** The words of a note, cut at each space. */
  function Words(s: string): seq<string>
    decreases |s|
  {
    if s == [] then []
    else
      var i := SpaceAt(s);
      if i == |s| then [s] else [s[..i]] + Words(s[i + 1..])
  }

  /** Joining words that are not empty and hold no space, then cutting at the spaces, gives the
      words back. */
  lemma {:induction false} WordsOfJoin(words: seq<string>)
    requires forall k :: 0 <= k < |words| ==> words[k] != "" && ' ' !in words[k]
    ensures Words(Join(words)) == words
  {
    if |words| == 1 {
      assert SpaceAt(words[0]) == |words[0]|;
    } else if |words| > 1 {
      var w, rest := words[0], Join(words[1..]);
      assert Join(words) == w + " " + rest;
      WordsCons(w, rest);
      WordsOfJoin(words[1..]);
    }
  }

  /** A word without a space, then a space: the word is cut off first. */
  lemma WordsCons(w: string, rest: string)
    requires w != "" && ' ' !in w
    ensures Words(w + " " + rest) == [w] + Words(rest)
  {
    var s := w + " " + rest;
    assert forall k :: 0 <= k < |w| ==> s[k] == w[k];
    assert forall k :: 0 <= k < |w| ==> w[k] in w;
    assert s[|w|] == ' ';
    assert SpaceAt(s) == |w|;
    assert s[..|w|] == w && s[|w| + 1..] == rest;
  }

  /** The note reads back as the labels of the flags that are set. */
  lemma NoteReadsBack(row: seq<string>)
    requires |row| >= 6
    ensures Words(Note(row)) == Labels(row)
  {
    var ls := Labels(row);
    LabelsKnown(row);
    forall k | 0 <= k < |ls|
      ensures ls[k] != "" && ' ' !in ls[k]
    {
      assert ls[k] in ["Loop", "Reaction", "NoTrade", "Finger"];
      LabelUnspaced(ls[k]);
    }
    WordsOfJoin(ls);
  }

  /** No label is empty or holds a space. */
  lemma LabelUnspaced(w: string)
    requires w in ["Loop", "Reaction", "NoTrade", "Finger"]
    ensures w != "" && ' ' !in w
  {
    if w == "Loop" {
      assert w == ['L', 'o', 'o', 'p'];
    } else if w == "Reaction" {
      assert w == ['R', 'e', 'a', 'c', 't', 'i', 'o', 'n'];
    } else if w == "NoTrade" {
      assert w == ['N', 'o', 'T', 'r', 'a', 'd', 'e'];
    } else {
      assert w == ['F', 'i', 'n', 'g', 'e', 'r'];
    }
  }

  /** What one row adds to the table of app/misc.py (a taken row too short for it makes the
      loader raise instead). */
  function AddAction(d: map<string, LobbyAction>, row: seq<string>): map<string, LobbyAction> {
    if !Taken(row) || |row| < 6 then d
    else d[row[1] := LobbyAction(row[0], row[1], Note(row))]
  }

  /** The table of app/misc.py after the given rows. */
  function ActionsOf(rows: seq<seq<string>>): map<string, LobbyAction> {
    if rows == [] then map[]
    else AddAction(ActionsOf(rows[..|rows| - 1]), rows[|rows| - 1])
  }

  /** The table holds an action for exactly the commands of the complete taken rows, stored under
      its own command and built from the last such row. */
  lemma ActionsOfRows(rows: seq<seq<string>>)
    ensures forall c :: c in ActionsOf(rows) <==>
      exists i :: 0 <= i < |rows| && Taken(rows[i]) && |rows[i]| >= 6 && rows[i][1] == c
    ensures forall c :: c in ActionsOf(rows) ==> ActionsOf(rows)[c].cmd == c
    ensures forall i :: 0 <= i < |rows| && Taken(rows[i]) && |rows[i]| >= 6 && LastFor(rows, i, |rows|) ==>
      rows[i][1] in ActionsOf(rows) && ActionsOf(rows)[rows[i][1]] == LobbyAction(rows[i][0], rows[i][1], Note(rows[i]))
  {
    ActionsFromRows(rows);
    RowsInActions(rows);
    ActionsUnderCommand(rows);
    ActionsValues(rows);
  }

  /** Every command in the table comes from a complete taken row with it. */
  lemma {:induction false} ActionsFromRows(rows: seq<seq<string>>)
    ensures forall c :: c in ActionsOf(rows) ==>
      exists i :: 0 <= i < |rows| && Taken(rows[i]) && |rows[i]| >= 6 && rows[i][1] == c
  {
    if rows != [] {
      var p, last := rows[..|rows| - 1], rows[|rows| - 1];
      ActionsFromRows(p);
      AddActionKeys(ActionsOf(p), last);
      forall c | c in ActionsOf(rows)
        ensures exists i :: 0 <= i < |rows| && Taken(rows[i]) && |rows[i]| >= 6 && rows[i][1] == c
      {
        if !(Taken(last) && |last| >= 6 && last[1] == c) {
          var i :| 0 <= i < |p| && Taken(p[i]) && |p[i]| >= 6 && p[i][1] == c;
          assert rows[i] == p[i];
        }
      }
    }
  }

  /** The command of every complete taken row is in the table. */
  lemma {:induction false} RowsInActions(rows: seq<seq<string>>)
    ensures forall i :: 0 <= i < |rows| && Taken(rows[i]) && |rows[i]| >= 6 ==> rows[i][1] in ActionsOf(rows)
  {
    if rows != [] {
      var p, last := rows[..|rows| - 1], rows[|rows| - 1];
      RowsInActions(p);
      AddActionKeys(ActionsOf(p), last);
      forall i | 0 <= i < |p| && Taken(rows[i]) && |rows[i]| >= 6
        ensures rows[i][1] in ActionsOf(rows)
      {
        assert rows[i] == p[i];
      }
    }
  }

  /** Every action is stored under its own command. */
  lemma {:induction false} ActionsUnderCommand(rows: seq<seq<string>>)
    ensures forall c :: c in ActionsOf(rows) ==> ActionsOf(rows)[c].cmd == c
  {
    if rows != [] {
      ActionsUnderCommand(rows[..|rows| - 1]);
      AddActionKeys(ActionsOf(rows[..|rows| - 1]), rows[|rows| - 1]);
    }
  }

  /** One row adds its own command, stored under itself, when it is complete and taken. */
  lemma AddActionKeys(d: map<string, LobbyAction>, row: seq<string>)
    ensures forall c :: c in AddAction(d, row) <==> c in d || (Taken(row) && |row| >= 6 && row[1] == c)
    ensures (forall c :: c in d ==> d[c].cmd == c) ==> forall c :: c in AddAction(d, row) ==> AddAction(d, row)[c].cmd == c
  {
  }

  /** The action stored for a command is built from the last complete taken row with it. */
  lemma {:induction false} ActionsValues(rows: seq<seq<string>>)
    ensures forall i :: 0 <= i < |rows| && Taken(rows[i]) && |rows[i]| >= 6 && LastFor(rows, i, |rows|) ==>
      rows[i][1] in ActionsOf(rows) && ActionsOf(rows)[rows[i][1]] == LobbyAction(rows[i][0], rows[i][1], Note(rows[i]))
  {
    if rows != [] {
      var p := rows[..|rows| - 1];
      ActionsValues(p);
      forall i | 0 <= i < |rows| && Taken(rows[i]) && |rows[i]| >= 6 && LastFor(rows, i, |rows|)
        ensures rows[i][1] in ActionsOf(rows)
        ensures ActionsOf(rows)[rows[i][1]] == LobbyAction(rows[i][0], rows[i][1], Note(rows[i]))
      {
        if i < |p| {
          assert p[i] == rows[i];
          assert LastFor(p, i, |p|);
          var last := rows[|rows| - 1];
          assert !Taken(last) || last[1] != rows[i][1];
        }
      }
    }
  }

  lemma ActionsStep(rows: seq<seq<string>>, i: nat)
    requires i < |rows|
    ensures ActionsOf(rows[..i + 1]) == AddAction(ActionsOf(rows[..i]), rows[i])
  {
    assert rows[..i + 1][..i] == rows[..i];
  }

  /** The body of the loop of `LaDict.load` in app/misc.py for one taken row: the action with
      its note, or the column at which the row runs out. */
  method RowAction(row: seq<string>) returns (r: Result<LobbyAction, nat>)
    requires Taken(row)
    ensures r.Err? <==> |row| < 6
    ensures r.Err? ==> r.error == |row|
    ensures r.Ok? ==> r.value == LobbyAction(row[0], row[1], Note(row))
  {
    var name, cmd := row[0], row[1];
    var note: seq<string> := [];
    if row[2] == "1" {
      note := note + ["Loop"];
    }
    if row[3] == "1" {
      note := note + ["Reaction"];
    }
    assert note == Flag(row, 2, "Loop") + Flag(row, 3, "Reaction");
    if |row| < 5 {
      return Err(4);
    }
    if row[4] == "1" {
      note := note + ["NoTrade"];
    }
    assert note == Flag(row, 2, "Loop") + Flag(row, 3, "Reaction") + Flag(row, 4, "NoTrade");
    if |row| < 6 {
      return Err(5);
    }
    if row[5] == "1" {
      note := note + ["Finger"];
    }
    assert note == Labels(row);
    return Ok(LobbyAction(name, cmd, Join(note)));
  }

  /** `LaDict.load` of app/misc.py: columns 2 to 5 are all read, so a taken row of four or five
      fields raises at its first missing column. */
  method LoadActions(rows: seq<seq<string>>) returns (r: Result<map<string, LobbyAction>, LoadError>)
    ensures r.Err? <==> FirstShort(rows, 6).Some?
    ensures r.Err? ==> r.error == IndexError(FirstShort(rows, 6).value, |rows[FirstShort(rows, 6).value]|)
    ensures r.Ok? ==> r.value == ActionsOf(rows)
  {
    var dic: map<string, LobbyAction> := map[];
    var i := 0;
    while i < |rows|
      invariant 0 <= i <= |rows|
      invariant forall j :: 0 <= j < i && Taken(rows[j]) ==> |rows[j]| >= 6
      invariant dic == ActionsOf(rows[..i])
    {
      var row := rows[i];
      ActionsStep(rows, i);
      if |row| >= 4 && row[1] != "" {
        var action := RowAction(row);
        if action.Err? {
          FirstShortAt(rows, 6, i);
          return Err(IndexError(i, action.error));
        }
        dic := dic[row[1] := action.value];
      }
      i := i + 1;
    }
    assert rows[..i] == rows;
    return Ok(dic);
  }

  /** `LaDict.__call__`: the action stored for a command, `None` for an unknown one. */
  function Lookup(dic: map<string, LobbyAction>, cmd: string): (r: Option<LobbyAction>)
    ensures r.Some? <==> cmd in dic
    ensures r.Some? ==> r.value == dic[cmd]
  {
    if cmd in dic then Some(dic[cmd]) else None
  }
}

=== FILE: reorder.dfy ===
/**
 * The sequence reorder buffer (`seqregurator` in logpump.py). Entries arrive roughly in order
 * of their sequence numbers; the buffer hands them on in consecutive order, holding back the
 * ones that arrive early, restarts when the numbers go backwards, and gives up waiting
 * (flushes everything it holds, reporting the numbers it never saw) when the entries it holds
 * span more than 3 seconds.
 *
 * The min-heap is kept as a sequence sorted by sequence number; what is popped first is what
 * `heapq` pops first. The callback is replaced by the sequence of entries handed on, and the
 * warning about dropped numbers by the sequence of those numbers.
 */
module Reorder {
  import opened Wrappers
  import opened Text
  import opened LogEntry

  /** Sorted by sequence number (the heap order). */
  predicate Sorted(h: seq<Entry>) {
    forall i, j :: 0 <= i < j < |h| ==> h[i].sequence <= h[j].sequence
  }

  /** Strictly increasing sequence numbers: no number twice. */
  predicate Ascending(h: seq<Entry>) {
    forall i, j :: 0 <= i < j < |h| ==> h[i].sequence < h[j].sequence
  }

  /** Some entry of `h` has sequence number `n`. */
  predicate HasSeq(h: seq<Entry>, n: int) {
    exists k :: 0 <= k < |h| && h[k].sequence == n
  }

  /** `list(range(a, b))`. */
  function Range(a: int, b: int): (r: seq<int>)
    ensures |r| == if a < b then b - a else 0
    ensures forall k :: 0 <= k < |r| ==> r[k] == a + k
    decreases b - a
  {
    if a < b then [a] + Range(a + 1, b) else []
  }

  /** `heapq.heappush`: `x` goes after every entry with a number not greater than its own. */
  function Insert(h: seq<Entry>, x: Entry): seq<Entry>
  {
    if h == [] then [x]
    else if x.sequence < h[0].sequence then [x] + h
    else [h[0]] + Insert(h[1..], x)
  }

  /** Pushing adds exactly the entry. */
  lemma {:induction false} InsertAddsEntry(h: seq<Entry>, x: Entry)
    ensures multiset(Insert(h, x)) == multiset(h) + multiset{x}
  {
    if h != [] && x.sequence >= h[0].sequence {
      InsertAddsEntry(h[1..], x);
      ConsAdds(h[0], h[1..], Insert(h[1..], x), x);
      assert h == [h[0]] + h[1..];
    }
  }

  /** Putting the same element in front of both sides keeps one element's difference. */
  lemma ConsAdds<T>(a: T, t: seq<T>, u: seq<T>, x: T)
    requires multiset(u) == multiset(t) + multiset{x}
    ensures multiset([a] + u) == multiset([a] + t) + multiset{x}
  {
  }

  /** Pushing keeps the heap order. */
  lemma {:induction false} InsertSorted(h: seq<Entry>, x: Entry)
    requires Sorted(h)
    ensures Sorted(Insert(h, x))
  {
    if h != [] && x.sequence >= h[0].sequence {
      InsertSorted(h[1..], x);
      var t := Insert(h[1..], x);
      forall y | y in t
        ensures h[0].sequence <= y.sequence
      {
        InsertHas(h[1..], x, y);
      }
      ConsSorted(h[0], t);
    }
  }

  /** Pushing a new number keeps the numbers distinct. */
  lemma {:induction false} InsertAscending(h: seq<Entry>, x: Entry)
    requires Ascending(h) && !HasSeq(h, x.sequence)
    ensures Ascending(Insert(h, x))
  {
    if h != [] && x.sequence >= h[0].sequence {
      assert x.sequence != h[0].sequence;
      assert !HasSeq(h[1..], x.sequence) by {
        HasSeqCons(h, x.sequence);
      }
      InsertAscending(h[1..], x);
      var t := Insert(h[1..], x);
      forall y | y in t
        ensures h[0].sequence < y.sequence
      {
        InsertHas(h[1..], x, y);
        if y != x {
          var m :| 0 <= m < |h[1..]| && h[1..][m] == y;
          assert h[m + 1] == y;
        }
      }
      ConsAscending(h[0], t);
    }
  }

  /** An entry of the pushed heap is the new one or was there before. */
  lemma InsertHas(h: seq<Entry>, x: Entry, y: Entry)
    requires y in Insert(h, x)
    ensures y == x || y in h
  {
    InsertAddsEntry(h, x);
    assert y in multiset(Insert(h, x));
  }

  /** An entry no later than every entry of a heap in order can go in front of it. */
  lemma ConsSorted(e: Entry, t: seq<Entry>)
    requires Sorted(t) && forall y :: y in t ==> e.sequence <= y.sequence
    ensures Sorted([e] + t)
  {
    forall i, j | 0 <= i < j < |[e] + t|
      ensures ([e] + t)[i].sequence <= ([e] + t)[j].sequence
    {
      assert ([e] + t)[j] == t[j - 1];
      if i > 0 {
        assert ([e] + t)[i] == t[i - 1];
      }
    }
  }

  /** An entry earlier than every entry of a strictly ascending heap can go in front of it. */
  lemma ConsAscending(e: Entry, t: seq<Entry>)
    requires Ascending(t) && forall y :: y in t ==> e.sequence < y.sequence
    ensures Ascending([e] + t)
  {
    forall i, j | 0 <= i < j < |[e] + t|
      ensures ([e] + t)[i].sequence < ([e] + t)[j].sequence
    {
      assert ([e] + t)[j] == t[j - 1];
      if i > 0 {
        assert ([e] + t)[i] == t[i - 1];
      }
    }
  }

  /** What `flush` hands on, the numbers it reports as dropped, and the number it returns. */
  datatype Flushed = Flushed(emitted: seq<Entry>, dropped: seq<int>, next: int)

  /** `flush(heap, expected)`: pops every entry in heap order; before each, the numbers from the
      running cursor up to (not including) the entry's are dropped, and the cursor moves past
      the entry. */
  function Flush(h: seq<Entry>, cursor: int): Flushed {
    if h == [] then Flushed([], [], cursor)
    else
      var r := Flush(h[1..], h[0].sequence + 1);
      Flushed([h[0]] + r.emitted, Range(cursor, h[0].sequence) + r.dropped, r.next)
  }

  /** One turn of the loop of `flush`. */
  lemma FlushStep(h: seq<Entry>, cursor: int)
    requires h != []
    ensures Flush(h, cursor) == Flushed([h[0]] + Flush(h[1..], h[0].sequence + 1).emitted,
                                        Range(cursor, h[0].sequence) + Flush(h[1..], h[0].sequence + 1).dropped,
                                        Flush(h[1..], h[0].sequence + 1).next)
  {
  }

  /** `flush` hands on every entry it holds, in heap order, and returns one past the last. */
  lemma {:induction false} FlushEmitsAll(h: seq<Entry>, cursor: int)
    ensures Flush(h, cursor).emitted == h
    ensures Flush(h, cursor).next == if h == [] then cursor else h[|h| - 1].sequence + 1
  {
    if h != [] {
      FlushEmitsAll(h[1..], h[0].sequence + 1);
    }
  }

  lemma InRange(a: int, b: int, n: int)
    ensures n in Range(a, b) <==> a <= n < b
  {
    if a <= n < b {
      assert Range(a, b)[n - a] == n;
    }
  }

  lemma HasSeqCons(h: seq<Entry>, n: int)
    requires h != []
    ensures HasSeq(h, n) <==> h[0].sequence == n || HasSeq(h[1..], n)
  {
    if HasSeq(h[1..], n) {
      var m :| 0 <= m < |h[1..]| && h[1..][m].sequence == n;
      assert h[m + 1].sequence == n;
    }
    if HasSeq(h, n) && h[0].sequence != n {
      var m :| 0 <= m < |h| && h[m].sequence == n;
      assert h[1..][m - 1].sequence == n;
    }
  }

  /** On a heap without repeated numbers, none below the cursor, `flush` reports as dropped
      exactly the numbers from the cursor up to the last entry that no entry has. */
  lemma {:induction false} FlushDrops(h: seq<Entry>, cursor: int)
    requires Ascending(h) && (h != [] ==> cursor <= h[0].sequence)
    ensures forall n :: n in Flush(h, cursor).dropped <==> cursor <= n < Flush(h, cursor).next && !HasSeq(h, n)
  {
    if h != [] {
      var s0 := h[0].sequence;
      var t := h[1..];
      assert Ascending(t) && (t != [] ==> s0 + 1 <= t[0].sequence);
      FlushDrops(t, s0 + 1);
      FlushEmitsAll(t, s0 + 1);
      assert s0 + 1 <= Flush(t, s0 + 1).next;
      forall n
        ensures n in Flush(h, cursor).dropped <==> cursor <= n < Flush(h, cursor).next && !HasSeq(h, n)
      {
        FlushDropsOne(h, cursor, n);
      }
    }
  }

  /** One number, one turn of `flush`: it is dropped before the first entry when it lies
      between the cursor and that entry, and later exactly when the rest drops it. */
  lemma FlushDropsOne(h: seq<Entry>, cursor: int, n: int)
    requires Ascending(h) && h != [] && cursor <= h[0].sequence
    requires h[0].sequence + 1 <= Flush(h[1..], h[0].sequence + 1).next
    requires n in Flush(h[1..], h[0].sequence + 1).dropped <==>
      h[0].sequence + 1 <= n < Flush(h[1..], h[0].sequence + 1).next && !HasSeq(h[1..], n)
    ensures n in Flush(h, cursor).dropped <==> cursor <= n < Flush(h, cursor).next && !HasSeq(h, n)
  {
    var s0, t := h[0].sequence, h[1..];
    FlushStep(h, cursor);
    InRange(cursor, s0, n);
    HasSeqCons(h, n);
  }

  /** Strictly increasing, and nothing below `lo`. */
  predicate IncreasingFrom(d: seq<int>, lo: int) {
    && (forall i, j :: 0 <= i < j < |d| ==> d[i] < d[j])
    && (forall k :: 0 <= k < |d| ==> lo <= d[k])
  }

  /** The dropped numbers are reported in ascending order, none below the cursor. */
  lemma {:induction false} FlushDropsAscending(h: seq<Entry>, cursor: int)
    requires Ascending(h) && (h != [] ==> cursor <= h[0].sequence)
    ensures IncreasingFrom(Flush(h, cursor).dropped, cursor)
  {
    if h != [] {
      var s0, t := h[0].sequence, h[1..];
      assert Ascending(t) && (t != [] ==> s0 + 1 <= t[0].sequence);
      FlushDropsAscending(t, s0 + 1);
      IncreasingJoin(Range(cursor, s0), Flush(t, s0 + 1).dropped, cursor, s0);
      FlushStep(h, cursor);
    }
  }

  /** Two increasing runs of numbers, the first from `lo` and below `mid`, the second above it,
      make one increasing run from `lo`. */
  lemma IncreasingJoin(a: seq<int>, b: seq<int>, lo: int, mid: int)
    requires lo <= mid && IncreasingFrom(b, mid + 1)
    requires forall k :: 0 <= k < |a| ==> a[k] == lo + k && a[k] < mid
    ensures IncreasingFrom(a + b, lo)
  {
    var d := a + b;
    forall i, j | 0 <= i < j < |d|
      ensures d[i] < d[j]
    {
      if j >= |a| && i < |a| {
        assert d[j] == b[j - |a|];
      } else if i >= |a| {
        assert d[i] == b[i - |a|] && d[j] == b[j - |a|];
      }
    }
    forall k | 0 <= k < |d|
      ensures lo <= d[k]
    {
      if k >= |a| {
        assert d[k] == b[k - |a|];
      }
    }
  }

  /** What the releasing loop of `main` hands on, the entries it leaves and the new cursor. */
  datatype Released = Released(emitted: seq<Entry>, rest: seq<Entry>, next: int)

  /** The loop `while heap and heap[0].sequence == ...`: pop, hand on, advance the cursor. */
  function Release(h: seq<Entry>, cursor: int): Released
    decreases |h|
  {
    if h != [] && h[0].sequence == cursor then
      var r := Release(h[1..], cursor + 1);
      Released([h[0]] + r.emitted, r.rest, r.next)
    else Released([], h, cursor)
  }

  /** One turn of the releasing loop. */
  lemma ReleaseStep(h: seq<Entry>, cursor: int)
    requires h != [] && h[0].sequence == cursor
    ensures Release(h, cursor) == Released([h[0]] + Release(h[1..], cursor + 1).emitted,
                                           Release(h[1..], cursor + 1).rest, Release(h[1..], cursor + 1).next)
  {
  }

  /** The loop hands on a prefix of the heap whose numbers are consecutive from the cursor, moves
      the cursor one past each of them, and stops at the first entry that is not the next one. */
  lemma {:induction false} ReleaseConsecutive(h: seq<Entry>, cursor: int)
    ensures Release(h, cursor).emitted + Release(h, cursor).rest == h
    ensures Release(h, cursor).next == cursor + |Release(h, cursor).emitted|
    ensures forall k :: 0 <= k < |Release(h, cursor).emitted| ==> Release(h, cursor).emitted[k].sequence == cursor + k
    ensures Release(h, cursor).rest == [] || Release(h, cursor).rest[0].sequence != Release(h, cursor).next
    decreases |h|
  {
    if h != [] && h[0].sequence == cursor {
      ReleaseConsecutive(h[1..], cursor + 1);
      var r := Release(h[1..], cursor + 1);
      AppendAssoc([h[0]], r.emitted, r.rest);
    }
  }

  /** `max(ts)`. */
  function MaxStamp(h: seq<Entry>): int
    requires h != []
    decreases |h|
  {
    if |h| == 1 then h[0].timestamp
    else if h[0].timestamp > MaxStamp(h[1..]) then h[0].timestamp
    else MaxStamp(h[1..])
  }

  /** `max(ts)` is the time stamp of a held entry, and no held entry has a greater one. */
  lemma {:induction false} MaxStampIsMax(h: seq<Entry>)
    requires h != []
    ensures forall k :: 0 <= k < |h| ==> h[k].timestamp <= MaxStamp(h)
    ensures exists k :: 0 <= k < |h| && h[k].timestamp == MaxStamp(h)
    decreases |h|
  {
    if |h| > 1 {
      MaxStampIsMax(h[1..]);
      assert forall k :: 1 <= k < |h| ==> h[k] == h[1..][k - 1];
      if h[0].timestamp <= MaxStamp(h[1..]) {
        var k :| 0 <= k < |h[1..]| && h[1..][k].timestamp == MaxStamp(h[1..]);
        assert h[k + 1].timestamp == MaxStamp(h);
      } else {
        assert h[0].timestamp == MaxStamp(h);
      }
    } else {
      assert h[0].timestamp == MaxStamp(h);
    }
  }

  /** `min(ts)`. */
  function MinStamp(h: seq<Entry>): int
    requires h != []
    decreases |h|
  {
    if |h| == 1 then h[0].timestamp
    else if h[0].timestamp < MinStamp(h[1..]) then h[0].timestamp
    else MinStamp(h[1..])
  }

  /** `min(ts)` is the time stamp of a held entry, and no held entry has a smaller one. */
  lemma {:induction false} MinStampIsMin(h: seq<Entry>)
    requires h != []
    ensures forall k :: 0 <= k < |h| ==> MinStamp(h) <= h[k].timestamp
    ensures exists k :: 0 <= k < |h| && h[k].timestamp == MinStamp(h)
    decreases |h|
  {
    if |h| > 1 {
      MinStampIsMin(h[1..]);
      assert forall k :: 1 <= k < |h| ==> h[k] == h[1..][k - 1];
      if h[0].timestamp >= MinStamp(h[1..]) {
        var k :| 0 <= k < |h[1..]| && h[1..][k].timestamp == MinStamp(h[1..]);
        assert h[k + 1].timestamp == MinStamp(h);
      } else {
        assert h[0].timestamp == MinStamp(h);
      }
    } else {
      assert h[0].timestamp == MinStamp(h);
    }
  }

  /** `(max(ts) - min(ts)) > 3`: the entries held span more than 3 seconds. */
  predicate Stale(h: seq<Entry>) {
    h != [] && MaxStamp(h) - MinStamp(h) > 3
  }

  /** The buffer: the held entries and the number expected next (`None` before the first). */
  datatype Regulator = Regulator(heap: seq<Entry>, cursor: Option<int>)

  /** What one entry sets off: the entries handed on, in order; the numbers reported dropped;
      whether the numbers went backwards (`sequense restart`); whether the buffer gave up
      waiting. */
  datatype Outcome = Outcome(emitted: seq<Entry>, dropped: seq<int>, restarted: bool, flushed: bool)

  datatype Stepped = Stepped(state: Regulator, out: Outcome)

  /** The first entry, or one numbered below the cursor, restarts the buffer at its number. */
  predicate Restarts(r: Regulator, x: Entry) {
    r.cursor.None? || x.sequence < r.cursor.value
  }

  /** Where the restart check of `main` leaves things: what the restart flush handed on and
      reported, the entries still held and the cursor. */
  datatype Stage = Stage(emitted: seq<Entry>, dropped: seq<int>, heap: seq<Entry>, cursor: int)

  /** The restart check: an entry numbered below the cursor flushes what is held (the cursor
      that flush returns is thrown away); the first entry or such an entry sets the cursor to
      its own number. */
  function Prepare(r: Regulator, x: Entry): Stage {
    if r.cursor.Some? && x.sequence < r.cursor.value then
      var f := Flush(r.heap, r.cursor.value);
      Stage(f.emitted, f.dropped, [], x.sequence)
    else if r.cursor.None? then Stage([], [], r.heap, x.sequence)
    else Stage([], [], r.heap, r.cursor.value)
  }

  /** The rest of the turn: push, hand on what is next in line, and give up waiting when the
      entries still held span more than 3 seconds. */
  function Settle(p: Stage, x: Entry, restarted: bool): Stepped {
    var rel := Release(Insert(p.heap, x), p.cursor);
    if Stale(rel.rest) then
      var post := Flush(rel.rest, rel.next);
      Stepped(Regulator([], Some(post.next)),
              Outcome(p.emitted + rel.emitted + post.emitted, p.dropped + post.dropped, restarted, true))
    else
      Stepped(Regulator(rel.rest, Some(rel.next)), Outcome(p.emitted + rel.emitted, p.dropped, restarted, false))
  }

  /** One turn of `main` on entry `x`. */
  function Ingest(r: Regulator, x: Entry): Stepped {
    Settle(Prepare(r, x), x, r.cursor.Some? && x.sequence < r.cursor.value)
  }

  lemma PrepareConserves(r: Regulator, x: Entry)
    ensures multiset(Prepare(r, x).emitted) + multiset(Prepare(r, x).heap) == multiset(r.heap)
  {
    if r.cursor.Some? && x.sequence < r.cursor.value {
      FlushEmitsAll(r.heap, r.cursor.value);
    }
  }

  lemma SettleConserves(p: Stage, x: Entry, restarted: bool)
    ensures multiset(Settle(p, x, restarted).out.emitted) + multiset(Settle(p, x, restarted).state.heap)
      == multiset(p.emitted) + multiset(p.heap) + multiset{x}
  {
    var h := Insert(p.heap, x);
    var rel := Release(h, p.cursor);
    var st := Settle(p, x, restarted);
    assert multiset(st.out.emitted) + multiset(st.state.heap)
        == multiset(p.emitted) + multiset(rel.emitted) + multiset(rel.rest) by {
      if st.out.flushed {
        SettleStale(p, x, restarted);
        FlushEmitsAll(rel.rest, rel.next);
        assert st.out.emitted == p.emitted + rel.emitted + rel.rest && st.state.heap == [];
      } else {
        SettleSteady(p, x, restarted);
        assert st.out.emitted == p.emitted + rel.emitted && st.state.heap == rel.rest;
      }
    }
    assert multiset(rel.emitted) + multiset(rel.rest) == multiset(h) by {
      ReleaseConsecutive(h, p.cursor);
    }
    assert multiset(h) == multiset(p.heap) + multiset{x} by {
      InsertAddsEntry(p.heap, x);
    }
    assert multiset(p.emitted) + multiset(rel.emitted) + multiset(rel.rest)
        == multiset(p.emitted) + (multiset(rel.emitted) + multiset(rel.rest));
  }

  /** No loss and no duplication: every entry that has come in is either handed on once or
      still held. */
  lemma IngestConserves(r: Regulator, x: Entry)
    ensures multiset(Ingest(r, x).out.emitted) + multiset(Ingest(r, x).state.heap) == multiset(r.heap) + multiset{x}
  {
    PrepareConserves(r, x);
    SettleConserves(Prepare(r, x), x, r.cursor.Some? && x.sequence < r.cursor.value);
  }

  /** What the releasing loop leaves is the tail of what it started with. */
  lemma ReleaseRest(h: seq<Entry>, cursor: int)
    ensures |Release(h, cursor).emitted| <= |h|
    ensures Release(h, cursor).rest == h[|Release(h, cursor).emitted|..]
  {
    ReleaseConsecutive(h, cursor);
  }

  /** The held entries stay in heap order. */
  lemma SettleSorted(p: Stage, x: Entry, restarted: bool)
    requires Sorted(p.heap)
    ensures Sorted(Settle(p, x, restarted).state.heap)
  {
    var h := Insert(p.heap, x);
    InsertSorted(p.heap, x);
    ReleaseRestSorted(h, p.cursor);
    if !Settle(p, x, restarted).out.flushed {
      SettleSteady(p, x, restarted);
    }
  }

  /** What the releasing loop leaves of a heap in order is in order. */
  lemma ReleaseRestSorted(h: seq<Entry>, cursor: int)
    requires Sorted(h)
    ensures Sorted(Release(h, cursor).rest)
  {
    ReleaseRest(h, cursor);
    SortedSuffix(h, |Release(h, cursor).emitted|);
  }

  /** A tail of a heap in order is in order. */
  lemma SortedSuffix(h: seq<Entry>, e: nat)
    requires Sorted(h) && e <= |h|
    ensures Sorted(h[e..])
  {
    forall i, j | 0 <= i < j < |h[e..]|
      ensures h[e..][i].sequence <= h[e..][j].sequence
    {
      assert h[e..][i] == h[e + i] && h[e..][j] == h[e + j];
    }
  }

  lemma IngestSorted(r: Regulator, x: Entry)
    requires Sorted(r.heap)
    ensures Sorted(Ingest(r, x).state.heap)
  {
    var p := Prepare(r, x);
    assert p.heap == [] || p.heap == r.heap;
    SettleSorted(p, x, r.cursor.Some? && x.sequence < r.cursor.value);
  }

  /** The first entry, or one numbered below the cursor, restarts the buffer at its number. On
      a restart everything held before is handed on first, in heap order, and reported as
      `flush` reports it; the cursor `flush` returns is thrown away, the entry itself comes next,
      and the buffer is left empty expecting the number after the entry's. */
  lemma RestartFlushesFirst(r: Regulator, x: Entry)
    requires Restarts(r, x) && (r.cursor.None? ==> r.heap == [])
    ensures Ingest(r, x).out.restarted <==> r.cursor.Some?
    ensures Ingest(r, x).state == Regulator([], Some(x.sequence + 1))
    ensures Ingest(r, x).out.emitted == r.heap + [x] && !Ingest(r, x).out.flushed
    ensures r.cursor.Some? ==> Ingest(r, x).out.dropped == Flush(r.heap, r.cursor.value).dropped
    ensures r.cursor.None? ==> Ingest(r, x).out.dropped == []
  {
    if r.cursor.Some? {
      FlushEmitsAll(r.heap, r.cursor.value);
    }
    assert Insert([], x) == [x];
    ReleaseConsecutive([x], x.sequence);
    ReleaseRest([x], x.sequence);
  }

  /** The steady state: after the first entry, nothing held is at or below the cursor, and no
      number is held twice. */
  predicate Pending(r: Regulator) {
    Ascending(r.heap) && (r.cursor.None? ==> r.heap == [])
    && (r.cursor.Some? ==> forall k :: 0 <= k < |r.heap| ==> r.heap[k].sequence > r.cursor.value)
  }

  lemma ReleaseAbove(h: seq<Entry>, cursor: int)
    requires Ascending(h) && forall k :: 0 <= k < |h| ==> h[k].sequence >= cursor
    ensures Ascending(Release(h, cursor).rest)
    ensures forall k :: 0 <= k < |Release(h, cursor).rest| ==> Release(h, cursor).rest[k].sequence > Release(h, cursor).next
  {
    ReleaseRest(h, cursor);
    ReleaseHalts(h, cursor);
    var r := Release(h, cursor);
    var e := |r.emitted|;
    if e < |h| && e > 0 {
      ReleaseConsecutive(h, cursor);
      assert r.emitted[e - 1] == h[e - 1];
      assert h[e - 1].sequence < h[e].sequence;
    }
    SuffixAbove(h, e, r.next);
  }

  /** Where the releasing stops: the first entry it leaves is not the number expected next. */
  lemma ReleaseHalts(h: seq<Entry>, cursor: int)
    ensures |Release(h, cursor).emitted| < |h| ==> h[|Release(h, cursor).emitted|].sequence != Release(h, cursor).next
    ensures Release(h, cursor).next == cursor + |Release(h, cursor).emitted|
  {
    ReleaseConsecutive(h, cursor);
    ReleaseRest(h, cursor);
    var r := Release(h, cursor);
    if |r.emitted| < |h| {
      assert r.rest[0] == h[|r.emitted|];
    }
  }

  /** In an ascending sequence, everything from an entry above `n` on is above `n`. */
  lemma SuffixAbove(h: seq<Entry>, e: nat, n: int)
    requires Ascending(h) && e <= |h| && (e < |h| ==> h[e].sequence > n)
    ensures Ascending(h[e..])
    ensures forall k :: 0 <= k < |h[e..]| ==> h[e..][k].sequence > n
  {
    forall k | 0 <= k < |h[e..]|
      ensures h[e..][k].sequence > n
    {
      assert h[e..][k] == h[e + k];
      assert k == 0 || h[e].sequence < h[e + k].sequence;
    }
    forall i, j | 0 <= i < j < |h[e..]|
      ensures h[e..][i].sequence < h[e..][j].sequence
    {
      assert h[e..][i] == h[e + i] && h[e..][j] == h[e + j];
    }
  }

  /** After the restart check of a steady state, with `x` not held already, the heap with `x`
      pushed has no number twice and none below the cursor. */
  lemma PreparePending(r: Regulator, x: Entry)
    requires Pending(r) && !HasSeq(r.heap, x.sequence)
    ensures Ascending(Insert(Prepare(r, x).heap, x))
    ensures forall k :: 0 <= k < |Insert(Prepare(r, x).heap, x)| ==>
      Insert(Prepare(r, x).heap, x)[k].sequence >= Prepare(r, x).cursor
  {
    var p := Prepare(r, x);
    InsertAscending(p.heap, x);
    InsertAddsEntry(p.heap, x);
    var h := Insert(p.heap, x);
    forall k | 0 <= k < |h|
      ensures h[k].sequence >= p.cursor
    {
      assert h[k] in multiset(h);
      if h[k] != x {
        assert h[k] in multiset(p.heap);
      }
    }
  }

  /** Without repeated numbers the steady state is kept. */
  lemma IngestPending(r: Regulator, x: Entry)
    requires Pending(r) && !HasSeq(r.heap, x.sequence)
    ensures Pending(Ingest(r, x).state)
  {
    var p := Prepare(r, x);
    PreparePending(r, x);
    ReleaseAbove(Insert(p.heap, x), p.cursor);
  }

  lemma SettleInOrder(p: Stage, x: Entry, restarted: bool)
    requires p.emitted == [] && p.dropped == [] && !Settle(p, x, restarted).out.flushed
    ensures Settle(p, x, restarted).out.dropped == []
    ensures forall k :: 0 <= k < |Settle(p, x, restarted).out.emitted| ==>
      Settle(p, x, restarted).out.emitted[k].sequence == p.cursor + k
    ensures Settle(p, x, restarted).state.cursor == Some(p.cursor + |Settle(p, x, restarted).out.emitted|)
  {
    SettleSteady(p, x, restarted);
    var rel := Release(Insert(p.heap, x), p.cursor);
    ReleaseConsecutive(Insert(p.heap, x), p.cursor);
    assert p.emitted + rel.emitted == rel.emitted;
  }

  /** A step that gives up hands on what the releasing loop hands on and then everything left,
      and keeps nothing. */
  lemma SettleStale(p: Stage, x: Entry, restarted: bool)
    requires Settle(p, x, restarted).out.flushed
    ensures Settle(p, x, restarted).out.emitted == p.emitted + Release(Insert(p.heap, x), p.cursor).emitted
      + Flush(Release(Insert(p.heap, x), p.cursor).rest, Release(Insert(p.heap, x), p.cursor).next).emitted
    ensures Settle(p, x, restarted).out.dropped
      == p.dropped + Flush(Release(Insert(p.heap, x), p.cursor).rest, Release(Insert(p.heap, x), p.cursor).next).dropped
    ensures Settle(p, x, restarted).state
      == Regulator([], Some(Flush(Release(Insert(p.heap, x), p.cursor).rest, Release(Insert(p.heap, x), p.cursor).next).next))
  {
  }

  /** A step that does not give up hands on what the releasing loop hands on and keeps what it
      leaves. */
  lemma SettleSteady(p: Stage, x: Entry, restarted: bool)
    requires !Settle(p, x, restarted).out.flushed
    ensures Settle(p, x, restarted).out.emitted == p.emitted + Release(Insert(p.heap, x), p.cursor).emitted
    ensures Settle(p, x, restarted).out.dropped == p.dropped
    ensures Settle(p, x, restarted).state
      == Regulator(Release(Insert(p.heap, x), p.cursor).rest, Some(Release(Insert(p.heap, x), p.cursor).next))
  {
  }

  /** An ordinary step (no restart, no giving up) hands on the entries numbered from the cursor
      on that it holds, consecutively, and advances the cursor past them; the entry the cursor
      waits for is always handed on at once. */
  lemma IngestInOrder(r: Regulator, x: Entry)
    requires r.cursor.Some? && !Restarts(r, x) && !Ingest(r, x).out.flushed
    ensures !Ingest(r, x).out.restarted && Ingest(r, x).out.dropped == []
    ensures forall k :: 0 <= k < |Ingest(r, x).out.emitted| ==>
      Ingest(r, x).out.emitted[k].sequence == r.cursor.value + k
    ensures Ingest(r, x).state.cursor == Some(r.cursor.value + |Ingest(r, x).out.emitted|)
    ensures x.sequence == r.cursor.value && Pending(r) ==> Ingest(r, x).out.emitted[0] == x
  {
    var e := r.cursor.value;
    var p := Prepare(r, x);
    assert p == Stage([], [], r.heap, e);
    SettleInOrder(p, x, false);
    if x.sequence == e && Pending(r) {
      var h := Insert(r.heap, x);
      assert h[0] == x by {
        if r.heap != [] {
          assert x.sequence < r.heap[0].sequence;
        }
      }
      assert Release(h, e).emitted[0] == x;
      assert Ingest(r, x).out.emitted == Release(h, e).emitted;
    }
  }

  lemma HasSeqAppend(a: seq<Entry>, b: seq<Entry>, n: int)
    ensures HasSeq(a + b, n) <==> HasSeq(a, n) || HasSeq(b, n)
  {
    if HasSeq(a + b, n) {
      var m :| 0 <= m < |a + b| && (a + b)[m].sequence == n;
      if m >= |a| {
        assert b[m - |a|].sequence == n;
      }
    }
    if HasSeq(b, n) {
      var m :| 0 <= m < |b| && b[m].sequence == n;
      assert (a + b)[m + |a|].sequence == n;
    }
    if HasSeq(a, n) {
      var m :| 0 <= m < |a| && a[m].sequence == n;
      assert (a + b)[m].sequence == n;
    }
  }

  /** Giving up in the steady state hands on everything held, in ascending order, and reports
      as dropped exactly the numbers between the old cursor and the new one that were never
      handed on. */
  lemma IngestGivesUp(r: Regulator, x: Entry)
    requires r.cursor.Some? && !Restarts(r, x) && Ingest(r, x).out.flushed
    requires Pending(r) && !HasSeq(r.heap, x.sequence)
    ensures Ingest(r, x).state.heap == []
    ensures Ascending(Ingest(r, x).out.emitted)
    ensures Ingest(r, x).state.cursor.Some? && Ingest(r, x).out.emitted != []
    ensures Ingest(r, x).state.cursor.value == Ingest(r, x).out.emitted[|Ingest(r, x).out.emitted| - 1].sequence + 1
    ensures forall n :: n in Ingest(r, x).out.dropped <==>
      r.cursor.value <= n < Ingest(r, x).state.cursor.value && !HasSeq(Ingest(r, x).out.emitted, n)
  {
    var p := Prepare(r, x);
    PreparePending(r, x);
    assert p == Stage([], [], r.heap, r.cursor.value);
    SettleGivesUp(p, x, false);
  }

  /** A turn gives up exactly when the entries still held after the releasing loop span more
      than 3 seconds; so after every turn the held entries span at most 3 seconds. */
  lemma IngestGivesUpExactly(r: Regulator, x: Entry)
    ensures Ingest(r, x).out.flushed <==> Stale(Release(Insert(Prepare(r, x).heap, x), Prepare(r, x).cursor).rest)
    ensures !Stale(Ingest(r, x).state.heap)
    ensures forall i, j :: 0 <= i < |Ingest(r, x).state.heap| && 0 <= j < |Ingest(r, x).state.heap| ==>
      Ingest(r, x).state.heap[i].timestamp - Ingest(r, x).state.heap[j].timestamp <= 3
  {
    var h := Ingest(r, x).state.heap;
    if h != [] {
      MaxStampIsMax(h);
      MinStampIsMin(h);
    }
  }

  /** Giving up after the restart check hands on the heap with `x` pushed and reports as
      dropped the numbers from the cursor up to the new one that it does not hold. */
  lemma SettleGivesUp(p: Stage, x: Entry, restarted: bool)
    requires p.emitted == [] && p.dropped == [] && Settle(p, x, restarted).out.flushed
    requires Ascending(Insert(p.heap, x))
    requires forall k :: 0 <= k < |Insert(p.heap, x)| ==> Insert(p.heap, x)[k].sequence >= p.cursor
    ensures Settle(p, x, restarted).state.heap == [] && Settle(p, x, restarted).state.cursor.Some?
    ensures Settle(p, x, restarted).out.emitted == Insert(p.heap, x)
    ensures Insert(p.heap, x) != [] && Settle(p, x, restarted).state.cursor.value == Insert(p.heap, x)[|Insert(p.heap, x)| - 1].sequence + 1
    ensures forall n :: n in Settle(p, x, restarted).out.dropped <==>
      p.cursor <= n < Settle(p, x, restarted).state.cursor.value && !HasSeq(Insert(p.heap, x), n)
  {
    var h := Insert(p.heap, x);
    var rel := Release(h, p.cursor);
    var post := Flush(rel.rest, rel.next);
    GiveUpOutcome(p, x, restarted, rel, post);
    assert rel.emitted + post.emitted == h by {
      ReleaseConsecutive(h, p.cursor);
      FlushEmitsAll(rel.rest, rel.next);
    }
    GiveUpCursor(h, p.cursor);
    DropsAfterRelease(h, p.cursor);
  }

  /** A turn that gives up hands on what the releasing loop and then the final flush hand on,
      reports what that flush drops, and leaves nothing held. */
  lemma GiveUpOutcome(p: Stage, x: Entry, restarted: bool, rel: Released, post: Flushed)
    requires p.emitted == [] && p.dropped == [] && Settle(p, x, restarted).out.flushed
    requires rel == Release(Insert(p.heap, x), p.cursor) && post == Flush(rel.rest, rel.next)
    ensures rel.rest != []
    ensures Settle(p, x, restarted) ==
      Stepped(Regulator([], Some(post.next)), Outcome(rel.emitted + post.emitted, post.dropped, restarted, true))
  {
    assert [] + rel.emitted == rel.emitted && [] + post.dropped == post.dropped;
  }

  /** Releasing and then flushing something left leaves the cursor one past the last entry. */
  lemma GiveUpCursor(h: seq<Entry>, cursor: int)
    requires Release(h, cursor).rest != []
    ensures h != [] && Flush(Release(h, cursor).rest, Release(h, cursor).next).next == h[|h| - 1].sequence + 1
  {
    var rel := Release(h, cursor);
    ReleaseRest(h, cursor);
    FlushEmitsAll(rel.rest, rel.next);
  }

  /** Releasing from the cursor and then flushing what is left reports as dropped exactly the
      numbers from the cursor up to the new cursor that no entry has. */
  lemma DropsAfterRelease(h: seq<Entry>, e: int)
    requires Ascending(h) && forall k :: 0 <= k < |h| ==> h[k].sequence >= e
    ensures forall n :: n in Flush(Release(h, e).rest, Release(h, e).next).dropped <==>
      e <= n < Flush(Release(h, e).rest, Release(h, e).next).next && !HasSeq(h, n)
  {
    ReleaseConsecutive(h, e);
    ReleaseAbove(h, e);
    var rel := Release(h, e);
    FlushDrops(rel.rest, rel.next);
    var post := Flush(rel.rest, rel.next);
    forall n
      ensures n in post.dropped <==> e <= n < post.next && !HasSeq(h, n)
    {
      HasSeqAppend(rel.emitted, rel.rest, n);
      if e <= n < rel.next {
        assert rel.emitted[n - e].sequence == n;
      }
      if HasSeq(rel.rest, n) {
        var m :| 0 <= m < |rel.rest| && rel.rest[m].sequence == n;
        assert n > rel.next;
      }
      if HasSeq(rel.emitted, n) {
        var m :| 0 <= m < |rel.emitted| && rel.emitted[m].sequence == n;
        assert n < rel.next;
      }
    }
  }

  /** Feeding a run of entries one by one. */
  function Feed(r: Regulator, xs: seq<Entry>): Stepped
    decreases |xs|
  {
    if xs == [] then Stepped(r, Outcome([], [], false, false))
    else
      var s0 := Ingest(r, xs[0]);
      var s1 := Feed(s0.state, xs[1..]);
      Stepped(s1.state, Outcome(s0.out.emitted + s1.out.emitted, s0.out.dropped + s1.out.dropped,
                                s0.out.restarted || s1.out.restarted, s0.out.flushed || s1.out.flushed))
  }

  /** One entry fed, then the rest. */
  lemma FeedStep(r: Regulator, xs: seq<Entry>)
    requires xs != []
    ensures Feed(r, xs).out.emitted == Ingest(r, xs[0]).out.emitted + Feed(Ingest(r, xs[0]).state, xs[1..]).out.emitted
    ensures Feed(r, xs).state == Feed(Ingest(r, xs[0]).state, xs[1..]).state
  {
  }

  /** Chaining two conservation steps: what the first step hands on and what the second hands
      on and keeps account for what was held and both batches of input. */
  lemma SumShift<T>(held: multiset<T>, x: multiset<T>, ys: multiset<T>,
                    e0: multiset<T>, e1: multiset<T>, h0: multiset<T>, h1: multiset<T>)
    requires e0 + h0 == held + x && e1 + h1 == h0 + ys
    ensures (e0 + e1) + h1 == held + (x + ys)
  {
    calc {
      (e0 + e1) + h1;
      e0 + (e1 + h1);
      e0 + (h0 + ys);
      (e0 + h0) + ys;
    }
  }

  /** Over any run of entries nothing is lost or handed on twice. */
  lemma {:induction false} FeedConserves(r: Regulator, xs: seq<Entry>)
    ensures multiset(Feed(r, xs).out.emitted) + multiset(Feed(r, xs).state.heap) == multiset(r.heap) + multiset(xs)
    decreases |xs|
  {
    if xs != [] {
      var s0 := Ingest(r, xs[0]);
      var s1 := Feed(s0.state, xs[1..]);
      var e0, e1, h0, h1 := multiset(s0.out.emitted), multiset(s1.out.emitted), multiset(s0.state.heap), multiset(s1.state.heap);
      assert e0 + h0 == multiset(r.heap) + multiset{xs[0]} by {
        IngestConserves(r, xs[0]);
      }
      assert e1 + h1 == h0 + multiset(xs[1..]) by {
        FeedConserves(s0.state, xs[1..]);
      }
      assert multiset(xs) == multiset{xs[0]} + multiset(xs[1..]) by {
        assert xs == [xs[0]] + xs[1..];
      }
      assert multiset(Feed(r, xs).out.emitted) == e0 + e1 && Feed(r, xs).state.heap == s1.state.heap by {
        FeedStep(r, xs);
      }
      SumShift(multiset(r.heap), multiset{xs[0]}, multiset(xs[1..]), e0, e1, h0, h1);
    }
  }

  /** Numbers that neither the held entries nor `x` carry are not carried by what is held
      after a conserving step either. */
  lemma StillAbsent(held: seq<Entry>, x: Entry, emitted: seq<Entry>, kept: seq<Entry>, xs: seq<Entry>)
    requires multiset(emitted) + multiset(kept) == multiset(held) + multiset{x}
    requires forall i :: 0 <= i < |xs| ==> !HasSeq(held, xs[i].sequence) && xs[i].sequence != x.sequence
    ensures forall i :: 0 <= i < |xs| ==> !HasSeq(kept, xs[i].sequence)
  {
    forall i, m | 0 <= i < |xs| && 0 <= m < |kept|
      ensures kept[m].sequence != xs[i].sequence
    {
      var y := kept[m];
      assert y in multiset(kept);
      assert y in multiset(held) + multiset{x};
      if y != x {
        assert y in held;
        var k :| 0 <= k < |held| && held[k] == y;
      }
    }
  }

  /** Fed entries with distinct numbers, none of them held already, the buffer stays in its
      steady state. */
  lemma {:induction false} FeedPending(r: Regulator, xs: seq<Entry>)
    requires Pending(r)
    requires forall i, j :: 0 <= i < j < |xs| ==> xs[i].sequence != xs[j].sequence
    requires forall i :: 0 <= i < |xs| ==> !HasSeq(r.heap, xs[i].sequence)
    ensures Pending(Feed(r, xs).state)
    decreases |xs|
  {
    if xs != [] {
      var s0 := Ingest(r, xs[0]);
      IngestPending(r, xs[0]);
      IngestConserves(r, xs[0]);
      var ys := xs[1..];
      assert forall i :: 0 <= i < |ys| ==> !HasSeq(r.heap, ys[i].sequence) && ys[i].sequence != xs[0].sequence
      by {
        forall i | 0 <= i < |ys|
          ensures !HasSeq(r.heap, ys[i].sequence) && ys[i].sequence != xs[0].sequence
        {
          assert ys[i] == xs[i + 1];
        }
      }
      StillAbsent(r.heap, xs[0], s0.out.emitted, s0.state.heap, ys);
      assert forall i, j :: 0 <= i < j < |ys| ==> ys[i].sequence != ys[j].sequence
      by {
        forall i, j | 0 <= i < j < |ys|
          ensures ys[i].sequence != ys[j].sequence
        {
          assert ys[i] == xs[i + 1] && ys[j] == xs[j + 1];
        }
      }
      FeedPending(s0.state, ys);
      assert Feed(r, xs).state == Feed(s0.state, ys).state;
    }
  }

  /** The coroutine state of `seqregurator`: the heap and the cursor `expect`. */
  class SeqRegulator {
    var heap: seq<Entry>
    var cursor: Option<int>

    /** `coro = main(); next(coro)`: nothing held, no number expected yet. */
    constructor()
      ensures heap == [] && cursor == None
    {
      heap := [];
      cursor := None;
    }

    /** `flush(heap, start)`: pops every entry, handing each on, and empties the heap. */
    method FlushHeap(start: int) returns (emitted: seq<Entry>, dropped: seq<int>, next: int)
      modifies this
      ensures heap == [] && cursor == old(cursor)
      ensures Flushed(emitted, dropped, next) == Flush(old(heap), start)
    {
      emitted, dropped, next := [], [], start;
      while heap != []
        invariant cursor == old(cursor)
        invariant emitted + Flush(heap, next).emitted == Flush(old(heap), start).emitted
        invariant dropped + Flush(heap, next).dropped == Flush(old(heap), start).dropped
        invariant Flush(heap, next).next == Flush(old(heap), start).next
        decreases |heap|
      {
        var entry := heap[0];
        var gap := Range(next, entry.sequence);
        ghost var tail := Flush(heap[1..], entry.sequence + 1);
        FlushStep(heap, next);
        AppendAssoc(emitted, [entry], tail.emitted);
        AppendAssoc(dropped, gap, tail.dropped);
        heap := heap[1..];
        emitted := emitted + [entry];
        dropped := dropped + gap;
        next := entry.sequence + 1;
      }
      assert emitted + [] == emitted && dropped + [] == dropped;
    }

    /** The releasing loop of `main`: pops the entries numbered consecutively from `e0` and
        returns them with the number expected after them. */
    method ReleaseHeap(e0: int) returns (released: seq<Entry>, e: int)
      modifies this
      ensures cursor == old(cursor)
      ensures released == Release(old(heap), e0).emitted
      ensures heap == Release(old(heap), e0).rest && e == Release(old(heap), e0).next
    {
      released, e := [], e0;
      while heap != [] && heap[0].sequence == e
        invariant cursor == old(cursor)
        invariant released + Release(heap, e).emitted == Release(old(heap), e0).emitted
        invariant Release(heap, e).rest == Release(old(heap), e0).rest
        invariant Release(heap, e).next == Release(old(heap), e0).next
        decreases |heap|
      {
        var entry := heap[0];
        ReleaseStep(heap, e);
        AppendAssoc(released, [entry], Release(heap[1..], e + 1).emitted);
        heap := heap[1..];
        released := released + [entry];
        e := e + 1;
      }
      assert released + [] == released;
    }

    /** `coro.send(entry)`: one turn of `main`, returning what the callback receives and the
        numbers the warning reports. */
    method Push(x: Entry) returns (emitted: seq<Entry>, dropped: seq<int>)
      modifies this
      ensures Regulator(heap, cursor) == Ingest(Regulator(old(heap), old(cursor)), x).state
      ensures emitted == Ingest(Regulator(old(heap), old(cursor)), x).out.emitted
      ensures dropped == Ingest(Regulator(old(heap), old(cursor)), x).out.dropped
    {
      ghost var p := Prepare(Regulator(heap, cursor), x);
      ghost var restarted := cursor.Some? && x.sequence < cursor.value;
      assert Ingest(Regulator(heap, cursor), x) == Settle(p, x, restarted);
      emitted, dropped := [], [];
      if cursor.None? || x.sequence < cursor.value {
        if cursor.Some? {
          var resumed;
          emitted, dropped, resumed := FlushHeap(cursor.value);
        }
        cursor := Some(x.sequence);
      }
      assert Stage(emitted, dropped, heap, cursor.value) == p;
      heap := Insert(heap, x);
      var released, e := ReleaseHeap(cursor.value);
      emitted := emitted + released;
      cursor := Some(e);
      if heap != [] && MaxStamp(heap) - MinStamp(heap) > 3 {
        SettleStale(p, x, restarted);
        var more, lost, next := FlushHeap(e);
        emitted := emitted + more;
        dropped := dropped + lost;
        cursor := Some(next);
      } else {
        SettleSteady(p, x, restarted);
      }
    }
  }
}

=== FILE: reporter.dfy ===
/**
 * The delayed item report of app/misc.py (`DelayedReporter`): items picked up are added to a
 * tally, and the tally is handed to the callback once 30 seconds have passed without a new item.
 *
 * `main` is a generator that `update` resumes once per tick; it is modelled by the place it is
 * suspended at (`phase`) and one step per `update`. The clock is a parameter: `put` and each
 * step receive the time `time.time()` would return, read once per step.
 */
module Reporter {
  import opened Wrappers
  import opened Items

  /** `delay`. */
  const Delay: real := 30.0

  /** Where `main` is suspended: in `while not self.added` (or not yet started, which behaves
      the same), or in `while time.time() < self.expiry`. */
  datatype Phase = Idle | Waiting

  /** What a step leaves behind: where `main` is suspended, the `added` flag, and whether the
      tally went to the callback. */
  datatype Resumed = Resumed(phase: Phase, added: bool, fires: bool)

  /** One resumption of `main` at time `now`. It fires exactly when something was put since the
      last report (shown by `added` or by waiting) and the clock has reached the expiry of the
      latest put; it keeps waiting exactly when something was put and the expiry is still ahead;
      `added` survives only a step that stays in the wait loop. */
  function Resume(phase: Phase, added: bool, expiry: real, now: real): (r: Resumed)
    ensures r.fires <==> (added || phase == Waiting) && now >= expiry
    ensures r.phase == Waiting <==> (added || phase == Waiting) && now < expiry
    ensures r.added <==> added && phase == Waiting && now < expiry
    ensures !(r.fires && r.phase == Waiting)
  {
    if phase == Waiting && now < expiry then Resumed(Waiting, added, false)
    else if phase == Idle && !added then Resumed(Idle, false, false)
    else if now < expiry then
      assert phase == Idle && added;
      Resumed(Waiting, false, false)
    else Resumed(Idle, false, true)
  }

  class DelayedReporter {
    var counter: ItemCounter
    var expiry: real
    var added: bool
    var phase: Phase
    /** Something was put since the last report. */
    ghost var pending: bool

    /** Something is pending exactly when `added` is set or `main` is waiting, and the tally is
        empty when nothing is pending. */
    ghost predicate Valid()
      reads this, counter
    {
      && (pending <==> added || phase == Waiting)
      && (!pending ==> counter.counts == map[])
    }

    constructor()
      ensures Valid() && fresh(counter)
      ensures counter.counts == map[] && expiry == 0.0 && !added && phase == Idle && !pending
    {
      counter := new ItemCounter();
      expiry := 0.0;
      added := false;
      phase := Idle;
      pending := false;
    }

    /** `put(item, num)` at time `now`: the item goes into the tally, the report is put off until
        `now + 30`, and `added` is set. */
    method Put(item: string, num: int, now: real)
      requires Valid()
      modifies this, counter
      ensures Valid() && pending
      ensures counter == old(counter) && phase == old(phase)
      ensures item in counter.counts
      ensures counter.counts[item] == (if item in old(counter.counts) then old(counter.counts)[item] else 0) + num
      ensures forall k :: k != item ==> (k in counter.counts <==> k in old(counter.counts))
      ensures forall k :: k in old(counter.counts) && k != item ==> counter.counts[k] == old(counter.counts)[k]
      ensures expiry == now + Delay && added
    {
      counter.Add(item, num);
      expiry := now + Delay;
      added := true;
      pending := true;
    }

    /** `update()` at time `now`: one step of `main`. When it fires it returns the tally it hands
        to the callback and starts an empty one; otherwise the tally stays. */
    method Update(now: real) returns (report: Option<ItemCounter>)
      requires Valid()
      modifies this
      ensures Valid()
      ensures phase == Resume(old(phase), old(added), old(expiry), now).phase
      ensures added == Resume(old(phase), old(added), old(expiry), now).added
      ensures report.Some? <==> Resume(old(phase), old(added), old(expiry), now).fires
      ensures report.Some? ==> report.value == old(counter) && report.value.counts == old(counter.counts)
      ensures report.Some? ==> fresh(counter) && counter.counts == map[] && !pending
      ensures report.None? ==> counter == old(counter) && pending == old(pending)
      ensures expiry == old(expiry)
    {
      if phase == Waiting && now < expiry {
        return None;
      }
      if phase == Idle && !added {
        return None;
      }
      while added
        invariant pending && counter == old(counter) && expiry == old(expiry) && phase == old(phase)
        invariant phase == Waiting ==> now >= expiry
        invariant !added ==> now >= expiry
        decreases added
      {
        added := false;
        if now < expiry {
          phase := Waiting;
          return None;
        }
      }
      report := Some(counter);
      counter := new ItemCounter();
      phase := Idle;
      pending := false;
    }
  }

  /** A put followed by steps before its expiry never fires: each step keeps waiting. */
  lemma {:induction false} QuietUntilExpiry(phase: Phase, added: bool, expiry: real, times: seq<real>)
    requires added || phase == Waiting
    decreases |times|
    requires forall k :: 0 <= k < |times| ==> times[k] < expiry
    ensures Run(phase, added, expiry, times).1 == 0
    ensures times != [] ==> Run(phase, added, expiry, times).0 == Waiting
  {
    if times != [] {
      var r := Resume(phase, added, expiry, times[0]);
      QuietUntilExpiry(r.phase, r.added, expiry, times[1..]);
    }
  }

  /** Steps at the given times with no put in between: where `main` ends up, and how many
      reports it made. */
  function Run(phase: Phase, added: bool, expiry: real, times: seq<real>): (Phase, nat)
    decreases |times|
  {
    if times == [] then (phase, 0)
    else
      var r := Resume(phase, added, expiry, times[0]);
      var rest := Run(r.phase, r.added, expiry, times[1..]);
      (rest.0, rest.1 + if r.fires then 1 else 0)
  }

  /** Without a put in between, steps report a tally at most once. */
  lemma {:induction false} AtMostOnce(phase: Phase, added: bool, expiry: real, times: seq<real>)
    ensures Run(phase, added, expiry, times).1 <= 1
    ensures !added && phase == Idle ==> Run(phase, added, expiry, times).1 == 0
    decreases |times|
  {
    if times != [] {
      var r := Resume(phase, added, expiry, times[0]);
      AtMostOnce(r.phase, r.added, expiry, times[1..]);
    }
  }
}

=== FILE: scraping.dfy ===
/**
 * The pure part of the lobby-action scraper (`la_scraping.py`): the half-width/full-width
 * translation tables, the name regulator, and `records()`, which turns table rows into the CSV
 * records of the lobby-action dictionary, filling gaps in the numbering with placeholders and
 * collecting commands that occur twice.
 *
 * Fetching and parsing the wiki page are outside the model: a row is given as the stripped text
 * of its cells and the text of the whole row. `\d` is read as an ASCII digit.
 */
module Scraping {
  import opened Wrappers
  import opened Text

  // ---------------------------------------------------------------------------------------------
  // Translation tables

  /** `han2zen_alpha` on one character: `!` ... `}` to the full-width forms U+FF01 ... U+FF5D,
      the space to the ideographic space U+3000, anything else (`~` included) unchanged. */
  function Han2ZenChar(c: char): (z: char)
    ensures 0x21 <= c as int <= 0x7D ==> z as int == c as int + 0xFEE0
    ensures c == ' ' ==> z == '　'
    ensures !(0x20 <= c as int <= 0x7D) ==> z == c
  {
    if 0x21 <= c as int <= 0x7D then (c as int + 0xFEE0) as char
    else if c == ' ' then '　'
    else c
  }

  /** `zen2han_alpha` on one character: the exact inverse mapping. */
  function Zen2HanChar(z: char): (c: char)
    ensures 0xFF01 <= z as int <= 0xFF5D ==> c as int == z as int - 0xFEE0
    ensures z == '　' ==> c == ' '
    ensures !(0xFF01 <= z as int <= 0xFF5D) && z != '　' ==> c == z
  {
    if 0xFF01 <= z as int <= 0xFF5D then (z as int - 0xFEE0) as char
    else if z == '　' then ' '
    else z
  }

  /** `s.translate(han2zen_alpha)`. */
  function Han2Zen(s: string): (r: string)
    ensures |r| == |s|
    ensures forall i :: 0 <= i < |s| ==> r[i] == Han2ZenChar(s[i])
  {
    seq(|s|, i requires 0 <= i < |s| => Han2ZenChar(s[i]))
  }

  /** `s.translate(zen2han_alpha)`. */
  function Zen2Han(s: string): (r: string)
    ensures |r| == |s|
    ensures forall i :: 0 <= i < |s| ==> r[i] == Zen2HanChar(s[i])
  {
    seq(|s|, i requires 0 <= i < |s| => Zen2HanChar(s[i]))
  }

  /** Text with no full-width form and no ideographic space. */
  predicate HalfWidth(s: string) {
    forall i :: 0 <= i < |s| ==> !(0xFF01 <= s[i] as int <= 0xFF5D) && s[i] != '　'
  }

  /** Back and forth: half-width text comes back unchanged. */
  lemma ZenHanRoundTrip(s: string)
    requires HalfWidth(s)
    ensures Zen2Han(Han2Zen(s)) == s
  {
    assert forall i :: 0 <= i < |s| ==> Zen2Han(Han2Zen(s))[i] == s[i];
  }

  /** Translating twice is translating once. */
  lemma Han2ZenIdempotent(s: string)
    ensures Han2Zen(Han2Zen(s)) == Han2Zen(s)
  {
    assert forall i :: 0 <= i < |s| ==> Han2Zen(Han2Zen(s))[i] == Han2Zen(s)[i];
  }

  // ---------------------------------------------------------------------------------------------
  // `brackets_rex` and the name regulator

  /** The end of the run of digits from `i`. */
  function DigitEnd(s: string, i: nat): (e: nat)
    requires i <= |s|
    ensures i <= e <= |s|
    ensures forall j :: i <= j < e ==> IsDigit(s[j])
    ensures e == |s| || !IsDigit(s[e])
    decreases |s| - i
  {
    if i < |s| && IsDigit(s[i]) then DigitEnd(s, i + 1) else i
  }

  /** The first newline at or after `i` (the end of the text if none): `.` stops there. */
  function NewlineFrom(s: string, i: nat): (e: nat)
    requires i <= |s|
    ensures i <= e <= |s|
    ensures forall j :: i <= j < e ==> s[j] != '\n'
    ensures e == |s| || s[e] == '\n'
    decreases |s| - i
  {
    if i < |s| && s[i] != '\n' then NewlineFrom(s, i + 1) else i
  }

  /** The last `」` in `[lo, hi)`. */
  function LastClose(s: string, lo: nat, hi: nat): (r: Option<nat>)
    requires hi <= |s|
    ensures r.Some? ==> lo <= r.value < hi && s[r.value] == '」'
    ensures r.Some? ==> forall j :: r.value < j < hi ==> s[j] != '」'
    ensures r.None? ==> forall j :: lo <= j < hi ==> s[j] != '」'
    decreases hi
  {
    if hi <= lo then None
    else if s[hi - 1] == '」' then Some(hi - 1)
    else LastClose(s, lo, hi - 1)
  }

  /** `brackets_rex.match(s)`, `(\d+)「(.+)」` at the start: digits, `「`, and a non-empty run
      of characters other than newline up to the last `」` before the first newline (`.+` is
      greedy). The result is the end `d` of the digits and the position `k` of that `」`. */
  function BracketMatch(s: string): (r: Option<(nat, nat)>)
    ensures r.Some? ==> 0 < r.value.0 && r.value.0 + 2 <= r.value.1 < |s|
    ensures r.Some? ==> AllDigits(s[..r.value.0]) && s[r.value.0] == '「' && s[r.value.1] == '」'
    ensures r.Some? ==> forall j :: r.value.0 < j < r.value.1 ==> s[j] != '\n'
  {
    var d := DigitEnd(s, 0);
    if d == 0 || d >= |s| || s[d] != '「' then None
    else
      match LastClose(s, d + 2, NewlineFrom(s, d + 1))
      case Some(k) => Some((d, k))
      case None => None
  }

  /** `name_regulator`: a numbered name `12「...」` keeps its digits and brackets, has the text
      between the brackets made full-width and loses whatever follows the closing bracket; any
      other name is made full-width as a whole. */
  function NameRegulator(name: string): (r: string)
    ensures BracketMatch(name).None? ==> r == Han2Zen(name)
  {
    match BracketMatch(name)
    case Some((d, k)) => name[..d] + "「" + Han2Zen(name[d + 1..k]) + "」"
    case None => Han2Zen(name)
  }

  /** A numbered name `digits「...」...`: the digits and `「` are kept, the text up to the last
      `」` before the first newline is made full-width, that `」` ends the result, and whatever
      followed it is dropped. */
  lemma NumberedName(name: string, d: nat, k: nat)
    requires BracketMatch(name) == Some((d, k))
    ensures |NameRegulator(name)| == k + 1
    ensures NameRegulator(name)[..d] == name[..d] && AllDigits(NameRegulator(name)[..d])
    ensures NameRegulator(name)[d] == '「' && NameRegulator(name)[k] == '」'
    ensures NameRegulator(name)[d + 1..k] == Han2Zen(name[d + 1..k])
  {
    var r := NameRegulator(name);
    var z := Han2Zen(name[d + 1..k]);
    assert r == name[..d] + "「" + z + "」";
    assert r[d + 1..k] == z;
  }

  /** A regulated numbered name matches again, with the same number, and regulating it again
      changes nothing; an unnumbered name stays unnumbered. */
  lemma RegulatedNameMatches(name: string)
    ensures BracketMatch(name).Some? ==>
      BracketMatch(NameRegulator(name)) == Some((BracketMatch(name).value.0, |NameRegulator(name)| - 1))
    ensures BracketMatch(name).Some? ==> NameRegulator(name)[..BracketMatch(name).value.0] == name[..BracketMatch(name).value.0]
    ensures BracketMatch(name).None? ==> BracketMatch(NameRegulator(name)).None?
  {
    match BracketMatch(name)
    case Some((d, k)) =>
      RegulatedBracket(name, d, k, NameRegulator(name));
    case None =>
      var r := Han2Zen(name);
      if |r| > 0 {
        assert !IsDigit(r[0]);
        assert DigitEnd(r, 0) == 0;
      }
  }

  /** The numbered case: the digits are kept and the regulated name ends at its `」`. */
  lemma RegulatedBracket(name: string, d: nat, k: nat, r: string)
    requires BracketMatch(name) == Some((d, k))
    requires r == name[..d] + "「" + Han2Zen(name[d + 1..k]) + "」"
    ensures r[..d] == name[..d]
    ensures BracketMatch(r) == Some((d, |r| - 1))
  {
    var z := Han2Zen(name[d + 1..k]);
    assert r[..d] == name[..d];
    assert r[d] == '「' && r[|r| - 1] == '」' && |r| == k + 1;
    DigitEndOfDigits(r, d);
    forall j | d + 1 <= j < |r|
      ensures r[j] != '\n'
    {
      if j < |r| - 1 {
        assert r[j] == z[j - d - 1];
        assert name[d + 1..k][j - d - 1] == name[j];
      }
    }
    NewlineFromNone(r, d + 1);
    assert LastClose(r, d + 2, |r|) == Some(|r| - 1);
  }

  /** The digit run of a text that starts with `d` digits followed by a non-digit. */
  lemma DigitEndOfDigits(s: string, d: nat)
    requires d < |s| && AllDigits(s[..d]) && !IsDigit(s[d])
    ensures DigitEnd(s, 0) == d
  {
    forall j | 0 <= j < d
      ensures IsDigit(s[j])
    {
      assert s[..d][j] == s[j];
    }
  }

  lemma NewlineFromNone(s: string, i: nat)
    requires i <= |s| && forall j :: i <= j < |s| ==> s[j] != '\n'
    ensures NewlineFrom(s, i) == |s|
  {
  }

  /** Regulating a regulated name changes nothing. */
  lemma NameRegulatorIdempotent(name: string)
    ensures NameRegulator(NameRegulator(name)) == NameRegulator(name)
  {
    RegulatedNameMatches(name);
    var r := NameRegulator(name);
    match BracketMatch(name)
    case Some((d, k)) =>
      var z := Han2Zen(name[d + 1..k]);
      assert r == name[..d] + "「" + z + "」";
      assert r[d + 1..|r| - 1] == z;
      Han2ZenIdempotent(name[d + 1..k]);
    case None =>
      Han2ZenIdempotent(name);
  }

  /** No regulated name contains an ASCII comma, so it is one CSV field. */
  lemma NameRegulatorNoComma(name: string)
    ensures forall i :: 0 <= i < |NameRegulator(name)| ==> NameRegulator(name)[i] != ','
  {
    match BracketMatch(name)
    case Some((d, k)) =>
      var z := Han2Zen(name[d + 1..k]);
      var r := name[..d] + "「" + z + "」";
      forall i | 0 <= i < |r|
        ensures r[i] != ','
      {
        if i < d {
          assert r[i] == name[..d][i];
        } else if d < i < |r| - 1 {
          assert r[i] == z[i - d - 1];
        }
      }
    case None =>
  }

  // ---------------------------------------------------------------------------------------------
  // Fields of a record

  /** The characters of `[\da-zA-Z_+\-']`. */
  predicate CommandChar(c: char) {
    IsDigit(c) || 'a' <= c <= 'z' || 'A' <= c <= 'Z' || c == '_' || c == '+' || c == '-' || c == '\''
  }

  function CommandEnd(s: string, i: nat): (e: nat)
    requires i <= |s|
    ensures i <= e <= |s|
    ensures forall j :: i <= j < e ==> CommandChar(s[j])
    decreases |s| - i
  {
    if i < |s| && CommandChar(s[i]) then CommandEnd(s, i + 1) else i
  }

  /** `la_rex.match(s).group(1)`: `/la`, an optional space, then the command itself. */
  function LaCommand(s: string): (r: Option<string>)
    ensures r.Some? ==> r.value != [] && forall i :: 0 <= i < |r.value| ==> CommandChar(r.value[i])
  {
    if !IsPrefix("/la", s) then None
    else
      var p := if |s| > 3 && s[3] == ' ' then 4 else 3;
      var e := CommandEnd(s, p);
      if e == p then None else Some(s[p..e])
  }

  /** `re.sub(r',|ｼｮｯﾌﾟ|備考', '', s)`: every comma and every `ｼｮｯﾌﾟ` and `備考` goes. */
  function RemoveWords(s: string): (r: string)
    ensures |r| <= |s|
    ensures forall i :: 0 <= i < |r| ==> r[i] != ','
    decreases |s|
  {
    if s == [] then []
    else if s[0] == ',' then RemoveWords(s[1..])
    else if IsPrefix("ｼｮｯﾌﾟ", s) then RemoveWords(s[5..])
    else if IsPrefix("備考", s) then RemoveWords(s[2..])
    else [s[0]] + RemoveWords(s[1..])
  }

  /** Each of the three words at the front is removed whole. */
  lemma WordsRemoved(v: string)
    ensures RemoveWords("," + v) == RemoveWords(v)
    ensures RemoveWords("ｼｮｯﾌﾟ" + v) == RemoveWords(v)
    ensures RemoveWords("備考" + v) == RemoveWords(v)
  {
    assert ("," + v)[1..] == v;
    assert IsPrefix("ｼｮｯﾌﾟ", "ｼｮｯﾌﾟ" + v) && ("ｼｮｯﾌﾟ" + v)[5..] == v;
    assert IsPrefix("備考", "備考" + v) && ("備考" + v)[2..] == v;
  }

  /** A character that starts none of the three words is kept. */
  lemma OtherKept(c: char, v: string)
    requires c != ',' && c != 'ｼ' && c != '備'
    ensures RemoveWords([c] + v) == [c] + RemoveWords(v)
  {
    assert ([c] + v)[1..] == v;
    assert !IsPrefix("ｼｮｯﾌﾟ", [c] + v) by {
      assert "ｼｮｯﾌﾟ"[0] == 'ｼ';
    }
    assert !IsPrefix("備考", [c] + v) by {
      assert "備考"[0] == '備';
    }
  }

  /** Text in which no word can start is left as it is. */
  lemma {:induction false} NoWordsUnchanged(s: string)
    requires forall i :: 0 <= i < |s| ==> s[i] != ',' && s[i] != 'ｼ' && s[i] != '備'
    ensures RemoveWords(s) == s
    decreases |s|
  {
    if s != [] {
      OtherKept(s[0], s[1..]);
      NoWordsUnchanged(s[1..]);
      assert s == [s[0]] + s[1..];
    }
  }

  /** `'1' if b else '0'`. */
  function Flag(b: bool): string {
    if b then "1" else "0"
  }

  /** One table row: the stripped text of each cell, and the text of the whole row. */
  datatype Row = Row(cells: seq<string>, text: string)

  datatype Failure = IndexError | TypeError

  /** What a row contributes before the numbering is looked at: nothing, a crash, or a record
      with its command and number. */
  datatype Parsed = Skip | Broken(failure: Failure) | Parsed(rec: seq<string>, la: string, num: Option<int>)

  /** The field of a record that holds no ASCII comma. */
  predicate CommaFree(f: string) {
    forall i :: 0 <= i < |f| ==> f[i] != ','
  }

  /** The loop body of `records()` up to the numbering: rows of more than ten cells and rows
      without `/la` are skipped, a row of fewer than six cells fails on `td[5]`, and a row whose
      sixth cell is not a `/la` command is skipped. A record is `[name, la, loop, reaction,
      notrade, finger, src]`, its four flags `'0'` or `'1'`, and no field has a comma. */
  function ParseRow(row: Row): (p: Parsed)
    ensures p.Broken? <==> |row.cells| <= 10 && Contains(row.text, "/la") && |row.cells| < 6
    ensures p.Broken? ==> p.failure == IndexError
    ensures p.Parsed? ==> |row.cells| >= 6 && LaCommand(row.cells[5]) == Some(p.la)
    ensures p.Parsed? ==> |p.rec| == 7 && p.rec[1] == p.la && p.rec[0] == NameRegulator(row.cells[0])
    ensures p.Parsed? ==> forall f :: 2 <= f < 6 ==> p.rec[f] in {"0", "1"}
    ensures p.Parsed? ==> forall f :: 0 <= f < 7 ==> CommaFree(p.rec[f])
    ensures p.Parsed? ==> (p.num.Some? <==> BracketMatch(row.cells[0]).Some?)
  {
    if |row.cells| > 10 || !Contains(row.text, "/la") then Skip
    else if |row.cells| < 6 then Broken(IndexError)
    else
      match LaCommand(row.cells[5])
      case None => Skip
      case Some(la) =>
        var name := NameRegulator(row.cells[0]);
        RegulatedNameMatches(row.cells[0]);
        var num := match BracketMatch(name) case Some((d, _)) => Some(DigitsValue(name[..d]) as int) case None => None;
        var rec := RowRecord(row.cells[0], la, row.cells[1] != [], Contains(row.text, "※リアクション対応"),
                             Contains(row.text, "トレード不可"), Contains(row.text, "※指の動きに対応"), row.cells[2]);
        Parsed(rec, la, num)
  }

  /** `rec`: the regulated name, the command, the four flags and the source with commas and the
      words `ｼｮｯﾌﾟ` and `備考` removed. The flags are `'0'` or `'1'` and no field has a comma. */
  function RowRecord(cell: string, la: string, loop: bool, reaction: bool, notrade: bool, finger: bool, src: string)
    : (rec: seq<string>)
    requires forall i :: 0 <= i < |la| ==> CommandChar(la[i])
    ensures |rec| == 7 && rec[0] == NameRegulator(cell) && rec[1] == la
    ensures forall f :: 2 <= f < 6 ==> rec[f] in {"0", "1"}
    ensures forall f :: 0 <= f < 7 ==> CommaFree(rec[f])
  {
    var rec := [NameRegulator(cell), la, Flag(loop), Flag(reaction), Flag(notrade), Flag(finger), RemoveWords(src)];
    assert forall f :: 0 <= f < 7 ==> CommaFree(rec[f]) by {
      NameRegulatorNoComma(cell);
      assert CommaFree("0") && CommaFree("1");
      assert CommaFree(la) by {
        forall i | 0 <= i < |la|
          ensures la[i] != ','
        {
          assert CommandChar(la[i]);
        }
      }
      assert CommaFree(rec[0]) && CommaFree(rec[1]) && CommaFree(rec[6]);
    }
    rec
  }

  // ---------------------------------------------------------------------------------------------
  // `records()`

  /** A line of the CSV file: the column names, a placeholder for a missing number, a record. */
  datatype Line = Header | Placeholder(n: int) | Record(fields: seq<string>)

  /** The text of a placeholder line. */
  function PlaceholderText(n: int): string {
    IntToString(n) + " --------欠番--------"
  }

  /** `if lastnum:`. */
  predicate Truthy(lastnum: Option<int>) {
    lastnum.Some? && lastnum.value != 0
  }

  /** The placeholders for the numbers strictly between `a` and `b`, in ascending order. */
  function Gap(a: int, b: int): (g: seq<Line>)
    ensures |g| == if b - a > 1 then b - a - 1 else 0
    ensures forall k :: 0 <= k < |g| ==> g[k] == Placeholder(a + 1 + k)
    decreases b - a
  {
    if b - a > 1 then [Placeholder(a + 1)] + Gap(a + 1, b) else []
  }

  /** Where `records()` stands: the lines so far, `lastnum`, `dup`, `dups`, and the exception
      that ended it, if one did. */
  datatype Scan = Scan(out: seq<Line>, lastnum: Option<int>, dup: set<string>, dups: seq<seq<string>>, failure: Option<Failure>)

  const Start: Scan := Scan([Header], None, {}, [], None)

  /** One row. After a failure nothing changes. A record whose number follows a truthy
      `lastnum` is preceded by the placeholders of the numbers between them, and one without a
      number there fails on `num - lastnum`. A record whose command was seen before also goes
      to `dups`; every command goes to `dup`. */
  function Step(st: Scan, row: Row): (r: Scan)
    ensures st.failure.Some? ==> r == st
    ensures ParseRow(row).Skip? ==> r == st
    ensures st.failure.None? && ParseRow(row).Broken? ==> r == st.(failure := Some(IndexError))
    ensures st.failure.None? && ParseRow(row).Parsed? && !(Truthy(st.lastnum) && ParseRow(row).num.None?) ==>
      && r.failure.None?
      && r.out == st.out + (if Truthy(st.lastnum) then Gap(st.lastnum.value, ParseRow(row).num.value) else []) + [Record(ParseRow(row).rec)]
      && r.dup == st.dup + {ParseRow(row).la}
      && r.dups == st.dups + (if ParseRow(row).la in st.dup then [ParseRow(row).rec] else [])
      && r.lastnum == ParseRow(row).num
    ensures st.failure.None? && ParseRow(row).Parsed? && Truthy(st.lastnum) && ParseRow(row).num.None? ==>
      r == st.(failure := Some(TypeError))
  {
    if st.failure.Some? then st
    else
      match ParseRow(row)
      case Skip => st
      case Broken(f) => st.(failure := Some(f))
      case Parsed(rec, la, num) =>
        if Truthy(st.lastnum) && num.None? then st.(failure := Some(TypeError))
        else
          var gap := if Truthy(st.lastnum) then Gap(st.lastnum.value, num.value) else [];
          Scan(st.out + gap + [Record(rec)], num, st.dup + {la}, st.dups + (if la in st.dup then [rec] else []), None)
  }

  /** The rows in order. */
  function Scanned(st: Scan, rows: seq<Row>): Scan
    decreases |rows|
  {
    if rows == [] then st else Scanned(Step(st, rows[0]), rows[1..])
  }

  /** The header comes first, and every record is seven comma-free fields with its flags `'0'`
      or `'1'`, so each record is one line of the CSV file with seven columns. */
  predicate WellFormed(out: seq<Line>) {
    && |out| > 0 && out[0] == Header
    && forall k :: 0 <= k < |out| && out[k].Record? ==>
        && |out[k].fields| == 7
        && (forall f :: 0 <= f < 7 ==> CommaFree(out[k].fields[f]))
        && (forall f :: 2 <= f < 6 ==> out[k].fields[f] in {"0", "1"})
  }

  lemma {:induction false} ScannedWellFormed(st: Scan, rows: seq<Row>)
    requires WellFormed(st.out)
    ensures WellFormed(Scanned(st, rows).out)
    decreases |rows|
  {
    if rows != [] {
      var next := Step(st, rows[0]);
      assert WellFormed(next.out) by {
        if st.failure.None? && ParseRow(rows[0]).Parsed? && next.failure.None? {
          var p := ParseRow(rows[0]);
          var gap := if Truthy(st.lastnum) then Gap(st.lastnum.value, p.num.value) else [];
          assert next.out == st.out + gap + [Record(p.rec)];
          forall k | 0 <= k < |next.out|
            ensures next.out[k].Record? ==> |next.out[k].fields| == 7
            ensures next.out[k].Record? ==> forall f :: 0 <= f < 7 ==> CommaFree(next.out[k].fields[f])
            ensures next.out[k].Record? ==> forall f :: 2 <= f < 6 ==> next.out[k].fields[f] in {"0", "1"}
          {
            if k < |st.out| {
              assert next.out[k] == st.out[k];
            } else if k < |st.out| + |gap| {
              assert next.out[k] == gap[k - |st.out|];
            } else {
              assert next.out[k] == Record(p.rec);
            }
          }
        }
      }
      ScannedWellFormed(next, rows[1..]);
    }
  }

  /** Once `records()` has failed, the remaining rows change nothing. */
  lemma {:induction false} ScannedAfterFailure(st: Scan, rows: seq<Row>)
    requires st.failure.Some?
    ensures Scanned(st, rows) == st
    decreases |rows|
  {
    if rows != [] {
      ScannedAfterFailure(Step(st, rows[0]), rows[1..]);
    }
  }

  /** Lines, repeated records and seen commands only grow. */
  lemma {:induction false} ScannedGrows(st: Scan, rows: seq<Row>)
    ensures st.out <= Scanned(st, rows).out && st.dups <= Scanned(st, rows).dups
    ensures st.dup <= Scanned(st, rows).dup
    decreases |rows|
  {
    if rows != [] {
      var next := Step(st, rows[0]);
      ScannedGrows(next, rows[1..]);
    }
  }

  /** `records()`: the lines it yields, the repeated records it reports, and the exception that
      ends it early, if any. */
  method Records(rows: seq<Row>) returns (out: seq<Line>, dups: seq<seq<string>>, failure: Option<Failure>)
    ensures out == Scanned(Start, rows).out
    ensures dups == Scanned(Start, rows).dups
    ensures failure == Scanned(Start, rows).failure
    ensures WellFormed(out)
  {
    out := [Header];
    var lastnum: Option<int> := None;
    var dup: set<string> := {};
    dups := [];
    failure := None;
    var i := 0;
    ghost var cur := Start;
    while i < |rows|
      invariant 0 <= i <= |rows|
      invariant failure.None?
      invariant cur == Scan(out, lastnum, dup, dups, None)
      invariant Scanned(cur, rows[i..]) == Scanned(Start, rows)
    {
      var row := rows[i];
      ghost var next := Step(cur, row);
      assert Scanned(next, rows[i + 1..]) == Scanned(Start, rows) by {
        ScannedStep(cur, rows, i);
      }
      match ParseRow(row) {
        case Skip =>
        case Broken(f) =>
          StopsAt(cur, rows, i);
          failure := Some(f);
          ScannedWellFormed(Start, rows);
          return;
        case Parsed(rec, la, num) =>
          StepParsed(cur, row, rec, la, num);
          if Truthy(lastnum) && num.None? {
            StopsAt(cur, rows, i);
            failure := Some(TypeError);
            ScannedWellFormed(Start, rows);
            return;
          }
          out, lastnum, dup, dups := TakeRecord(out, lastnum, dup, dups, rec, la, num);
      }
      cur := next;
      i := i + 1;
    }
    ScannedWellFormed(Start, rows);
  }

  /** The loop body of `records()` for a record that does not raise: the placeholders of the
      missing numbers, then the record; a repeated command also goes to `dups`. */
  method TakeRecord(out: seq<Line>, lastnum: Option<int>, dup: set<string>, dups: seq<seq<string>>,
                    rec: seq<string>, la: string, num: Option<int>)
    returns (out': seq<Line>, lastnum': Option<int>, dup': set<string>, dups': seq<seq<string>>)
    requires !(Truthy(lastnum) && num.None?)
    ensures out' == out + (if Truthy(lastnum) then Gap(lastnum.value, num.value) else []) + [Record(rec)]
    ensures lastnum' == num && dup' == dup + {la}
    ensures dups' == dups + (if la in dup then [rec] else [])
  {
    out' := out;
    if Truthy(lastnum) {
      out' := FillGap(out', lastnum.value, num.value);
    }
    dups' := dups;
    if la in dup {
      dups' := dups' + [rec];
    }
    dup' := dup + {la};
    lastnum' := num;
    out' := out' + [Record(rec)];
  }

  /** A row on which `records()` raises ends the scan there. */
  lemma StopsAt(st: Scan, rows: seq<Row>, i: nat)
    requires i < |rows| && Step(st, rows[i]).failure.Some?
    ensures Scanned(st, rows[i..]) == Step(st, rows[i])
  {
    ScannedStep(st, rows, i);
    ScannedAfterFailure(Step(st, rows[i]), rows[i + 1..]);
  }

  /** A record taken from a row, as `Step` sees it. */
  lemma StepParsed(st: Scan, row: Row, rec: seq<string>, la: string, num: Option<int>)
    requires st.failure.None? && ParseRow(row) == Parsed(rec, la, num)
    ensures Truthy(st.lastnum) && num.None? ==> Step(st, row) == st.(failure := Some(TypeError))
    ensures !(Truthy(st.lastnum) && num.None?) ==>
      (Step(st, row) ==
       Scan(st.out + (if Truthy(st.lastnum) then Gap(st.lastnum.value, num.value) else []) + [Record(rec)],
            num, st.dup + {la}, st.dups + (if la in st.dup then [rec] else []), None))
  {
  }

  /** Scanning from row `i` is taking row `i` and scanning from the next one. */
  lemma ScannedStep(st: Scan, rows: seq<Row>, i: nat)
    requires i < |rows|
    ensures Scanned(st, rows[i..]) == Scanned(Step(st, rows[i]), rows[i + 1..])
  {
    assert rows[i..][1..] == rows[i + 1..];
  }

  /** `while num - lastnum > 1: lastnum += 1; yield ...`: the placeholders of the numbers
      strictly between `last` and `num`, in ascending order. */
  method FillGap(out: seq<Line>, last: int, num: int) returns (r: seq<Line>)
    ensures r == out + Gap(last, num)
  {
    r := out;
    var n := last;
    while num - n > 1
      invariant r == out + Gap(last, n + 1)
      invariant last <= n && (n == last || n + 1 <= num)
      decreases num - n
    {
      n := n + 1;
      GapExtend(last, n);
      r := r + [Placeholder(n)];
    }
    assert Gap(last, n + 1) == Gap(last, num);
  }

  /** The placeholders before `m` followed by that for `m` are the placeholders before `m + 1`. */
  lemma GapExtend(a: int, m: int)
    requires m > a
    ensures Gap(a, m) + [Placeholder(m)] == Gap(a, m + 1)
  {
    var g := Gap(a, m) + [Placeholder(m)];
    assert |g| == |Gap(a, m + 1)|;
    assert forall k :: 0 <= k < |g| ==> g[k] == Gap(a, m + 1)[k];
  }
}

=== FILE: segment.dfy ===
/**
 * One physical log file (`LogFile` in logpump.py): the category derived from its name, and the
 * reader that returns the unread, newline-complete lines from the remembered position.
 *
 * The file is an in-memory sequence of UTF-16 code units (`content`), its first element being
 * the byte-order mark; `pos` is an index into it.
 */
module Segment {
  import opened Wrappers
  import opened Text

  // ---------------------------------------------------------------------------------------
  // File names

  /** The index of the last `.` in `name`, if any. */
  function LastDot(name: string): (r: Option<nat>)
    ensures r.Some? ==> r.value < |name| && name[r.value] == '.' && '.' !in name[r.value + 1..]
    ensures r.None? ==> '.' !in name
  {
    if name == [] then None
    else if name[|name| - 1] == '.' then Some(|name| - 1)
    else
      var r := LastDot(name[..|name| - 1]);
      assert name == name[..|name| - 1] + [name[|name| - 1]];
      r
  }

  predicate IsSeparator(c: char) {
    c == '/' || c == '\\'
  }

  /** `Path(path).name`: the part after the last path separator. */
  function BaseName(path: string): (r: string)
    ensures IsSuffix(r, path)
    ensures forall k :: 0 <= k < |r| ==> !IsSeparator(r[k])
  {
    if path == [] || IsSeparator(path[|path| - 1]) then []
    else BaseName(path[..|path| - 1]) + [path[|path| - 1]]
  }

  /** `Path(name).stem`: the name without its last suffix; a leading dot or a trailing dot
      does not start a suffix. */
  function Stem(name: string): (r: string)
    ensures IsPrefix(r, name)
  {
    var d := LastDot(name);
    if d.Some? && 0 < d.value < |name| - 1 then name[..d.value] else name
  }

  /** The base name is the whole last component: it is the path, or a separator stands just
      before it. */
  lemma {:induction false} BaseNameWhole(path: string)
    ensures |BaseName(path)| < |path| ==> IsSeparator(path[|path| - |BaseName(path)| - 1])
  {
    if path != [] && !IsSeparator(path[|path| - 1]) {
      var p := path[..|path| - 1];
      BaseNameWhole(p);
      assert |BaseName(path)| == |BaseName(p)| + 1;
      if |BaseName(path)| < |path| {
        assert path[|path| - |BaseName(path)| - 1] == p[|p| - |BaseName(p)| - 1];
      }
    }
  }

  /** The stem drops the last suffix exactly when the last dot is neither the first nor the
      last character, and then it ends just before that dot. */
  lemma StemSuffix(name: string)
    ensures |Stem(name)| < |name| <==> LastDot(name).Some? && 0 < LastDot(name).value < |name| - 1
    ensures |Stem(name)| < |name| ==> |Stem(name)| == LastDot(name).value
  {
  }

  /** `stem[p:]` starts with `Log` or `_log`. */
  predicate MarkerAt(stem: string, p: nat) {
    p <= |stem| && (IsPrefix("Log", stem[p..]) || IsPrefix("_log", stem[p..]))
  }

  /** The greatest `p` in `[1, hi]` with a marker at `p`. */
  function LastMarker(stem: string, hi: nat): (r: Option<nat>)
    requires hi <= |stem|
    ensures r.Some? ==> 1 <= r.value <= hi && MarkerAt(stem, r.value)
    ensures r.Some? ==> forall q :: r.value < q <= hi ==> !MarkerAt(stem, q)
    ensures r.None? ==> forall q :: 1 <= q <= hi ==> !MarkerAt(stem, q)
    decreases hi
  {
    if hi < 1 then None
    else if MarkerAt(stem, hi) then Some(hi)
    else LastMarker(stem, hi - 1)
  }

  /** `LogFile.cate`: `re.match(r'(.+)(Log|_log)', stem).group(1)`. The greedy `.+` makes the
      category the longest non-empty prefix of the stem that is followed by `Log` or `_log`;
      `None` where the source fails (the match is `None`). */
  function Cate(stem: string): (r: Option<string>)
    ensures r.Some? ==> r.value != [] && IsPrefix(r.value, stem) && MarkerAt(stem, |r.value|)
    ensures r.Some? ==> forall q :: |r.value| < q <= |stem| ==> !MarkerAt(stem, q)
    ensures r.None? <==> forall q :: 1 <= q <= |stem| ==> !MarkerAt(stem, q)
  {
    var p := LastMarker(stem, |stem|);
    if p.None? then None else Some(stem[..p.value])
  }

  /** The stem of the file a path names. */
  function StemOf(path: string): string {
    Stem(BaseName(path))
  }

  /** The category of a file (`LogFile.cate(path.stem)`), read off its name. */
  function CategoryOf(path: string): Option<string> {
    Cate(StemOf(path))
  }

  // ---------------------------------------------------------------------------------------
  // Reading lines

  /** The number of `"` characters in `s`. */
  function QuoteCount(s: string): nat {
    if s == [] then 0 else (if s[0] == '"' then 1 else 0) + QuoteCount(s[1..])
  }

  /** A complete physical line: it ends with its only newline. */
  predicate IsLine(l: string) {
    l != [] && l[|l| - 1] == '\n' && '\n' !in l[..|l| - 1]
  }

  /** The index just past the first newline at or after `i`, or the end of the content. */
  function LineEnd(content: string, i: nat): (e: nat)
    requires i <= |content|
    ensures i <= e <= |content|
    ensures '\n' !in content[i..e - 1 + (if e > i then 0 else 1)]
    ensures e > i && content[e - 1] != '\n' ==> e == |content| && '\n' !in content[i..e]
    ensures e == i ==> i == |content|
    decreases |content| - i
  {
    if i == |content| then i
    else if content[i] == '\n' then i + 1
    else
      var e := LineEnd(content, i + 1);
      assert content[i..e] == [content[i]] + content[i + 1..e];
      e
  }

  /** `f.readline()` at position `i`: up to and including the next newline, or the rest of the
      content when there is none; empty at the end. */
  function ReadLine(content: string, i: nat): (r: string)
    ensures r == [] <==> i >= |content|
    ensures r != [] ==> i + |r| <= |content| && content[i..i + |r|] == r
    ensures r != [] && r[|r| - 1] == '\n' ==> IsLine(r)
    ensures r != [] && r[|r| - 1] != '\n' ==> i + |r| == |content|
  {
    if i >= |content| then []
    else
      var e := LineEnd(content, i);
      content[i..e]
  }

  /** The concatenation of a list of lines. */
  function Concat(ls: seq<string>): string {
    if ls == [] then [] else Concat(ls[..|ls| - 1]) + ls[|ls| - 1]
  }

  /** The unread part of the content from `pos`. */
  function Rest(content: string, pos: nat): string {
    if pos <= |content| then content[pos..] else []
  }

  /** The reader can deliver `rest`: it is empty, or it ends with a newline and holds an even
      number of `"` characters, so that no line and no quoted field is left open. */
  predicate Complete(rest: string) {
    rest == [] || (rest[|rest| - 1] == '\n' && QuoteCount(rest) % 2 == 0)
  }

  datatype TailError = IncompleteLine

  /** What one turn of the reader's outer loop finds at an index: the end of the content, a
      record (a line and, while its `"` are unbalanced, the lines after it) ending before
      `next`, or content it cannot deliver. */
  datatype Step = AtEnd | Record(lines: seq<string>, next: nat) | Broken

  /** The length in code units of the byte-order mark a new file starts with (2 bytes). */
  const BomLength: nat := 1

  class LogFile {
    const path: string
    const category: string
    var pos: nat

    /** `LogFile(path, newfile)`: a new file is read from just after its byte-order mark, an
        existing one from its current end (`size`), so old content is not replayed. The source
        raises when the name has no category; callers must not pass such a name. */
    constructor(path: string, newfile: bool, size: nat)
      requires CategoryOf(path).Some?
      ensures this.path == path && category == CategoryOf(path).value
      ensures pos == if newfile then BomLength else size
    {
      this.path := path;
      category := CategoryOf(path).value;
      pos := if newfile then BomLength else size;
    }

    /** `LogFile._tail`: the unread lines. All or nothing: on success the lines, concatenated,
        are exactly the content from the old position and the position moves to the end; when a
        line is unterminated or a quoted field is still open at the end, nothing is returned
        and the position does not move. */
    method Tail(content: string) returns (r: Result<seq<string>, TailError>)
      modifies this
      ensures r.Ok? <==> Complete(Rest(content, old(pos)))
      ensures r.Ok? ==> Concat(r.value) == Rest(content, old(pos))
      ensures r.Ok? ==> forall k :: 0 <= k < |r.value| ==> IsLine(r.value[k])
      ensures r.Ok? ==> pos == if old(pos) < |content| then |content| else old(pos)
      ensures r.Err? ==> pos == old(pos)
    {
      var p0 := pos;
      var ls: seq<string> := [];
      var i := p0;
      while true
        invariant p0 <= i && (i <= |content| || i == p0)
        invariant Concat(ls) == Slice(content, p0, i) && Even(QuoteCount(Concat(ls)))
        invariant forall k :: 0 <= k < |ls| ==> IsLine(ls[k])
        invariant i == p0 || content[i - 1] == '\n'
        invariant pos == p0
        decreases |content| + 1 - i
      {
        var step := NextRecord(content, i);
        match step
        case AtEnd =>
          pos := i;
          Delivered(content, p0, i, ls);
          return Ok(ls);
        case Broken =>
          Undeliverable(content, p0, i, Concat(ls));
          return Err(IncompleteLine);
        case Record(lines, j) =>
          AppendRecord(content, p0, i, j, ls, lines);
          ls := ls + lines;
          i := j;
      }
    }
  }

  /** One turn of the outer loop of `LogFile._tail` at index `i`: read a line; at the end of the
      content stop; an unterminated line is an error; otherwise, while the record read so far
      has an odd number of `"`, the next line belongs to it, and running out of content or
      reading an unterminated line there is an error too. */
  method NextRecord(content: string, i: nat) returns (s: Step)
    ensures s.AtEnd? <==> i >= |content|
    ensures s.Record? ==> var (lines, j) := (s.lines, s.next);
      && i < j <= |content| && Concat(lines) == content[i..j] && content[j - 1] == '\n'
      && (forall k :: 0 <= k < |lines| ==> IsLine(lines[k]))
      && Even(QuoteCount(Concat(lines)))
    ensures s.Broken? ==> i < |content|
    ensures s.Broken? ==> QuoteCount(content[i..]) % 2 == 1 || content[|content| - 1] != '\n'
  {
    var line := ReadLine(content, i);
    if line == [] {
      return AtEnd;
    }
    if line[|line| - 1] != '\n' {
      assert content[|content| - 1] == content[i + |line| - 1];
      return Broken;
    }
    assert Concat([line]) == Concat([]) + line;
    s := CloseQuotes(content, i, i + |line|, [line]);
  }

  /** The inner loop of `LogFile._tail`: `lines` (covering `content[i..j]`) is the record read so
      far; while it has an odd number of `"`, the next line belongs to it. */
  method CloseQuotes(content: string, i: nat, j: nat, lines: seq<string>) returns (s: Step)
    requires i < j <= |content| && content[j - 1] == '\n'
    requires Concat(lines) == content[i..j]
    requires forall k :: 0 <= k < |lines| ==> IsLine(lines[k])
    ensures !s.AtEnd?
    ensures s.Record? ==>
      && i < s.next <= |content| && Concat(s.lines) == content[i..s.next] && content[s.next - 1] == '\n'
      && (forall k :: 0 <= k < |s.lines| ==> IsLine(s.lines[k]))
      && Even(QuoteCount(Concat(s.lines)))
    ensures s.Broken? ==> QuoteCount(content[i..]) % 2 == 1 || content[|content| - 1] != '\n'
  {
    var ls, e := lines, j;
    var rec := Concat(lines);
    while QuoteCount(rec) % 2 == 1
      invariant i < e <= |content| && content[e - 1] == '\n'
      invariant Concat(ls) == content[i..e] && rec == Concat(ls)
      invariant forall k :: 0 <= k < |ls| ==> IsLine(ls[k])
      decreases |content| - e
    {
      var trail := ReadLine(content, e);
      if trail == [] {
        assert content[i..e] == content[i..];
        return Broken;
      }
      if trail[|trail| - 1] != '\n' {
        assert content[|content| - 1] == content[e + |trail| - 1];
        return Broken;
      }
      ExtendSlice(content, i, e, ls, trail);
      ls := ls + [trail];
      e := e + |trail|;
      rec := rec + trail;
    }
    EvenMod(QuoteCount(rec));
    return Record(ls, e);
  }

  /** Appending a line read at `j` keeps the lines and the part of the content they cover in
      step. */
  lemma ExtendSlice(content: string, i: nat, j: nat, lines: seq<string>, trail: string)
    requires i <= j <= |content| && Concat(lines) == content[i..j]
    requires trail != [] && j + |trail| <= |content| && content[j..j + |trail|] == trail
    ensures Concat(lines + [trail]) == content[i..j + |trail|]
    ensures Concat(lines + [trail]) == Concat(lines) + trail
    ensures content[j + |trail| - 1] == trail[|trail| - 1]
  {
    assert content[i..j + |trail|] == content[i..j] + content[j..j + |trail|];
    assert (lines + [trail])[..|lines|] == lines;
  }

  lemma {:induction false} ConcatAppend(a: seq<string>, b: seq<string>)
    ensures Concat(a + b) == Concat(a) + Concat(b)
    decreases |b|
  {
    if b == [] {
      assert a + b == a;
    } else {
      var p, x := b[..|b| - 1], b[|b| - 1];
      assert b == p + [x];
      AppendAssoc(a, p, [x]);
      ConcatSnoc(a + p, x);
      ConcatSnoc(p, x);
      ConcatAppend(a, p);
      AppendAssoc(Concat(a), Concat(p), x);
    }
  }

  lemma ConcatSnoc(ls: seq<string>, x: string)
    ensures Concat(ls + [x]) == Concat(ls) + x
  {
    assert (ls + [x])[..|ls|] == ls;
  }

  predicate Even(n: int) {
    n % 2 == 0
  }

  lemma EvenMod(n: int)
    requires n % 2 != 1
    ensures Even(n)
  {
  }

  lemma {:induction false} QuoteCountAppend(a: string, b: string)
    ensures QuoteCount(a + b) == QuoteCount(a) + QuoteCount(b)
  {
    if a == [] {
      assert a + b == b;
    } else {
      assert (a + b)[1..] == a[1..] + b;
      QuoteCountAppend(a[1..], b);
    }
  }

  /** Appending a record keeps the reader's loop invariant. */
  lemma AppendRecord(content: string, p0: nat, i: nat, j: nat, ls: seq<string>, lines: seq<string>)
    requires p0 <= i < j <= |content|
    requires Concat(ls) == Slice(content, p0, i) && Even(QuoteCount(Concat(ls)))
    requires forall k :: 0 <= k < |ls| ==> IsLine(ls[k])
    requires Concat(lines) == content[i..j] && Even(QuoteCount(Concat(lines)))
    requires forall k :: 0 <= k < |lines| ==> IsLine(lines[k])
    ensures Concat(ls + lines) == Slice(content, p0, j) && Even(QuoteCount(Concat(ls + lines)))
    ensures forall k :: 0 <= k < |ls + lines| ==> IsLine((ls + lines)[k])
  {
    ConcatAppend(ls, lines);
    JoinSlices(content, p0, i, j);
    EvenJoin(Concat(ls), Concat(lines));
  }

  lemma JoinSlices(content: string, p0: nat, i: nat, j: nat)
    requires p0 <= i <= j <= |content|
    ensures Slice(content, p0, j) == Slice(content, p0, i) + content[i..j]
  {
    assert content[p0..j] == content[p0..i] + content[i..j];
  }

  lemma EvenJoin(a: string, b: string)
    requires Even(QuoteCount(a)) && Even(QuoteCount(b))
    ensures Even(QuoteCount(a + b))
  {
    QuoteCountAppend(a, b);
  }

  /** At the end of the content the lines read so far are exactly the unread part, and the
      reader stops where a line and a record end. */
  lemma Delivered(content: string, p0: nat, i: nat, ls: seq<string>)
    requires p0 <= i && (i <= |content| || i == p0) && i >= |content|
    requires Concat(ls) == Slice(content, p0, i) && Even(QuoteCount(Concat(ls)))
    requires i == p0 || content[i - 1] == '\n'
    ensures Concat(ls) == Rest(content, p0) && Complete(Rest(content, p0))
  {
    var rest := Rest(content, p0);
    if i == p0 {
      assert rest == [];
    } else {
      assert rest == content[p0..i];
      assert rest[|rest| - 1] == content[i - 1];
    }
  }

  /** What is left after an even prefix is undeliverable, so the whole unread part is. */
  lemma Undeliverable(content: string, p0: nat, i: nat, got: string)
    requires p0 <= i < |content| && got == Slice(content, p0, i) && Even(QuoteCount(got))
    requires QuoteCount(content[i..]) % 2 == 1 || content[|content| - 1] != '\n'
    ensures !Complete(Rest(content, p0))
  {
    var rest := Rest(content, p0);
    assert rest == content[p0..i] + content[i..];
    QuoteCountAppend(got, content[i..]);
    assert rest[|rest| - 1] == content[|content| - 1];
  }
}

=== FILE: spitem.dfy ===
/**
 * The special-item sound table (`SpItem.load`, the same in misc.py and app/misc.py): a text file
 * of `[sound]` section headers, `/regex/` patterns and item names; each item and pattern is
 * played with the sound of the section it appears in (`None` before the first section).
 *
 * The lines are given as `readlines()` returns them; a pattern is kept as its text, since
 * compiling it is `re`'s business.
 */
module SpItem {
  import opened Wrappers
  import opened Text

  /** What a line of the file is, once stripped. */
  datatype Kind = Blank | Section(sound: string) | Pattern(source: string) | Item(name: string)

  /** The tests of the loop body, in order: blank or `#` comment, `[...]`, `/.../`, anything
      else an item name (`startswith` and `endswith` of one character are tests of the first and
      last character). */
  function Classify(line: string): Kind {
    var t := Strip(line);
    if t == [] || t[0] == '#' then Blank
    else if t[0] == '[' && t[|t| - 1] == ']' then Section(Inner(t))
    else if t[0] == '/' && t[|t| - 1] == '/' then Pattern(Inner(t))
    else Item(t)
  }

  /** An item is the whole stripped line; a section header is its sound in brackets; a pattern
      is the text between its slashes. */
  lemma ClassifyMeaning(line: string)
    ensures Classify(line).Item? ==> Classify(line).name == Strip(line) != []
    ensures Classify(line).Section? ==> Strip(line) == "[" + Classify(line).sound + "]"
    ensures Classify(line).Pattern? ==> Strip(line) == "/" || Strip(line) == "/" + Classify(line).source + "/"
  {
    SectionMeaning(line);
    PatternMeaning(line);
  }

  /** A section header is its sound in brackets. */
  lemma SectionMeaning(line: string)
    ensures Classify(line).Section? ==> Strip(line) == "[" + Classify(line).sound + "]"
  {
    var t := Strip(line);
    if Classify(line).Section? {
      assert t != [] && t[0] == '[' && t[|t| - 1] == ']' && Classify(line).sound == Inner(t);
      Enclosed(t);
    }
  }

  /** A pattern is the text between its slashes. */
  lemma PatternMeaning(line: string)
    ensures Classify(line).Pattern? ==> Strip(line) == "/" || Strip(line) == "/" + Classify(line).source + "/"
  {
    var t := Strip(line);
    if Classify(line).Pattern? {
      assert t != [] && t[0] == '/' && t[|t| - 1] == '/' && Classify(line).source == Inner(t);
      if |t| >= 2 {
        Enclosed(t);
      }
    }
  }

  /** Text of two or more characters is its first character, its inside and its last one. */
  lemma Enclosed(t: string)
    requires |t| >= 2
    ensures t == [t[0]] + Inner(t) + [t[|t| - 1]]
  {
  }

  /** The table: each item's sound, the patterns with their sounds, and every sound named. */
  datatype Table = Table(items: map<string, Option<string>>, rex: set<(string, Option<string>)>, sounds: set<string>)

  /** The kind of every line of the file. */
  function Kinds(lines: seq<string>): (ks: seq<Kind>)
    ensures |ks| == |lines|
    ensures forall i :: 0 <= i < |lines| ==> ks[i] == Classify(lines[i])
  {
    seq(|lines|, i requires 0 <= i < |lines| => Classify(lines[i]))
  }

  /** The sound in force after the first `n` lines: that of the last section header among them. */
  function SoundAfter(ks: seq<Kind>, n: nat): Option<string>
    requires n <= |ks|
  {
    if n == 0 then None
    else if ks[n - 1].Section? then Some(ks[n - 1].sound)
    else SoundAfter(ks, n - 1)
  }

  /** No sound is in force until the first section header; after it, the sound is the one the
      last header read names. */
  lemma {:induction false} SoundAfterMeaning(ks: seq<Kind>, n: nat)
    requires n <= |ks|
    ensures SoundAfter(ks, n).None? <==> forall i :: 0 <= i < n ==> !ks[i].Section?
    ensures SoundAfter(ks, n).Some? ==> exists i :: LastSection(ks, i, n) && ks[i].sound == SoundAfter(ks, n).value
  {
    if n > 0 {
      SoundAfterMeaning(ks, n - 1);
      if !ks[n - 1].Section? && SoundAfter(ks, n).Some? {
        var i :| LastSection(ks, i, n - 1) && ks[i].sound == SoundAfter(ks, n).value;
        assert LastSection(ks, i, n);
      } else if ks[n - 1].Section? {
        assert LastSection(ks, n - 1, n);
      }
    }
  }

  /** Line `i` is the last section header among the first `n` lines. */
  predicate LastSection(ks: seq<Kind>, i: int, n: nat)
    requires n <= |ks|
  {
    0 <= i < n && ks[i].Section? && forall j :: i < j < n ==> !ks[j].Section?
  }

  /** What one line of kind `k`, read while `sound` is in force, adds to the table. */
  function AddLine(t: Table, k: Kind, sound: Option<string>): Table {
    match k
    case Blank => t
    case Section(s) => t.(sounds := t.sounds + {s})
    case Pattern(p) => t.(rex := t.rex + {(p, sound)})
    case Item(name) => t.(items := t.items[name := sound])
  }

  /** The table after the first `n` lines. */
  function TableAfter(ks: seq<Kind>, n: nat): Table
    requires n <= |ks|
  {
    if n == 0 then Table(map[], {}, {})
    else AddLine(TableAfter(ks, n - 1), ks[n - 1], SoundAfter(ks, n - 1))
  }

  /** One more line, as each part of the table and the sound in force see it. */
  lemma TableStep(ks: seq<Kind>, i: nat)
    requires i < |ks|
    ensures TableAfter(ks, i + 1).sounds == TableAfter(ks, i).sounds + (if ks[i].Section? then {ks[i].sound} else {})
    ensures TableAfter(ks, i + 1).rex == TableAfter(ks, i).rex + (if ks[i].Pattern? then {(ks[i].source, SoundAfter(ks, i))} else {})
    ensures TableAfter(ks, i + 1).items == if ks[i].Item? then TableAfter(ks, i).items[ks[i].name := SoundAfter(ks, i)] else TableAfter(ks, i).items
    ensures SoundAfter(ks, i + 1) == if ks[i].Section? then Some(ks[i].sound) else SoundAfter(ks, i)
  {
  }

  /** `SpItem.load`: classifies each line and reads them in order. */
  method Load(lines: seq<string>) returns (t: Table)
    ensures t == TableAfter(Kinds(lines), |lines|)
  {
    t := Fill(Kinds(lines));
  }

  /** The loop of `SpItem.load` over the classified lines: the sound of the latest section
      header is in force; patterns and items are recorded with it. */
  method Fill(ks: seq<Kind>) returns (t: Table)
    ensures t == TableAfter(ks, |ks|)
  {
    var items: map<string, Option<string>> := map[];
    var rex: set<(string, Option<string>)> := {};
    var sounds: set<string> := {};
    var current: Option<string> := None;
    var i := 0;
    while i < |ks|
      invariant 0 <= i <= |ks|
      invariant current == SoundAfter(ks, i)
      invariant items == TableAfter(ks, i).items
      invariant rex == TableAfter(ks, i).rex
      invariant sounds == TableAfter(ks, i).sounds
    {
      var k := ks[i];
      TableStep(ks, i);
      match k {
        case Blank =>
        case Section(sound) =>
          current := Some(sound);
          sounds := sounds + {sound};
        case Pattern(source) =>
          rex := rex + {(source, current)};
        case Item(name) =>
          items := items[name := current];
      }
      i := i + 1;
    }
    return Table(items, rex, sounds);
  }

  /** The sounds are exactly the section names. */
  lemma {:induction false} SoundsAreSections(ks: seq<Kind>, n: nat)
    requires n <= |ks|
    ensures forall s :: s in TableAfter(ks, n).sounds <==> exists i :: 0 <= i < n && ks[i] == Section(s)
  {
    if n > 0 {
      SoundsAreSections(ks, n - 1);
      TableStep(ks, n - 1);
    }
  }

  /** The patterns are exactly the `/.../` lines, each with the sound in force where it appears. */
  lemma {:induction false} PatternsWithSounds(ks: seq<Kind>, n: nat)
    requires n <= |ks|
    ensures forall p, a :: (p, a) in TableAfter(ks, n).rex <==>
      exists i :: 0 <= i < n && ks[i] == Pattern(p) && SoundAfter(ks, i) == a
  {
    if n > 0 {
      PatternsWithSounds(ks, n - 1);
      TableStep(ks, n - 1);
    }
  }

  /** Line `i` is the last of the first `n` lines to name item `name`. */
  predicate LastItem(ks: seq<Kind>, i: int, n: nat, name: string)
    requires n <= |ks|
  {
    0 <= i < n && ks[i] == Item(name) && forall j :: i < j < n ==> ks[j] != Item(name)
  }

  /** The items are exactly the item lines; an item listed twice keeps the sound in force at its
      last line. */
  lemma {:induction false} ItemsWithSounds(ks: seq<Kind>, n: nat)
    requires n <= |ks|
    ensures forall name :: name in TableAfter(ks, n).items <==> exists i :: 0 <= i < n && ks[i] == Item(name)
    ensures forall name, i :: LastItem(ks, i, n, name) ==> TableAfter(ks, n).items[name] == SoundAfter(ks, i)
  {
    if n > 0 {
      ItemsWithSounds(ks, n - 1);
      TableStep(ks, n - 1);
      forall name, i | LastItem(ks, i, n, name)
        ensures TableAfter(ks, n).items[name] == SoundAfter(ks, i)
      {
        if i < n - 1 {
          assert LastItem(ks, i, n - 1, name);
        }
      }
    }
  }
}

=== FILE: talkatives.dfy ===
/**
 * The chatter detector (`TalkativesDetector`, identical in misc.py and app/misc.py): it
 * remembers each text it is shown until `period` seconds later and says whether the same text
 * was already remembered and not yet expired.
 *
 * The min-heap of `(expiry, text)` pairs is kept as a sequence in expiry order; what `heappop`
 * removes first is an entry with the least expiry, which is all `forget` relies on. The clock is
 * a parameter.
 */
module Talkatives {
  /** One remembered text and the time it expires. */
  datatype Memo = Memo(expiry: real, text: string)

  /** The heap order: expiries never decrease. */
  predicate Ordered(h: seq<Memo>) {
    forall i, j :: 0 <= i < j < |h| ==> h[i].expiry <= h[j].expiry
  }

  /** The entries of `h` that have not expired at time `t` (expiry at or after `t`), in order. */
  function Live(h: seq<Memo>, t: real): (r: seq<Memo>)
    ensures |r| <= |h|
    ensures forall k :: 0 <= k < |r| ==> r[k].expiry >= t
    ensures forall m :: m in r <==> m in h && m.expiry >= t
  {
    if h == [] then []
    else
      assert forall m :: m in h <==> m == h[0] || m in h[1..];
      (if h[0].expiry >= t then [h[0]] else []) + Live(h[1..], t)
  }

  /** `text` is remembered by an entry that has not expired at time `t`. */
  predicate Said(h: seq<Memo>, text: string, t: real) {
    exists k :: 0 <= k < |h| && h[k].expiry >= t && h[k].text == text
  }

  /** `any(x[1] == text for x in heap)`. */
  function Mentions(h: seq<Memo>, text: string): (r: bool)
    ensures r <==> exists k :: 0 <= k < |h| && h[k].text == text
  {
    if h == [] then false
    else
      var rest := Mentions(h[1..], text);
      assert forall k :: 1 <= k < |h| ==> h[k] == h[1..][k - 1];
      h[0].text == text || rest
  }

  /** `heappush`: the new entry goes after every entry that does not expire later. */
  function Push(h: seq<Memo>, m: Memo): (r: seq<Memo>)
    ensures multiset(r) == multiset(h) + multiset{m}
  {
    if h == [] then [m]
    else if m.expiry < h[0].expiry then [m] + h
    else
      assert h == [h[0]] + h[1..];
      [h[0]] + Push(h[1..], m)
  }

  lemma {:induction false} PushOrdered(h: seq<Memo>, m: Memo)
    requires Ordered(h)
    ensures Ordered(Push(h, m))
  {
    if h != [] && m.expiry >= h[0].expiry {
      PushOrdered(h[1..], m);
      var t := Push(h[1..], m);
      forall y | y in t
        ensures h[0].expiry <= y.expiry
      {
        assert y in multiset(t);
        if y != m {
          assert y in multiset(h[1..]);
        }
      }
    }
  }

  /** In heap order, the entries still live at `t` are exactly those after the expired prefix. */
  lemma {:induction false} LiveSuffix(h: seq<Memo>, t: real)
    requires Ordered(h) && (h == [] || h[0].expiry >= t)
    ensures Live(h, t) == h
  {
    if h != [] {
      assert Ordered(h[1..]);
      assert h[1..] == [] || h[1..][0].expiry >= t;
      LiveSuffix(h[1..], t);
    }
  }

  class TalkativesDetector {
    /** `self.heap`. */
    var heap: seq<Memo>

    predicate Valid()
      reads this
    {
      Ordered(heap)
    }

    constructor()
      ensures Valid() && heap == []
    {
      heap := [];
    }

    /** `forget(t)`: pops the expired entries, those whose expiry is before `t`; what remains is
        every entry that has not expired, still in heap order. */
    method Forget(t: real)
      requires Valid()
      modifies this
      ensures Valid()
      ensures heap == Live(old(heap), t)
      ensures forall k :: 0 <= k < |heap| ==> heap[k].expiry >= t
    {
      while heap != [] && heap[0].expiry < t
        invariant Ordered(heap)
        invariant Live(heap, t) == Live(old(heap), t)
        decreases |heap|
      {
        heap := heap[1..];
      }
      LiveSuffix(heap, t);
    }

    /** `detector(text, period)` at time `now`: whether `text` was remembered and has not
        expired; the text is remembered until `now + period` in any case. The source's
        `period` defaults to 60 seconds; its callers pass their own guard time. */
    method Check(text: string, now: real, period: real) returns (seen: bool)
      requires Valid()
      modifies this
      ensures Valid()
      ensures seen <==> Said(old(heap), text, now)
      ensures heap == Push(Live(old(heap), now), Memo(now + period, text))
    {
      Forget(now);
      seen := Mentions(heap, text);
      if seen {
        var k :| 0 <= k < |heap| && heap[k].text == text;
        assert heap[k] in Live(old(heap), now);
      } else {
        forall j | 0 <= j < |old(heap)| && old(heap)[j].expiry >= now
          ensures old(heap)[j].text != text
        {
          assert old(heap)[j] in heap;
        }
      }
      PushOrdered(heap, Memo(now + period, text));
      heap := Push(heap, Memo(now + period, text));
    }
  }

  /** Two calls with the same text: the second reports it whenever it comes no later than
      `period` seconds after the first. */
  lemma RepeatWithinPeriod(h: seq<Memo>, text: string, now: real, period: real, later: real)
    requires later <= now + period
    ensures Said(Push(Live(h, now), Memo(now + period, text)), text, later)
  {
    var r := Push(Live(h, now), Memo(now + period, text));
    assert Memo(now + period, text) in multiset(r);
    var k :| 0 <= k < |r| && r[k] == Memo(now + period, text);
  }
}

=== FILE: text.dfy ===
/**
 * String helpers with Python's semantics: whitespace as `str.isspace` sees it,
 * `lstrip`/`strip`, prefix and substring tests, code-point ordering of `str`,
 * `int(s)` and the decimal and comma-grouped renderings of an integer.
 */
module Text {
  import opened Wrappers

  /** The characters for which Python's `str.isspace()` is true. */
  predicate IsSpace(c: char) {
    var k := c as int;
    (0x09 <= k <= 0x0D) || (0x1C <= k <= 0x20) || k == 0x85 || k == 0xA0 || k == 0x1680
    || (0x2000 <= k <= 0x200A) || k == 0x2028 || k == 0x2029 || k == 0x202F || k == 0x205F
    || k == 0x3000
  }

  predicate IsPrefix(p: string, s: string) {
    |p| <= |s| && s[..|p|] == p
  }

  predicate IsSuffix(p: string, s: string) {
    |p| <= |s| && s[|s| - |p|..] == p
  }

  /** A suffix of a suffix is a suffix. */
  lemma SuffixTrans(a: string, b: string, c: string)
    requires IsSuffix(a, b) && IsSuffix(b, c)
    ensures IsSuffix(a, c)
  {
    assert c[|c| - |a|..] == c[|c| - |b|..][|b| - |a|..];
  }

  /** What is left after the first `n` characters is a suffix. */
  lemma DropSuffix(s: string, n: nat)
    requires n <= |s|
    ensures IsSuffix(s[n..], s)
  {
  }

  /** `w` occurs in `s` starting at index `i`. */
  predicate OccursAt(s: string, w: string, i: int) {
    0 <= i && i + |w| <= |s| && s[i..i + |w|] == w
  }

  /** Python's `w in s` for strings. */
  predicate Contains(s: string, w: string) {
    exists i :: 0 <= i <= |s| - |w| && OccursAt(s, w, i)
  }

  /** Python's `s.lstrip()`: drops leading whitespace. */
  function LStrip(s: string): (r: string)
    ensures IsSuffix(r, s)
    ensures r == [] || !IsSpace(r[0])
    ensures forall i :: 0 <= i < |s| - |r| ==> IsSpace(s[i])
  {
    if s != [] && IsSpace(s[0]) then
      var r := LStrip(s[1..]);
      DropSuffix(s, 1);
      SuffixTrans(r, s[1..], s);
      SpacesBefore(s, |s| - |r|);
      r
    else s
  }

  /** A space followed by spaces up to `n`: spaces up to `n`. */
  lemma SpacesBefore(s: string, n: nat)
    requires 1 <= n <= |s| && IsSpace(s[0]) && forall j :: 0 <= j < n - 1 ==> IsSpace(s[1..][j])
    ensures forall i :: 0 <= i < n ==> IsSpace(s[i])
  {
    forall i | 1 <= i < n
      ensures IsSpace(s[i])
    {
      assert s[i] == s[1..][i - 1];
    }
  }

  /** Python's `s.rstrip()`: drops trailing whitespace. */
  function RStrip(s: string): (r: string)
    ensures IsPrefix(r, s)
    ensures r == [] || !IsSpace(r[|r| - 1])
    ensures forall i :: |r| <= i < |s| ==> IsSpace(s[i])
  {
    if s != [] && IsSpace(s[|s| - 1]) then RStrip(s[..|s| - 1]) else s
  }

  /** Python's `s.strip()`: the part of `s` left once the whitespace at both ends is gone. */
  function Strip(s: string): (r: string)
    ensures |r| <= |s|
    ensures r == [] || (!IsSpace(r[0]) && !IsSpace(r[|r| - 1]))
    ensures exists a :: StrippedAt(s, r, a)
  {
    var l := LStrip(s);
    var r := RStrip(l);
    var a := |s| - |l|;
    assert s[a..a + |r|] == l[..|r|];
    assert StrippedAt(s, r, a);
    r
  }

  /** `r` stands in `s` at `a`, with only whitespace before and after it. */
  predicate StrippedAt(s: string, r: string, a: nat) {
    && a + |r| <= |s| && s[a..a + |r|] == r
    && (forall k :: 0 <= k < a ==> IsSpace(s[k]))
    && (forall k :: a + |r| <= k < |s| ==> IsSpace(s[k]))
  }

  /** `a < b` for Python strings: code-point lexicographic order. */
  predicate LexLess(a: string, b: string) {
    if a == [] then b != []
    else if b == [] then false
    else if a[0] != b[0] then a[0] < b[0]
    else LexLess(a[1..], b[1..])
  }

  lemma {:induction false} LexLessIrreflexive(a: string)
    ensures !LexLess(a, a)
  {
    if a != [] {
      LexLessIrreflexive(a[1..]);
    }
  }

  lemma {:induction false} LexLessTransitive(a: string, b: string, c: string)
    requires LexLess(a, b) && LexLess(b, c)
    ensures LexLess(a, c)
  {
    if a != [] && b != [] && c != [] && a[0] == b[0] && b[0] == c[0] {
      LexLessTransitive(a[1..], b[1..], c[1..]);
    }
  }

  lemma {:induction false} LexLessTotal(a: string, b: string)
    requires a != b
    ensures LexLess(a, b) || LexLess(b, a)
  {
    if a != [] && b != [] && a[0] == b[0] {
      assert a == [a[0]] + a[1..] && b == [b[0]] + b[1..];
      LexLessTotal(a[1..], b[1..]);
    }
  }

  predicate IsDigit(c: char) {
    '0' <= c <= '9'
  }

  predicate AllDigits(s: string) {
    forall i :: 0 <= i < |s| ==> IsDigit(s[i])
  }

  function DigitChar(d: nat): (c: char)
    requires d < 10
    ensures IsDigit(c) && c as int - '0' as int == d
  {
    ('0' as int + d) as char
  }

  /** The value of a run of decimal digits. */
  function DigitsValue(s: string): nat
    requires AllDigits(s)
  {
    if s == [] then 0 else DigitsValue(s[..|s| - 1]) * 10 + (s[|s| - 1] as int - '0' as int)
  }

  /** The decimal rendering of a natural number (`str(n)`). */
  function NatToString(n: nat): (r: string)
    ensures r != [] && AllDigits(r)
  {
    if n < 10 then [DigitChar(n)] else NatToString(n / 10) + [DigitChar(n % 10)]
  }

  /** The decimal rendering of an integer (`str(n)` or `f'{n}'`). */
  function IntToString(n: int): (r: string)
    ensures r != []
  {
    if n < 0 then "-" + NatToString(-n) else NatToString(n)
  }

  /** Python's `int(s)` on decimal text: optional surrounding whitespace, an optional sign and
      at least one ASCII digit; `None` where Python raises `ValueError`, and also for the
      underscores between digits and the non-ASCII decimal digits that Python accepts. */
  function ParseInt(s: string): Option<int>
  {
    var t := Strip(s);
    var sign := if t != [] && (t[0] == '-' || t[0] == '+') then 1 else 0;
    var digits := t[sign..];
    if digits == [] || !AllDigits(digits) then None
    else
      var v: int := DigitsValue(digits);
      Some(if t[0] == '-' then -v else v)
  }

  lemma {:induction false} NatToStringValue(n: nat)
    ensures DigitsValue(NatToString(n)) == n
  {
    var r := NatToString(n);
    if n >= 10 {
      NatToStringValue(n / 10);
      assert r[..|r| - 1] == NatToString(n / 10);
    }
  }

  /** `int(str(n)) == n`. */
  lemma ParseIntRoundTrip(n: int)
    ensures ParseInt(IntToString(n)) == Some(n)
  {
    var s := IntToString(n);
    var m: nat := if n < 0 then -n else n;
    var d := NatToString(m);
    assert Strip(s) == s by {
      assert !IsSpace(s[0]) && !IsSpace(s[|s| - 1]);
      StripUnspaced(s);
    }
    NatToStringValue(m);
    if n < 0 {
      ParseIntMinus(s, d);
    } else {
      ParseIntPlain(s);
    }
  }

  /** `int` of stripped text made of a minus sign and a run of digits. */
  lemma ParseIntMinus(s: string, d: string)
    requires d != [] && AllDigits(d) && Strip(s) == s && s == "-" + d
    ensures ParseInt(s) == Some(-(DigitsValue(d) as int))
  {
    var t := Strip(s);
    assert t[0] == '-' && t[1..] == d;
  }

  /** `int` of stripped text made of a run of digits. */
  lemma ParseIntPlain(s: string)
    requires s != [] && AllDigits(s) && Strip(s) == s
    ensures ParseInt(s) == Some(DigitsValue(s) as int)
  {
    var t := Strip(s);
    assert IsDigit(t[0]) && t[0..] == s;
  }

  /** Text with no whitespace at either end is its own `strip()`. */
  lemma StripUnspaced(s: string)
    requires s != [] && !IsSpace(s[0]) && !IsSpace(s[|s| - 1])
    ensures Strip(s) == s
  {
    assert LStrip(s) == s;
  }

  /** Three digits with leading zeros (one group of `f'{n:,}'`). */
  function Pad3(n: nat): (r: string)
    requires n < 1000
    ensures |r| == 3 && AllDigits(r)
  {
    [DigitChar(n / 100), DigitChar(n / 10 % 10), DigitChar(n % 10)]
  }

  function GroupedNat(n: nat): (r: string)
    ensures r != []
  {
    if n < 1000 then NatToString(n) else GroupedNat(n / 1000) + "," + Pad3(n % 1000)
  }

  /** `f'{n:,}'`: the decimal rendering with a comma between groups of three digits. */
  function Grouped(n: int): (r: string)
  {
    if n < 0 then "-" + GroupedNat(-n) else GroupedNat(n)
  }

  /** The text with every comma removed. */
  function DropCommas(s: string): (r: string)
    ensures |r| <= |s|
  {
    if s == [] then [] else (if s[0] == ',' then [] else [s[0]]) + DropCommas(s[1..])
  }

  /** Concatenation regroups freely. */
  lemma AppendAssoc<T>(a: seq<T>, b: seq<T>, c: seq<T>)
    ensures a + b + c == a + (b + c)
  {
  }

  lemma {:induction false} DropCommasAppend(a: string, b: string)
    ensures DropCommas(a + b) == DropCommas(a) + DropCommas(b)
  {
    if a == [] {
      assert a + b == b;
    } else {
      var c, t := a[0], a[1..];
      var h := if c == ',' then [] else [c];
      assert a == [c] + t && a + b == [c] + (t + b);
      DropCommasCons(c, t + b);
      DropCommasCons(c, t);
      DropCommasAppend(t, b);
      AppendAssoc(h, DropCommas(t), DropCommas(b));
    }
  }

  lemma DropCommasCons(c: char, t: string)
    ensures DropCommas([c] + t) == (if c == ',' then [] else [c]) + DropCommas(t)
  {
    assert ([c] + t)[1..] == t;
  }

  lemma {:induction false} DropCommasDigits(s: string)
    requires AllDigits(s)
    ensures DropCommas(s) == s
  {
    if s != [] {
      DropCommasDigits(s[1..]);
    }
  }

  lemma NatToStringShift(a: nat, b: nat)
    requires a >= 1 && b < 1000
    ensures NatToString(a * 1000 + b) == NatToString(a) + Pad3(b)
  {
    var n := a * 1000 + b;
    var n1 := a * 100 + b / 10;
    var n2 := a * 10 + b / 100;
    assert n == n1 * 10 + b % 10;
    assert n / 10 == n1 && n % 10 == b % 10;
    assert n1 == n2 * 10 + b / 10 % 10;
    assert n1 / 10 == n2 && n1 % 10 == b / 10 % 10;
    assert n2 / 10 == a && n2 % 10 == b / 100;
    assert NatToString(n) == NatToString(n1) + [DigitChar(b % 10)];
    assert NatToString(n1) == NatToString(n2) + [DigitChar(b / 10 % 10)];
    assert NatToString(n2) == NatToString(a) + [DigitChar(b / 100)];
  }

  lemma {:induction false} GroupedNatDigits(n: nat)
    ensures DropCommas(GroupedNat(n)) == NatToString(n)
  {
    if n < 1000 {
      DropCommasDigits(NatToString(n));
    } else {
      var a, b := n / 1000, n % 1000;
      var g, p := GroupedNat(a), Pad3(b);
      calc {
        DropCommas(GroupedNat(n));
        { assert GroupedNat(n) == g + ("," + p); }
        DropCommas(g + ("," + p));
        { DropCommasAppend(g, "," + p); }
        DropCommas(g) + DropCommas("," + p);
        { GroupedNatDigits(a); DropCommasAppend(",", p); DropCommasDigits(p); assert DropCommas(",") == []; }
        NatToString(a) + p;
        { assert n == a * 1000 + b; NatToStringShift(a, b); }
        NatToString(n);
      }
    }
  }

  /** Removing the group separators from `f'{n:,}'` gives `str(n)`, so the grouped text still
      denotes `n`. */
  lemma GroupedRoundTrip(n: int)
    ensures DropCommas(Grouped(n)) == IntToString(n)
    ensures ParseInt(DropCommas(Grouped(n))) == Some(n)
  {
    assert DropCommas(Grouped(n)) == IntToString(n) by {
      if n < 0 {
        var g := GroupedNat(-n);
        assert Grouped(n) == "-" + g && IntToString(n) == "-" + NatToString(-n);
        GroupedNatDigits(-n);
        DropCommasAppend("-", g);
        assert DropCommas("-") == "-" by {
          DropCommasCons('-', []);
          assert ['-'] + [] == "-";
        }
      } else {
        GroupedNatDigits(n);
      }
    }
    ParseIntRoundTrip(n);
  }

  /** Python's `s[1:-1]`. */
  function Inner(s: string): (r: string)
    ensures |s| >= 2 ==> |r| == |s| - 2 && forall i :: 0 <= i < |r| ==> r[i] == s[i + 1]
    ensures |s| < 2 ==> r == []
  {
    if |s| < 2 then [] else s[1..|s| - 1]
  }

  /** Python's `s[i:j]` for non-negative bounds: clamped to the string. */
  function Slice(s: string, i: nat, j: nat): (r: string)
    ensures |r| <= |s|
    ensures i <= j <= |s| ==> r == s[i..j]
    ensures i <= |s| < j ==> r == s[i..]
    ensures j <= i || |s| <= i ==> r == []
  {
    var a := if i < |s| then i else |s|;
    var b := if j < |s| then j else |s|;
    if a <= b then s[a..b] else []
  }
}

=== FILE: usersfile.dfy ===
/**
 * The reload-if-newer cache of app/misc.py (`UsersFile`): each call returns the loaded data,
 * loading the file again only when its modification time is later than that of the last load,
 * and falling back to a second loader when the file is missing and nothing was loaded yet.
 *
 * `stat` and the loaders are outside the model: a call receives the file's modification time
 * (`None` when the file is missing), what `loader` would return, and what `loader2` would return
 * (`None` when there is no `loader2`).
 */
module Users {
  import opened Wrappers

  /** The state after one call: the modification time of the last load and the data. */
  datatype Cache<D> = Cache(mtime: real, data: Option<D>)

  /** One call of `__call__`. */
  function Refresh<D>(c: Cache<D>, stat: Option<real>, loaded: D, fallback: Option<D>): (r: Cache<D>)
    ensures stat.Some? && c.mtime < stat.value ==> r == Cache(stat.value, Some(loaded))
    ensures stat.Some? && c.mtime >= stat.value ==> r == c
    ensures stat.None? ==> r.mtime == c.mtime
    ensures stat.None? && c.data.None? ==> r.data == fallback
    ensures stat.None? && c.data.Some? ==> r.data == c.data
    ensures r.mtime >= c.mtime
    ensures c.data.Some? ==> r.data.Some?
  {
    match stat
    case Some(t) =>
      if c.mtime < t then Cache(t, Some(loaded)) else c
    case None =>
      if c.data.None? && fallback.Some? then c.(data := fallback) else c
  }

  /** A second call that sees the same modification time loads nothing and returns the same
      data. */
  lemma SecondCallKeeps<D>(c: Cache<D>, t: real, loaded: D, again: D, fallback: Option<D>)
    ensures Refresh(Refresh(c, Some(t), loaded, fallback), Some(t), again, fallback) == Refresh(c, Some(t), loaded, fallback)
  {
  }

  class UsersFile<D> {
    var mtime: real
    var data: Option<D>

    constructor()
      ensures mtime == 0.0 && data == None
    {
      mtime := 0.0;
      data := None;
    }

    /** `__call__`: reloads when the file is newer than the last load, uses `loader2` when the
        file is missing and nothing is loaded, and returns the current data in any case. */
    method Call(stat: Option<real>, loaded: D, fallback: Option<D>) returns (r: Option<D>)
      modifies this
      ensures Cache(mtime, data) == Refresh(Cache(old(mtime), old(data)), stat, loaded, fallback)
      ensures r == data
    {
      if stat.Some? {
        var t := stat.value;
        if mtime < t {
          data := Some(loaded);
          mtime := t;
        }
      } else {
        if data.None? && fallback.Some? {
          data := fallback;
        }
      }
      return data;
    }
  }
}

=== FILE: wrappers.dfy ===
/** Optional values and error results shared by every module of the model. */
module Wrappers {

  /** A value that may be absent (Python's `None`). */
  datatype Option<+T> = None | Some(value: T)

  /** The outcome of an operation that either succeeds with a value or raises an exception. */
  datatype Result<+T, +E> = Ok(value: T) | Err(error: E)
}
